=== FILE: README.md ===
# ADN Agents dashboard — a Dafny model of its decision logic

The ADN Agents dashboard is a Next.js application. Signed-in users browse
AI agents ("tools") kept in a registry database, create new ones of three
kinds (hardcoded, N8N and Dust), manage the security keys those tools use,
and chat with agents served by an Agno backend through a same-origin proxy.
Most of the application is rendering, database access and network plumbing.
This project models the deterministic logic underneath those layers, as
pure Dafny functions over immutable data, and proves what that logic
promises.

What is modelled, one Dafny module per source file:

- **Authentication.**
  - `ServerAuth`: cookie-header parsing, and mapping JWT claims to the current user.
  - `WithAuth`: the `withAuth` gate and `getCurrentUser`.
  - `Middleware`: the edge middleware's public-path and cookie-presence decision.
- **The Agno proxy.** `AgnoProxy` covers the upstream base, outbound header construction, the response-header allow-list, and the URL and status behaviour of the three proxy calls.
- **The API routes.** They are total functions from the request body, the caller's claims, a database snapshot and the upstream outcome to a status, an error code and the written records:
  - `ToolsRoute` and `ToolStore`: unified tool creation;
  - `RegistryRoute`: the tool registry;
  - `N8nRoute`, `DustRoute` and `HardcodedRoute`: the per-kind profile endpoints;
  - `SecurityKeysRoute`: security keys;
  - `RolesRoute`: the roles endpoint;
  - `UserRoute` and `UserInfo`: the user endpoint.
- **Client state.**
  - `TtlCache`, `TagsCache`, `SecurityKeysCache` and `UserRolesCache`: the three TTL caches, as explicit-time state machines.
  - `Config`: environment-driven configuration.
  - `ApiRoutes`: the playground URL builders.
  - `Playground`: the playground API client.
- **Display and permission helpers.**
  - `AgentInfo`: the creator name.
  - `TagsList`: the tag strip.
  - `Dashboard`: the dashboard's card list, filters and permission flags.
  - `AddAgentModal`: the add/edit form.
  - `ContextMenu`: the per-card menu.

Shared modules:

- `Wrappers`: `Option` and `Result`.
- `Strings`: JavaScript `split`, `join` and `trim`, ASCII case mapping, and integer rendering.
- `Js`: JSON values with JavaScript truthiness, `String()` and `Number()`.
- `Http`: replies, and handlers that may throw.
- `Ordering`: a descending sort on lexicographic keys.

External effects are inputs:

- The JWT library is a `Verifier` oracle from a token to claims, or `None` when it throws.
- The database is a `ToolStore.Store` snapshot, and a write returns the new snapshot.
- Generated ids, the clock and failures other than unique-key clashes come in through `ToolStore.WriteEnv`.
- Each `fetch` is a datatype of outcomes: the request rejected, a non-ok status, a body that does not parse, or the parsed value.
- Environment variables are `Option<string>` parameters.

Where the code's behaviour is surprising it is modelled as written and
exposed by a lemma rather than smoothed over. Examples:

- The security-keys GET authorises with the canonical user id, while POST uses the token's id (`SecurityKeysRoute.GetAndPostDisagree`).
- The user endpoint answers 403 on an upstream failure where the roles endpoint falls back silently (`UserRoute.HardFailWhereRolesSoftFail`).
- A negative tag limit over-counts hidden tags (`TagsList.NegativeLimitOvercounts`).

The dashboard's notes lookup reads `h.notes || h.registry.notes`, but the
hardcoded listing (src/app/api/tools/hardcoded/route.ts:15-22) selects no
`notes` column of the registry row. The second operand is therefore always
undefined, and `Dashboard.NoteOf` models only the profile's own notes.

## Model

| member | source | states |
|---|---|---|
| `Middleware.Middleware` | src/middleware.ts:15-40 | A public path, or any non-empty auth cookie, lets the request through; otherwise an API path is answered 401 `{"error":"Unauthorized"}` as JSON and any other path renders; the refusal happens exactly when all three conditions hold |
| `Middleware.IsPublic` | src/middleware.ts:8-21 | A path is public exactly when it equals one of the four public paths or lies below one of them; each public path is itself public |
| `Middleware.PresenceOnly` | src/middleware.ts:24-27 | The cookie is only checked for presence: any two non-empty values, a forged token included, lead to the same decision |
| `Middleware.EmptyCookieIsMissing` | src/middleware.ts:24-25 | An empty cookie value is treated exactly like a missing one |
| `Middleware.PrefixNeedsBoundary` | src/middleware.ts:8-19 | A public prefix only matches up to a `/` boundary: `/healthz` and `/api/healthcheck` are not public, so the latter is refused without a cookie, while `/health/live` passes |
| `ServerAuth.AuthCookieName` | src/lib/auth/serverAuth.ts:15 | The cookie name is the configured one when it is set and non-empty, and `auth_token` otherwise; it is never empty |
| `ServerAuth.CookieSegments` | src/lib/auth/serverAuth.ts:34 | The header splits into exactly the `;`-separated pieces, and every piece after the first loses its leading white space |
| `ServerAuth.CookiePieceRoundTrip` | src/lib/auth/serverAuth.ts:36-38 | A piece is its name, `=`, and its value: the value is everything after the first `=`, further `=` included; a piece without `=` is all name with an empty value |
| `ServerAuth.FindCookie` | src/lib/auth/serverAuth.ts:35-45 | The scan finds nothing exactly when no piece carries the name |
| `ServerAuth.FindCookieFirst` | src/lib/auth/serverAuth.ts:35-43 | When several pieces carry the name, the value returned is that of the first one |
| `ServerAuth.GetAuthCookie` | src/lib/auth/serverAuth.ts:27-46 | A missing or empty header gives null; otherwise the answer is the first matching piece's value among the header's pieces |
| `ServerAuth.SingleCookieExtracted` | src/lib/auth/serverAuth.ts:33-42 | A header holding only `name=value` gives back `value`, even when the value itself contains `=` |
| `ServerAuth.BareCookieIsEmpty` | src/lib/auth/serverAuth.ts:36-38 | A cookie written as a bare name, with no `=`, gives the empty token |
| `ServerAuth.MapClaims` | src/lib/auth/serverAuth.ts:70-92 | The user id is the first present of `sub`, `user_data.email`, `email` and `device_id`; with none of them the token is refused as missing an identifier; a user is always active, and the email, tenant, roles, session and device fields come from the claims with the same fallbacks |
| `ServerAuth.VerifyJwtToken` | src/lib/auth/serverAuth.ts:48-93 | A token the JWT library rejects is an error and never a user; a verified token yields exactly the claim mapping, so any user it returns has a non-empty id and is active |
| `WithAuth.ReadToken` | src/lib/auth/withAuth.ts:9-10 | The token a gate acts on is the extracted cookie value; an absent or empty value counts as no token |
| `WithAuth.Authenticate` | src/lib/auth/withAuth.ts:9-13 | A request authenticates exactly when it has a token and that token verifies and maps to a user, and then it authenticates as that user |
| `WithAuth.Gate` | src/lib/auth/withAuth.ts:6-19 | Without a token, or with one that fails verification, the reply is 401 `Unauthorized`; with a user the reply is the handler's own reply, or 401 when the handler throws; every reply is either the 401 or one the handler produced |
| `WithAuth.HandlerNotInvokedWithoutUser` | src/lib/auth/withAuth.ts:10-13 | Without an authenticated user the handler plays no part: any two handlers give the same 401 |
| `WithAuth.GetCurrentUser` | src/lib/auth/getCurrentUser.ts:5-14 | The current user is null without a token or when verification fails, and otherwise exactly the verified user |
| `WithAuth.GatesAgree` | src/lib/auth/getCurrentUser.ts:5-14 | The two gates agree: `withAuth` refuses exactly when `getCurrentUser` finds nobody, and otherwise hands the handler that same user |
| `Config.ApiUrl` | src/lib/config.ts:4 | The proxy base is `/api/agno` when unset or empty; a configured base is kept, minus one trailing slash if it had one |
| `Config.Enabled` | src/lib/config.ts:5 | The Agno client is on exactly when the flag is unset or is literally `true`; any other value, the empty string included, turns it off |
| `Config.NonBlankTrimmed` | src/lib/config.ts:11-12 | Cleaning a list never lengthens it and never keeps an empty entry |
| `Config.NonBlankTrimmedMembers` | src/lib/config.ts:9-12 | The kept entries are exactly the trimmed pieces that are not blank: every such piece is kept and nothing else appears |
| `Config.AlternativeEndpoints` | src/lib/config.ts:9-23 | The alternative endpoints are never empty and never hold an empty entry; an unset variable, or one whose entries are all blank, gives the five defaults, and otherwise the list is exactly the variable's comma-separated entries, trimmed, with the blank ones dropped, in order |
| `Config.AlternativesRoundTrip` | src/lib/config.ts:9-16 | A list of clean, comma-free entries written out comma-separated is read back exactly |
| `Config.KeepsClean` | src/lib/config.ts:11-12 | Entries that are non-empty and have nothing to trim pass the cleaning unchanged |
| `Config.AgnoHeaders` | src/lib/config.ts:25-32 | The client headers are exactly `Content-Type` and `Accept`, both `application/json`, and never an `Authorization` header |
| `TtlCache.Initial` | src/store/tags.ts:16-20 | A store starts empty: not loading, no error, never fetched |
| `TtlCache.Begin` | src/store/tags.ts:22-26 | A fetch is skipped exactly while one is in flight or while the last one is still fresh (a stamp of 0 never counts as fresh); otherwise the store is marked loading with its error cleared and nothing else touched |
| `TtlCache.Settle` | src/store/tags.ts:31 | A successful fetch replaces the data, ends loading and stamps the store with the time the fetch began |
| `TtlCache.Fail` | src/store/tags.ts:32-34 | A failed fetch keeps the previous data, records the message, ends loading and is stamped too, so it is not retried before the TTL runs out |
| `TtlCache.Invalidate` | src/store/tags.ts:37 | Invalidation clears only the stamp, after which the store is fresh for no time and no TTL |
| `TtlCache.FetchIfNeeded` | src/store/tags.ts:21-35 | A call is skipped, changing nothing, exactly while a fetch is in flight or the last one is still fresh; otherwise the store's completion step runs on the cache marked loading with its error cleared |
| `TtlCache.ForceRefresh` | src/store/tags.ts:36-39 | While a fetch is in flight a forced refresh only clears the stamp; otherwise the completion step runs on the cache marked loading, with error and stamp cleared, whatever the cache's age |
| `TtlCache.InFlightDeduplicated` | src/store/tags.ts:22-24 | While a fetch is in flight, every further call returns at once, whatever the time |
| `TtlCache.CompletedIsFresh` | src/store/tags.ts:14-25 | After a fetch stamped at a non-zero time, every call within the TTL is skipped |
| `TtlCache.StaleRefetches` | src/store/tags.ts:24-26 | Once the TTL has run out, the next call fetches again |
| `TtlCache.InvalidateForcesFetch` | src/store/tags.ts:36-38 | After invalidation, a call that finds no fetch in flight always fetches |
| `TagsCache.Complete` | src/store/tags.ts:27-34 | A fetch ends not loading and stamped; a good response replaces the tags, while a non-ok status (recorded as its number), a rejected request or an unreadable body keeps the old tags and records the message |
| `TagsCache.FetchIfNeeded` | src/store/tags.ts:21-35 | A skipped call changes nothing; a call that runs ends stamped, without an error exactly when an ok response with readable tags arrived, and then holds those tags; the tags change only through such a success |
| `TagsCache.ForceRefresh` | src/store/tags.ts:36-39 | A forced refresh while a fetch is in flight only clears the stamp; otherwise it fetches whatever the age of the cache, and any non-ok status, 401 and 403 included, keeps the tags and records the status |
| `TagsCache.ForceRefreshIgnoresTtl` | src/store/tags.ts:36-39 | A forced refresh that succeeds holds exactly the delivered tags, with no error, even when the cache was fresh |
| `TagsCache.FailureKeepsTags` | src/store/tags.ts:29-33 | A failed refresh keeps the tags shown before and records the status as the error |
| `SecurityKeysCache.Complete` | src/store/securityKeys.ts:27-38 | A 401 or 403 is not an error: it empties the key list and stamps the store; other non-ok statuses, rejections and unreadable bodies keep the old keys and record the message; a good response replaces the keys |
| `SecurityKeysCache.FetchIfNeeded` | src/store/securityKeys.ts:21-39 | A skipped call changes nothing. A call that runs ends stamped, and without an error exactly when the response was a denial or an ok response with readable keys. A denial (401 or 403) empties the list, readable keys replace it, and any error keeps the keys shown before |
| `SecurityKeysCache.ForceRefresh` | src/store/securityKeys.ts:40-43 | A forced refresh while a fetch is in flight only clears the stamp. Otherwise it fetches whatever the age: a 401 or 403 empties the list without an error, readable keys replace it without an error, and another status, an unreadable body or a network failure keeps the keys and records the status, the parse error or the message |
| `SecurityKeysCache.ClientSeesServerKeys` | src/store/securityKeys.ts:28-35 | Against the keys endpoint, a forced refresh never records an error: a user allowed to list sees every key, newest first, and any other user sees an empty list |
| `SecurityKeysCache.DeniedLooksEmpty` | src/store/securityKeys.ts:29-32 | A user who may not list keys ends in the same state as one shown an empty key table |
| `UserRolesCache.Reset` | src/hooks/useUserRoles.ts:18-25 | `reset` returns the store to its initial state: no roles, not admin, not loading, no error, never fetched |
| `UserRolesCache.HttpErrorMessage` | src/hooks/useUserRoles.ts:41-44 | A non-ok response's error is its body text, or `Failed to load roles: <status>` when the text is empty; it is never empty |
| `UserRolesCache.RolesFrom` | src/hooks/useUserRoles.ts:45-47 | A missing roles field reads as no roles, and `isAdmin` holds exactly when ADMIN is among the roles |
| `UserRolesCache.Complete` | src/hooks/useUserRoles.ts:35-50 | A 401 means no roles rather than an error; other non-ok statuses, rejections and unreadable bodies keep the old roles and record a message; a good response sets the roles and `isAdmin` from them; every outcome ends loading and is stamped |
| `UserRolesCache.FetchRolesOnce` | src/hooks/useUserRoles.ts:28-51 | A skipped call changes nothing. A call that runs ends stamped, and records an error exactly for a rejection, a non-ok status other than 401, or an unreadable body; the error keeps the roles held before. A 401 leaves no roles and not admin, and an ok body gives the roles it lists |
| `UserRolesCache.InvalidateUserRoles` | src/hooks/useUserRoles.ts:75-77 | Invalidation keeps the roles and clears the stamp |
| `UserRolesCache.OperationsKeepConsistent` | src/hooks/useUserRoles.ts:25-47 | Fetching, invalidating and resetting all keep `isAdmin` in step with whether ADMIN is among the roles |
| `UserRolesCache.FailureKeepsRoles` | src/hooks/useUserRoles.ts:48-50 | A failed refresh keeps the roles the user had before |
| `UserRolesCache.SecondCallWithinTtlIsNoOp` | src/hooks/useUserRoles.ts:30-33 | Within a minute of a completed fetch the next call does nothing, whatever the network would answer |
| `UserRolesCache.ClientSeesServerRoles` | src/hooks/useUserRoles.ts:45-47 | Fed by the roles endpoint, a successful fetch records no error, holds at least one role, and says admin exactly when the database gives ADMIN to the user id the endpoint resolved |
| `UserInfo.Me` | src/app/api/auth/roles/route.ts:22 | The `me` object is found only inside an object-valued `data` field of an object body, and is exactly the value stored there |
| `UserInfo.ConfirmedId` | src/app/api/auth/roles/route.ts:20-23 | The identity service confirms an id exactly when the status is ok, the body parses and its `data.me.id` is truthy, and the id confirmed is then that `data.me.id` |
| `UserInfo.MeResponseConfirms` | src/app/api/auth/roles/route.ts:20-23 | An ok answer carrying a non-empty string id confirms exactly that id |
| `RolesRoute.CanonicalUserId` | src/app/api/auth/roles/route.ts:9-30 | The user id is the token's id unless the identity service is configured and confirms another, in which case it is the confirmed id as a string; an unset URL, a network error or a non-ok answer all leave the token's id |
| `RolesRoute.ResolutionsAgree` | src/app/api/auth/roles/route.ts:9-30 | The roles endpoint and the security-keys endpoint resolve the same user id from the same upstream outcome |
| `RolesRoute.EffectiveRoles` | src/app/api/auth/roles/route.ts:37-38 | A user with role rows gets exactly their role names; a user without any gets `["USER"]`; the list is never empty |
| `RolesRoute.Get` | src/app/api/auth/roles/route.ts:8-41 | The roles endpoint always answers 200, reports the resolved user id, and lists that id's database roles, defaulting to USER |
| `RolesRoute.NoRowsMeansUser` | src/app/api/auth/roles/route.ts:38 | A user without role rows is reported as USER and never as admin |
| `RolesRoute.UpstreamFailureIsSoft` | src/app/api/auth/roles/route.ts:12-29 | Any failure of the identity service is absorbed: the answer equals the one given with no service configured |
| `UserRoute.Consult` | src/app/api/auth/user/route.ts:19-70 | Without a URL the service is not consulted; a network error throws; a non-ok status, an unparsable body or a missing `me` is a 403 `Forbidden`; only an ok, parsable answer with a truthy `me` is accepted, and then that `me` is used |
| `UserRoute.Compose` | src/app/api/auth/user/route.ts:72-78 | The answer is always active; its id and email are the service's when truthy and the token's otherwise; roles default to empty and the tenant comes from the token |
| `UserRoute.Get` | src/app/api/auth/user/route.ts:7-85 | No token or a failed verification gives 401; for an authenticated user, a network failure of the identity service gives 401, a refusal by it is answered with that refusal's status and message, and an accepted check gives 200 carrying the profile composed from the token and the service's answer |
| `UserRoute.UnsetUrlUsesToken` | src/app/api/auth/user/route.ts:17-19 | Without the identity service the answer comes from the token alone: the call's outcome plays no part and the id is the token's |
| `UserRoute.HardFailWhereRolesSoftFail` | src/app/api/auth/user/route.ts:41-51 | For the same signed-in user and an identity service that answers with a non-ok status, a body that does not parse, or no `data.me`, the user endpoint answers 403 Forbidden while the roles endpoint answers 200 with the token id's roles |
| `UserRoute.NetworkErrorIsUnauthorized` | src/app/api/auth/user/route.ts:29-37 | A network error reaching the identity service ends in the outer catch, so the answer is 401 rather than 403 |
| `SecurityKeysRoute.ResolveCanonicalUserId` | src/app/api/tools/security-keys/route.ts:15-32 | The canonical id is the token's id unless the URL is configured and the service confirms an id, which is then used as a string; every failure falls back to the token's id |
| `SecurityKeysRoute.AdminByJwt` | src/app/api/tools/security-keys/route.ts:36 | The token grants ADMIN exactly when its roles are a list that contains ADMIN; a token without roles never does |
| `SecurityKeysRoute.MayList` | src/app/api/tools/security-keys/route.ts:36-41 | ADMIN in the token suffices; without it, listing is allowed exactly when the database gives ADMIN to the canonical user id |
| `SecurityKeysRoute.KeyListing` | src/app/api/tools/security-keys/route.ts:43-49 | The listing has one entry per stored key |
| `SecurityKeysRoute.KeyListingOrdered` | src/app/api/tools/security-keys/route.ts:43-49 | The listing is the stored keys rearranged, each as often as it is stored, newest first, each shown in its position as its id, system name and description; every entry comes from a stored key |
| `SecurityKeysRoute.Get` | src/app/api/tools/security-keys/route.ts:34-50 | Listing succeeds exactly when the token carries ADMIN or the database gives ADMIN to the canonical id; it then lists every key, and otherwise answers 403 `forbidden` |
| `SecurityKeysRoute.JwtAdminSkipsResolution` | src/app/api/tools/security-keys/route.ts:36-41 | With ADMIN in the token, neither the identity service nor the role table plays any part in the answer |
| `SecurityKeysRoute.Post` | src/app/api/tools/security-keys/route.ts:52-67 | Creating needs an ADMIN row for the token's id (else 403) and a truthy system name (else 400). A non-string name or a description that cannot be stored is 500; for a storable request a taken trimmed name is 409, a database failure 500, and otherwise 201 with the new id. The store changes only on a 201, which appends exactly the new key with the trimmed name, its description, the creator and the time |
| `SecurityKeysRoute.PostUsesTokenIdOnly` | src/app/api/tools/security-keys/route.ts:54 | Creating looks at nothing but the token's id: the JWT roles and other claims play no part |
| `SecurityKeysRoute.GetAndPostDisagree` | src/app/api/tools/security-keys/route.ts:36-54 | A user whose token carries ADMIN but who has no ADMIN row may list keys and may not create one |
| `SecurityKeysRoute.CanonicalAdminListsButCannotCreate` | src/app/api/tools/security-keys/route.ts:38-54 | A user whose ADMIN row belongs to the id the identity service confirms, and not to the token's id, may list keys and may not create one |
| `SecurityKeysRoute.BlankNameStoredEmpty` | src/app/api/tools/security-keys/route.ts:56-59 | A name of white space only passes the presence check and is stored trimmed, as the empty string |
| `ToolStore.ParseToolType` | src/app/api/tools/route.ts:19 | A type name is read back exactly when it is one of `HARD_CODED`, `N8N` and `DUST`, and reads back as the type it names |
| `ToolStore.IsAdmin` | src/app/api/tools/route.ts:5-11 | A user is an admin exactly when one of the roles stored for them (the role lookup, `ToolStore.RolesOf`) is named ADMIN, so a user without a role row never is; the hardcoded and security-keys routes repeat the same check |
| `ToolStore.MissingTagIds` | src/app/api/tools/route.ts:57-63 | The missing ids are exactly the requested ids with no tag row; there are none exactly when every requested id has one |
| `ToolStore.TagsFor` | src/app/api/tools/route.ts:70-72 | Linking existing tags yields one stored tag per requested id, in the order requested |
| `ToolStore.AddProfile` | src/app/api/tools/route.ts:77-107 | Writing a profile adds exactly one row, to the table of its own kind, and leaves every other table alone |
| `ToolsRoute.TrimmedField` | src/app/api/tools/route.ts:26-27 | A falsy field reads as the empty string and a truthy one as its string form, trimmed; trimming never lengthens a name |
| `ToolsRoute.RequestedType` | src/app/api/tools/route.ts:28 | A falsy type means HARD_CODED; a valid type name is taken as given; any other value is one the database enum rejects |
| `ToolsRoute.EffectiveType` | src/app/api/tools/route.ts:36-39 | A non-admin's request is always HARD_CODED; an admin's keeps the type asked for |
| `ToolsRoute.TagIdsOf` | src/app/api/tools/route.ts:30 | Tag ids are read only from an array, one stringified id per element in order; anything else gives no ids |
| `ToolsRoute.ProfileOf` | src/app/api/tools/route.ts:29 | A falsy profile reads as the empty object; otherwise the profile is taken as given |
| `ToolsRoute.NumberOr` | src/app/api/tools/route.ts:89 | A missing or null timeout takes its default, and a number is taken as given |
| `ToolsRoute.BuildProfile` | src/app/api/tools/route.ts:77-107 | The profile written is of the effective type and carries the registry row's id. HARD_CODED fails exactly when the notes are a truthy non-string, N8N exactly when its timeout is not a number, DUST exactly when one of its three timeouts is not a number. Otherwise the text fields are stored as `String(x)`, the flags as the fields' truthiness, and the timeouts as given or as their defaults 30, 180 and 30 |
| `ToolsRoute.NewRow` | src/app/api/tools/route.ts:65-75 | The registry row carries the generated id, the trimmed names, the effective type, no description, and the requested tags in order |
| `ToolsRoute.Create` | src/app/api/tools/route.ts:54-119 | The transaction succeeds exactly when every tag id exists, the type is valid, the call name is free, the database does not fail and the profile's values fit their columns. An unknown tag is 400 `invalid_tag_ids`; then an invalid type is 500, a taken name 409, and a database failure or a profile that cannot be stored 500 `create_failed`. Any failure leaves the database as it was, and a success adds the row and its profile |
| `ToolsRoute.CreateAddsOneOfEach` | src/app/api/tools/route.ts:54-112 | A successful create appends exactly one registry row and exactly one profile, of the row's type and with its id, and changes nothing else |
| `ToolsRoute.Post` | src/app/api/tools/route.ts:14-120 | A body that does not parse is 400 `invalid_json`; a blank call name or readable name is 400 `missing_fields`; a body that fails the checks before the transaction is always a 400; one that passes goes to the transaction with the admin-adjusted request; only a 201 changes the database |
| `ToolsRoute.IncompleteProfileRefused` | src/app/api/tools/route.ts:42-52 | An admin's N8N or DUST request missing a required profile field is refused with 400 `missing_profile_fields` and writes nothing |
| `ToolsRoute.NonAdminForcedHardcoded` | src/app/api/tools/route.ts:36-48 | A non-admin never meets a 403, and anything they create is a HARD_CODED tool with a HARD_CODED profile |
| `ToolsRoute.UnknownTagCreatesNothing` | src/app/api/tools/route.ts:57-63 | A single unknown tag id refuses the whole request with 400 `invalid_tag_ids` and writes nothing |
| `ToolsRoute.TimeoutDefaults` | src/app/api/tools/route.ts:89-104 | Omitted timeouts take their defaults: 30 seconds for N8N, and 30, 180 and 30 for the three DUST timeouts |
| `ToolsRoute.FlagsAreTruthiness` | src/app/api/tools/route.ts:85-88 | Each N8N flag is set exactly when its field is truthy |
| `ToolsRoute.NameClashIsConflict` | src/app/api/tools/route.ts:113-118 | A taken call name, once the request reaches the insert, is a 409 `explicit_call_name_conflict` and writes nothing |
| `RegistryRoute.Select` | src/app/api/tools/registry/route.ts:18-23 | The query keeps exactly the stored rows of the requested type that have some tag with the requested name, each as often as it is stored |
| `RegistryRoute.ShapeItem` | src/app/api/tools/registry/route.ts:29-38 | A listed item keeps the row's id, type, tags and creation time, and shows a description only when the row has a non-empty one |
| `RegistryRoute.List` | src/app/api/tools/registry/route.ts:13-40 | A non-empty `type` that is not a tool type makes the query throw; otherwise the answer is 200 with the filtered listing, where an empty `type` or `tag` filters nothing |
| `RegistryRoute.ListIsFilteredAndSorted` | src/app/api/tools/registry/route.ts:22-38 | The listing is the rows that pass both filters, each as often as it is stored, ordered by creation time, newest first, each shaped in its position; every passing row appears, shaped, and every item comes from one |
| `RegistryRoute.UnfilteredListsAll` | src/app/api/tools/registry/route.ts:18-28 | Without filters every registry row is listed |
| `RegistryRoute.Create` | src/app/api/tools/registry/route.ts:69-91 | The insert succeeds exactly when every tag id exists, the type is valid, the call name is free and the database does not fail, and then appends exactly the new row. An unknown tag is 400 `invalid_tag_ids`; then a taken name is 409 `explicit_call_name_conflict`, and an invalid type or a database failure 500 `create_failed`. It never creates a profile, and a failure changes nothing |
| `RegistryRoute.Post` | src/app/api/tools/registry/route.ts:42-92 | A body that does not parse is 400 `Invalid JSON`; a blank call name or readable name is 400 `Missing required fields`; otherwise the admin-adjusted request goes to the insert with its description; no profile is ever created, and only a 201 changes the database |
| `RegistryRoute.Description` | src/app/api/tools/registry/route.ts:56 | A falsy description is null; a string one is stored trimmed, so it never starts with white space |
| `RegistryRoute.NewRow` | src/app/api/tools/registry/route.ts:76-85 | The new row carries the generated id, the trimmed names, the description, the effective type and the requested tags in order |
| `RegistryRoute.NonAdminRowIsHardcoded` | src/app/api/tools/registry/route.ts:53-65 | A non-admin's registry row is always HARD_CODED, and holds the trimmed names and the trimmed description |
| `HardcodedRoute.Join` | src/app/api/tools/hardcoded/route.ts:15-20 | A listed profile keeps its id and notes, and carries a registry summary exactly when a registry row with its id exists, that row's |
| `HardcodedRoute.List` | src/app/api/tools/hardcoded/route.ts:13-24 | The listing answers 200 with one entry per hardcoded profile, each a stored profile joined with its registry row, ordered by id descending |
| `HardcodedRoute.ListHasEveryProfile` | src/app/api/tools/hardcoded/route.ts:15-23 | Every stored hardcoded profile appears in the listing |
| `HardcodedRoute.Post` | src/app/api/tools/hardcoded/route.ts:26-42 | A falsy id is 400 `missing_registry_id`; an unknown registry id 404; a row of another type 400 `type_mismatch`; a non-string id throws; for a HARD_CODED row, notes that do not fit the column, an existing profile or a database failure give 500 `create_failed`, and otherwise the profile is created; only a 201 changes the database, adding exactly that profile |
| `HardcodedRoute.PostIgnoresRoles` | src/app/api/tools/hardcoded/route.ts:26-27 | Creating a hardcoded profile does not depend on anyone's roles |
| `HardcodedRoute.CreatedIsListed` | src/app/api/tools/hardcoded/route.ts:13-38 | A profile created through the endpoint shows up in the next listing |
| `N8nRoute.NewProfile` | src/app/api/tools/n8n/route.ts:34-45 | The profile is written with the registry id exactly when the URL and key are strings and the timeout, defaulting to 30, is an integer; the flags are the fields' truthiness, and the URL, the key and the timeout are stored as sent, the timeout as 30 when absent or null |
| `N8nRoute.Post` | src/app/api/tools/n8n/route.ts:13-50 | A non-admin gets 403 before the body is looked at; a missing id, URL or key is 400 `missing_fields`; a non-string id throws; an unknown row is 404 `registry_not_found` and a row of another type 400 `type_mismatch`; for an N8N row, values that do not fit, an existing profile or a database failure give 500 `create_failed`, and otherwise the profile is created; only a 201 changes the database, adding exactly that profile |
| `N8nRoute.CreatedProfileMatchesRegistry` | src/app/api/tools/n8n/route.ts:29-46 | A created profile hangs off an existing N8N registry row, with that row's id, which had no profile before; the registry is unchanged |
| `N8nRoute.SecondPostFails` | src/app/api/tools/n8n/route.ts:33-49 | Posting the same body again hits the primary key: 500 `create_failed`, and the database stays as the first post left it |
| `N8nRoute.Defaults` | src/app/api/tools/n8n/route.ts:39-43 | With only the id, URL and key given, the flags are all false and the timeout is 30 |
| `DustRoute.NewProfile` | src/app/api/tools/dust/route.ts:37-50 | The profile is written with the registry id exactly when the three ids are strings and the three timeouts, defaulting to 30, 180 and 30, are integers; the flags are the fields' truthiness, the three ids are stored as sent, and each timeout as sent or as its default |
| `DustRoute.Post` | src/app/api/tools/dust/route.ts:13-55 | A non-admin gets 403 first; a missing id, workspace, agent or key is 400 `missing_fields`; an unknown row 404; a row of another type 400 `type_mismatch`; a non-string id throws; for a DUST row, values that do not fit, an existing profile or a database failure give 500 `create_failed`, and otherwise the profile is created; only a 201 changes the database |
| `DustRoute.SecondPostFails` | src/app/api/tools/dust/route.ts:36-53 | Posting the same body again fails with 500 `create_failed` and leaves the database as the first post left it |
| `DustRoute.CreatedProfileMatchesRegistry` | src/app/api/tools/dust/route.ts:32-51 | A created profile hangs off an existing DUST registry row and leaves the N8N and hardcoded tables alone |
| `DustRoute.Defaults` | src/app/api/tools/dust/route.ts:43-48 | With only the required fields given, the flags are all false and the timeouts are 30, 180 and 30 |
| `AgnoProxy.UpstreamBase` | src/app/api/agno/_utils.ts:10-14 | The upstream base is the first non-empty of `AGNO_API_URL` and `NEXT_PUBLIC_AGNO_API_URL`, minus one trailing slash, and `http://localhost:7777` when neither is set |
| `AgnoProxy.OneSlashStripped` | src/app/api/agno/_utils.ts:13 | Exactly one trailing slash is removed, so a base ending in two slashes keeps one |
| `AgnoProxy.BuildServerHeaders` | src/app/api/agno/_utils.ts:16-26 | Outbound headers always carry `Content-Type: application/json`; with an API key `Authorization` is `Bearer <key>`, and without one no `Authorization` survives; every other incoming header passes unchanged and nothing else is added |
| `AgnoProxy.BuildServerHeadersIdempotent` | src/app/api/agno/_utils.ts:16-26 | Applying the header policy twice gives the same headers as applying it once |
| `AgnoProxy.ClientAuthorizationDropped` | src/app/api/agno/_utils.ts:19-24 | A client's own `Authorization` never reaches the backend: it is overwritten by the server key or removed |
| `AgnoProxy.FilterResponseHeaders` | src/app/api/agno/_utils.ts:28-36 | The relayed headers are exactly the upstream headers whose lower-cased name is on the allow-list, with their values unchanged |
| `AgnoProxy.Allowed` | src/app/api/agno/_utils.ts:31 | A response header is relayed when its lower-cased name is on the allow-list, so the allow-listed names themselves always pass |
| `AgnoProxy.FilteredNamesAllowed` | src/app/api/agno/_utils.ts:3-8 | For lower-case header names, every relayed name is one of `content-type`, `content-length`, `transfer-encoding` and `cache-control` |
| `AgnoProxy.FilterIdempotent` | src/app/api/agno/_utils.ts:28-36 | Filtering already filtered headers changes nothing |
| `AgnoProxy.ProxyGet` | src/app/api/agno/_utils.ts:38-43 | A proxied GET goes to base followed by path, without a body, carrying only the JSON content type and, when a key is configured, the server's `Authorization` |
| `AgnoProxy.ProxyDelete` | src/app/api/agno/_utils.ts:45-50 | A proxied DELETE goes to base followed by path, without a body, carrying only the JSON content type and, when a key is configured, the server's `Authorization` |
| `AgnoProxy.ProxyPost` | src/app/api/agno/_utils.ts:52-59 | A proxied POST goes to base followed by path, forwards the request text verbatim, and carries the request's headers under the server policy |
| `AgnoProxy.Relay` | src/app/api/agno/_utils.ts:41-42 | The browser gets the upstream status and body unchanged, with only the allow-listed headers |
| `AgnoProxy.RelayIdempotent` | src/app/api/agno/_utils.ts:28-42 | Relaying a relayed response again gives the same response |
| `ApiRoutes.PlaygroundAgents` | src/api/routes.ts:5-6 | The agents URL is the base followed by `/models` |
| `ApiRoutes.AgentRun` | src/api/routes.ts:7-8 | The chat URL is the base followed by `/chat/completions` |
| `ApiRoutes.PlaygroundStatus` | src/api/routes.ts:9-10 | The status URL is the base followed by `/status` |
| `ApiRoutes.PlaygroundSessions` | src/api/routes.ts:11-12 | The sessions URL is the base, `/sessions/`, then the agent id |
| `ApiRoutes.PlaygroundSession` | src/api/routes.ts:13-17 | A session's URL is the agent's sessions URL, `/`, then the session id |
| `ApiRoutes.DeletePlaygroundSession` | src/api/routes.ts:19-23 | Deleting a session addresses the same URL as reading it |
| `ApiRoutes.SessionUrlInjective` | src/api/routes.ts:13-17 | When the agent ids hold no `/`, a session URL determines both ids: different ids never share a URL |
| `Playground.ResolveBase` | src/api/playground.ts:8-11 | A blank argument means the configured API URL; otherwise the argument is trimmed and loses one trailing slash, if it had one |
| `Playground.OrElse` | src/api/playground.ts:27-30 | A truthy property is kept as sent, and a falsy or missing one takes the default |
| `Playground.ToAgent` | src/api/playground.ts:26-31 | Mapping an element fails exactly on `null`; otherwise the agent's value is its `agent_id` or `""`, and its storage flag its `storage` or `false` |
| `Playground.AgentsRequest` | src/api/playground.ts:13-19 | The agents list is fetched with a GET, without a body, from the resolved base's agents URL with the client JSON headers |
| `Playground.Agents` | src/api/playground.ts:13-38 | A network failure, a non-ok status or an unparsable body gives the empty list; a non-empty list comes from an ok array answer, one agent per element in order |
| `Playground.AgentsOnePerItem` | src/api/playground.ts:24-32 | An ok answer holding an array without nulls lists exactly one agent per element, in order |
| `Playground.Status` | src/api/playground.ts:40-46 | The status call settles with the upstream status, whatever it is, and rejects only on a network failure |
| `Playground.SessionsAsWritten` | src/api/playground.ts:48-69 | As written, the session listing rejects exactly on an ok answer whose body does not parse; network failures and non-ok statuses give the empty list |
| `Playground.Sessions` | src/api/playground.ts:48-69 | With the parse awaited, the listing never rejects: it is the parsed body of an ok answer and the empty list otherwise |
| `Playground.SessionsParseFailureEscapes` | src/api/playground.ts:64-67 | An ok answer that does not parse rejects the listing as written, while a failed answer gives the empty list and the corrected listing gives the empty list for both |
| `Playground.SessionsAgreeOtherwise` | src/api/playground.ts:52-68 | On every other answer the listing as written and the corrected one agree |
| `Playground.SessionsRequest` | src/api/playground.ts:52-56 | The sessions are fetched with a GET, without a body, from the resolved base's sessions URL for the agent |
| `Playground.GetSession` | src/api/playground.ts:71-84 | Reading a session settles with the parsed body whatever the status, and rejects on a network failure or an unparsable body |
| `Playground.GetSessionIgnoresStatus` | src/api/playground.ts:76-83 | An error answer is handed to the caller exactly as if it were the session |
| `Playground.SessionRequest` | src/api/playground.ts:71-99 | Reading and deleting a session address the same URL under the resolved base, with GET and DELETE respectively and no body |
| `Playground.DeleteSession` | src/api/playground.ts:86-99 | Deleting settles with the upstream status unchecked, and rejects only on a network failure |
| `Playground.MessageBody` | src/api/playground.ts:112-122 | The chat body names the agent as the model, carries the message as a single user message, asks for streaming, and has a `session_id` exactly when one is given |
| `Playground.MessageRequest` | src/api/playground.ts:109-123 | A chat message is POSTed to the resolved base's chat URL with the client JSON headers and that body |
| `Playground.SendMessage` | src/api/playground.ts:102-134 | Sending settles exactly on an ok status, and rejects on a network failure or any other status |
| `Playground.MessageCarried` | src/api/playground.ts:112-120 | The message reaches the body unchanged whatever the session, and a given session id is carried as sent |
| `AgentInfo.Spaced` | src/components/AgentInfoModal.tsx:44 | Dots and underscores become spaces, every other character stays where it is, and no dot or underscore is left |
| `AgentInfo.Capitalize` | src/components/AgentInfoModal.tsx:46 | A word keeps its length, its first character is upper-cased and the rest lower-cased |
| `AgentInfo.CapitalizeEach` | src/components/AgentInfoModal.tsx:46 | Every word is capitalised, in place |
| `AgentInfo.CreatorName` | src/components/AgentInfoModal.tsx:36-50 | A missing or empty address shows as `Unknown`; otherwise the shown name is exactly as long as the part before the first `@` |
| `AgentInfo.TitleCase` | src/components/AgentInfoModal.tsx:43-47 | Title case keeps the length of the text |
| `AgentInfo.TitleWordsIsTitleCase` | src/components/AgentInfoModal.tsx:45-47 | Splitting on spaces, capitalising each word and joining with spaces equals character-wise title case: no space is lost or added, and a character is upper-cased exactly when it starts the text or follows a space |
| `AgentInfo.CreatorNameHasNoMarks` | src/components/AgentInfoModal.tsx:40-47 | A shown creator name never contains a dot, an underscore or an `@` |
| `AgentInfo.DomainIgnored` | src/components/AgentInfoModal.tsx:40 | Only the part before the first `@` counts: two addresses differing only in their domain show the same name, the title case of the spaced local part |
| `TagsList.SliceEnd` | src/components/ui/TagsList.tsx:23 | `slice` stops at the limit when it is within the list, at the end when it is beyond, and counts back from the end when it is negative, never going below the start |
| `TagsList.Badges` | src/components/ui/TagsList.tsx:27-32 | Each tag gets one badge, in order, highlighted exactly when the tag is among the selected ones |
| `TagsList.Render` | src/components/ui/TagsList.tsx:12-74 | An empty list renders nothing; otherwise the visible tags are a prefix of the list, as long as the limit (3 by default) allows, the hidden count is the length minus the limit, the "+N" badge shows exactly when that count is positive, highlighting follows the selection, and the full popup shows only while hovering the badge |
| `TagsList.DefaultShowsThree` | src/components/ui/TagsList.tsx:14-25 | With the default limit, a list longer than three shows its first three tags, unhighlighted, and counts the rest |
| `TagsList.VisiblePlusHidden` | src/components/ui/TagsList.tsx:23-25 | For a non-negative limit, the visible tags and the hidden count add up to the whole list whenever the badge shows, and without the badge every tag is visible |
| `TagsList.NegativeLimitOvercounts` | src/components/ui/TagsList.tsx:23-24 | A negative limit counts from the end in `slice` but not in the hidden count: two tags with a limit of -1 show one tag and claim three more |
| `Dashboard.NoteOf` | src/components/Dashboard.tsx:100 | A profile contributes notes exactly when its own notes are a non-empty string, and then those notes |
| `Dashboard.NotesById` | src/components/Dashboard.tsx:98-101 | The notes map has a key for every listed profile id and for no other id |
| `Dashboard.NotesByIdLastWins` | src/components/Dashboard.tsx:98-101 | When a profile is the last one listed with its id, the map holds that profile's notes under the id |
| `Dashboard.Description` | src/components/Dashboard.tsx:108-109 | A hardcoded card shows its profile's non-empty notes and "" otherwise; every other card shows its type name followed by " tool" |
| `Dashboard.TagNames` | src/components/Dashboard.tsx:111 | The card's tags are the names of the row's tags, one per tag, in order |
| `Dashboard.CardOf` | src/components/Dashboard.tsx:102-112 | A registry row becomes a personal custom card with the row's id, `@` followed by the call name, the readable name as display name, no creator, and the tag names |
| `Dashboard.LoadAgents` | src/components/Dashboard.tsx:89-118 | Any rejected request, or a failed registry listing, leaves the board empty; otherwise there is one card per registry row, in listing order, with notes taken from the hardcoded listing only when it succeeded |
| `Dashboard.EveryRegistryRowHasCard` | src/components/Dashboard.tsx:96-112 | Every registry row in the store appears on the loaded board under its id, named `@` plus its call name |
| `Dashboard.HardcodedCardShowsNotes` | src/components/Dashboard.tsx:98-109 | When one profile in the hardcoded listing has a card's id, the card shows that profile's notes, or "" when they are empty or missing |
| `Dashboard.Without` | src/components/Dashboard.tsx:320 | Filtering keeps exactly the cards that fail the test and never lengthens the list; `Dashboard.WithoutCounts` gives the multiplicities and `Dashboard.WithoutAppend` the order |
| `Dashboard.WithoutCounts` | src/components/Dashboard.tsx:320 | Each card that fails the test is kept as often as the list holds it, and every card that passes is dropped |
| `Dashboard.WithoutAppend` | src/components/Dashboard.tsx:320 | Filtering the concatenation of two lists is filtering each and concatenating, so `Array.filter`'s order is kept |
| `Dashboard.WithoutNoMatch` | src/components/Dashboard.tsx:217 | Filtering out a test no card passes returns the list unchanged, order included |
| `Dashboard.FindAgent` | src/components/Dashboard.tsx:314 | The lookup finds nothing exactly when no card has the id; otherwise it returns a card of the list with that id |
| `Dashboard.FindLibrary` | src/components/Dashboard.tsx:323 | The lookup finds nothing exactly when no library entry has the name; otherwise it returns an entry of the library with that name |
| `Dashboard.Unlink` | src/components/Dashboard.tsx:323-329 | The added-ids set only shrinks: it loses the id of the library entry named like the card when there is one, and nothing otherwise |
| `Dashboard.AddAgent` | src/components/Dashboard.tsx:179-200 | Adding puts one new card in front of the unchanged list, with the timestamp as id and the form's name, display name, description and tags; nothing else on the board changes |
| `Dashboard.FromLibrary` | src/components/Dashboard.tsx:225-234 | A library entry becomes a personal, non-custom card with the entry's name and creator |
| `Dashboard.ToggleLibrary` | src/components/Dashboard.tsx:211-241 | The entry's id flips in the added-ids set and no other id changes. An add puts the new card in front of the list; a removal is the order-keeping filter `Dashboard.Without` that drops exactly the personal cards with the entry's name. The library and the awaited confirmation are untouched |
| `Dashboard.ToggleLibraryTwice` | src/components/Dashboard.tsx:211-241 | Adding a library entry and toggling it again restores the added-ids set and removes every personal card with that name; when no such card existed before, the board is restored exactly |
| `Dashboard.UpdateAgent` | src/components/Dashboard.tsx:285-301 | An unknown id leaves the board as it was; otherwise cards with the id take the form's name, display name, description and tags, and every other card, and the rest of the board, is unchanged |
| `Dashboard.UpdateKeepsOwnership` | src/components/Dashboard.tsx:289-300 | An update keeps every card's id and kind and never changes whether the user may delete it |
| `Dashboard.DeleteAgent` | src/components/Dashboard.tsx:313-337 | An unknown id is ignored, and a custom card only becomes the one awaiting confirmation. Any other card leaves the list at once through the order-keeping filter, its library entry is no longer marked as added, and the library is unchanged |
| `Dashboard.RemoveFromPersonal` | src/components/Dashboard.tsx:339-358 | An unknown id is ignored. Otherwise the card leaves the list at once, without confirmation; a non-custom card unmarks the library entry with its name, a custom one leaves the added-ids set unchanged, and the library is untouched |
| `Dashboard.DropCustomCopies` | src/components/Dashboard.tsx:394-399 | Exactly the library entries that have the card's name and a "custom-" id are dropped; `Dashboard.DropCustomCopiesCounts` gives the multiplicities and `Dashboard.DropCustomCopiesAppend` the order |
| `Dashboard.DropCustomCopiesCounts` | src/components/Dashboard.tsx:394-399 | Every entry not dropped is kept as often as the library holds it |
| `Dashboard.DropCustomCopiesAppend` | src/components/Dashboard.tsx:394-399 | Dropping from a concatenation is dropping from each part, so the kept entries stay in the library's order |
| `Dashboard.ConfirmDelete` | src/components/Dashboard.tsx:378-410 | With nothing awaiting confirmation (or an empty id) the board is unchanged; otherwise the awaited card leaves the list and the confirmation clears. Deleting a non-custom card unlinks its library entry from the personal set; deleting a custom library card drops the library's custom copies with its name; neither set changes otherwise |
| `Dashboard.CanDelete` | src/components/Dashboard.tsx:361-367 | A card may be deleted exactly when it is custom and was created by the signed-in user; a non-custom card never may |
| `Dashboard.ShouldShowRemove` | src/components/Dashboard.tsx:370-376 | The menu shows Remove instead of Delete exactly when the card may not be deleted |
| `Dashboard.OneUserMayDelete` | src/components/Dashboard.tsx:361-376 | At most one signed-in user may delete a given card, its creator, and a library card shows Remove to every user |
| `Dashboard.MenuDeleteConfirmsOnlyOwnCards` | src/components/Dashboard.tsx:699-711 | The menu's delete item asks for confirmation only on the user's own custom cards; every other card leaves the list at once |
| `Dashboard.MenuDelete` | src/components/Dashboard.tsx:699-711 | On a listed card the delete item asks for confirmation for the user's own custom card, and otherwise removes the card at once and keeps any pending confirmation; on an unlisted card nothing changes |
| `Dashboard.LoadedCardsAreNeverDeletable` | src/components/Dashboard.tsx:102-112 | Loaded cards carry no creator, so nobody may delete them from the dashboard and their menu always offers "Remove" |
| `Dashboard.AddedCardIsDeletable` | src/components/Dashboard.tsx:188-198 | A card the user has just added is theirs to delete |
| `Dashboard.ShownOnTab` | src/components/Dashboard.tsx:461-468 | The "My agents" tab shows each personal card as often as the list holds it and no team card, in the list's order (it is `Dashboard.Without` for team cards); any other tab shows none |
| `Dashboard.Remove` | src/components/Dashboard.tsx:473 | Removing a tag keeps exactly the other tags and never lengthens the list |
| `Dashboard.RemoveAbsent` | src/components/Dashboard.tsx:473 | Removing a tag that is not selected leaves the selection unchanged |
| `Dashboard.RemoveAppend` | src/components/Dashboard.tsx:473 | Removing a tag from two lists joined is removing it from each |
| `Dashboard.ToggleTag` | src/components/Dashboard.tsx:471-475 | The toggled tag is selected afterwards exactly when it was not before, every other tag keeps its state, and a newly selected tag is appended at the end |
| `Dashboard.ToggleTagTwice` | src/components/Dashboard.tsx:471-475 | Selecting a tag and toggling it again gives back the original selection, order included |
| `Dashboard.LibraryFilter` | src/components/Dashboard.tsx:482-485 | With no tag selected the library is shown whole. Otherwise each entry carrying at least one selected tag is shown as often as the library holds it and no other, in the library's order (it is `Dashboard.Tagged`) |
| `Dashboard.Tagged` | src/components/Dashboard.tsx:484 | Keeps exactly the entries carrying at least one selected tag; `Dashboard.TaggedCounts` gives the multiplicities and `Dashboard.TaggedAppend` the order |
| `Dashboard.TaggedCounts` | src/components/Dashboard.tsx:484 | Each entry carrying a selected tag is kept as often as the library holds it, and no other |
| `Dashboard.TaggedAppend` | src/components/Dashboard.tsx:484 | The tag filter of a concatenation is the concatenation of the filters, so `Array.filter`'s order is kept |
| `Dashboard.Group` | src/components/Dashboard.tsx:487-496 | Every bucket of the grouping is non-empty, and the category of the last entry always has a bucket |
| `Dashboard.GroupPartitions` | src/components/Dashboard.tsx:487-496 | The grouping has a bucket exactly for each category present, and each bucket holds that category's entries in their original order |
| `Dashboard.EmptyCategory` | src/components/Dashboard.tsx:487-496 | A category no entry has collects nothing |
| `AddAgentModal.BaseName` | src/components/AddAgentModal.tsx:123 | A leading `@` is stripped, exactly one; a name without it is kept |
| `AddAgentModal.WithAt` | src/components/AddAgentModal.tsx:198 | The submitted name always starts with `@`; a name that already has one is kept as it is |
| `AddAgentModal.AtPrefixRoundTrip` | src/components/AddAgentModal.tsx:123-198 | Prefixing is idempotent and undoes the stripping of a single `@`, so a call name survives open-and-save; a name with two leading `@` loses one |
| `AddAgentModal.Reset` | src/components/AddAgentModal.tsx:117-167 | A closed form is untouched; opening a new form restores every default; opening a card loads its base name as both names, its tags, description and privacy, and keeps the type-specific fields |
| `AddAgentModal.FreshDefaults` | src/components/AddAgentModal.tsx:135-158 | A new form starts private, with no tags, as a hardcoded tool, with the N8N timeout at 30 and the Dust timeouts at 30, 180 and 30 |
| `AddAgentModal.ToggleSelected` | src/components/AddAgentModal.tsx:226-230 | The toggled tag's selection flips, every other tag keeps its state, and no other field of the form changes |
| `AddAgentModal.MapForm` | src/components/AddAgentModal.tsx:198-209 | The handed-on object carries the `@` name, an empty key, the external URL only for N8N tools, the legacy webhook URL and description, always private and with no tags |
| `AddAgentModal.SubmitAsWritten` | src/components/AddAgentModal.tsx:193-217 | Nothing happens exactly when a name is blank; an update happens exactly when editing with an update handler, for the edited id; the mapped object carries no display name |
| `AddAgentModal.Submit` | src/components/AddAgentModal.tsx:193-217 | As the submit above, except that the mapped object carries the display name the guard required |
| `AddAgentModal.AddedDisplayNameLost` | src/components/AddAgentModal.tsx:201-214 | As written, a card added through the form has no display name, though the form refused to submit without one |
| `AddAgentModal.AddedDisplayNameKept` | src/components/AddAgentModal.tsx:196-214 | With the display name passed on, the added card carries it and the `@` name |
| `AddAgentModal.EditSaveAsWritten` | src/components/AddAgentModal.tsx:117-212 | Opening a card and saving it unchanged keeps its call name and id but, as written, erases its display name and empties its tags |
| `AddAgentModal.EditSaveKeepsNames` | src/components/AddAgentModal.tsx:117-212 | With the display name passed on, the same round trip keeps the call name and writes the base name as display name |
| `AddAgentModal.SingleAtRoundTrip` | src/components/AddAgentModal.tsx:123-198 | A name with exactly one leading `@` is restored by stripping and prefixing |
| `ContextMenu.DeleteCaption` | src/components/AgentContextMenu.tsx:164-170 | The team tab caption wins, then "Remove" when asked for, then "Delete" exactly when deletion is allowed (the default), and "Remove" otherwise |
| `ContextMenu.Items` | src/components/AgentContextMenu.tsx:108-172 | The menu lists, top to bottom, Edit exactly for custom agents, Info exactly when a handler is given, the team toggle exactly when asked for, and the delete item always last. The toggle reads "Remove from Team" for an agent in the team and "Add to Team" otherwise, and nothing else is listed |
| `ContextMenu.Assemble` | src/components/AgentContextMenu.tsx:108-172 | Listing the optional items in order and the delete item last gives a menu whose items are present exactly when their parts are non-empty |
| `ContextMenu.Click` | src/components/AgentContextMenu.tsx:60-82 | Every item closes the menu; Edit and Delete always run their callback, Info and the team toggle only when their optional handler is given |
| `ContextMenu.ToggleOpen` | src/components/AgentContextMenu.tsx:55-58 | The menu button always flips the menu between open and closed |
| `ContextMenu.CardMenuCaption` | src/components/Dashboard.tsx:699-711 | On a dashboard card the delete item reads "Delete" exactly when the user may delete the card and "Remove" otherwise; Info is always offered, Edit exactly on custom cards, and never a team toggle |
| `ContextMenu.TeamTabWins` | src/components/AgentContextMenu.tsx:164-170 | On the team tab the caption is "Remove from Team" whatever the other flags say |
| `Strings.JoinSplit` | src/lib/auth/serverAuth.ts:36-38 | Splitting on a character and joining with it again gives back the input, so a cookie value containing `=` survives intact |
| `Strings.SplitJoin` | src/lib/config.ts:9-10 | Joining separator-free pieces and splitting again gives back exactly the pieces |
| `Strings.Split` | src/lib/config.ts:10 | Splitting yields at least one piece, none containing the separator, and a single piece exactly when the separator is absent |
| `Js.NumberOfString` | src/app/api/tools/route.ts:89 | `Number` of an integer's decimal rendering, negative ones included, gives back that integer, so a timeout sent as a string is stored as its number |
| `Js.Truthy` | src/app/api/tools/route.ts:26-27 | A JSON value is falsy exactly when it is null, false, 0 or the empty string |
| `Js.ToStr` | src/app/api/tools/route.ts:83-84 | `String` leaves a string unchanged and renders an integer in a form that `Number` reads back as the same integer |
| `Js.ToNumber` | src/app/api/tools/route.ts:89 | `Number` of a number is that number, of null is 0, and of an object is NaN |
| `Js.StringOrNull` | src/app/api/tools/security-keys/route.ts:59 | A value-or-null written to a nullable text column: a falsy value is stored as null, a string as itself, and a truthy non-string cannot be stored; tool notes (src/app/api/tools/route.ts:78) and hardcoded notes (src/app/api/tools/hardcoded/route.ts:37) are stored the same way |
| `Ordering.SortDesc` | src/app/api/tools/registry/route.ts:24 | The descending listing is sorted by the key and is a permutation of the rows |
| `Ordering.SortKeepsElements` | src/app/api/tools/registry/route.ts:24 | Sorting keeps the length and exactly the same rows |
| `Ordering.SortDescFirstIsMax` | src/app/api/tools/registry/route.ts:24 | The first row of a sorted listing has the largest key of all |

## Left out

- JWT verification itself: the signature, algorithm, issuer and audience checks belong to the `jsonwebtoken` library. They are the `ServerAuth.Verifier` oracle.
- The boot-time `JWT_SECRET` check (src/lib/auth/serverAuth.ts:21-25) is not modelled: it runs once at module load, not per request.
- `AUTH_DEBUG` and other console logging, and toast notifications: they have no effect on results.
- Next.js cookie parsing in the middleware: the cookie's value is an `Option<string>` input.
- The middleware matcher (src/middleware.ts:43-48): it is routing configuration.
- The database:
  - Prisma, transactions and `src/lib/prisma.ts`: the database is an immutable `ToolStore.Store` snapshot;
  - the seed script: it only fills the database;
  - database read failures: reads are total over the snapshot;
  - foreign-key violations and other write failures except unique-name clashes: they are the single `WriteEnv.fault` flag;
  - the 32-bit range of integer columns: integers are unbounded, so an over-wide timeout is one more `fault` failure;
  - `updatedAt` columns: nothing reads them.
- Database collation in `orderBy`: string keys compare by code point (`Ordering.StringKey`), and timestamps are integers.
- Duplicate tag ids in a request: the model attaches such a tag once per occurrence. How the link table's keys treat a repeat depends on the database schema, which is not part of this model.
- `fetch`, the upstream GraphQL `me` call and the Agno backend: each call is a datatype of outcomes.
- Response-body streaming: the proxy relays the body as an opaque value.
- The proxy routes built on the helpers: `src/app/api/agno/chat/completions/route.ts` and the `src/app/api/agno/sessions` routes add nothing beyond the proxy helpers.
- Other routes: `src/app/api/tools/tags/route.ts` and the `src/app/api/tools/hardcoded/[id]` route are not part of this model.
- The playground client's error messages: they include the response's `statusText`, which is modelled only as a failure with that status.
- JSON bodies whose shapes differ from the declared field types: they appear only as the `Js.JVal` cases the routes inspect. Object keys such as `__proto__` have no special meaning in the model.
- JavaScript `Set` insertion order: the dashboard's added-ids set is a Dafny `set`, and only membership is read.
- React rendering, framer-motion, DOM listeners, and modal open/close state: they are presentation.
  - This covers the click-outside handler of the context menu.
- The focus and visibility listeners of the roles hook and the two stores (src/hooks/useUserRoles.ts:58-70): they only call the modelled `fetchIfNeeded` and `fetchRolesOnce` again.
  - `handleEditAgent` (src/components/Dashboard.tsx:259-271) only opens the form.
- `AddAgentModal`'s security-key loading effect (src/components/AddAgentModal.tsx:171-191) is not modelled: it is a cancellable network effect with no decision beyond the key store's.
- `getRandomTags` and `getFullDateTooltip` in the dashboard: they use randomness and the locale's date formatting. `Date.now()` is an integer parameter.
- Unicode case mapping in the creator name: only ASCII letters change case.
- Token claims of another JSON type than the one the code expects: `ServerAuth.Claims` holds strings, and `roles` only as an array of strings. A `roles` claim that is not an array, which src/app/api/tools/security-keys/route.ts:36 tests for with `Array.isArray`, cannot be expressed.
- `SecurityKeysRoute.KeyListing` states only the listing's length. The listing itself (the keys rearranged, newest first, each shaped in its position) is stated by `SecurityKeysRoute.KeyListingOrdered`.
- `Js.ToNumber`: reads only signed decimal integers, through `Js.StrToNumber`. Other numeric strings, such as `1.0`, `1e2` and `0x10`, come out as NaN, and fractional JSON numbers cannot be represented, because a `Js.JVal` number is an integer. A timeout sent as the string `30.0` is therefore refused in the model, while JavaScript would store 30.
- `AgentInfo.TitleCase` states only its length. It is the reference definition that `AgentInfo.TitleWordsIsTitleCase` equates with the split/capitalise/join pipeline.
- `AgentInfo.CreatorName` states only the length of a known name. Its contents are stated by `AgentInfo.DomainIgnored` and `AgentInfo.CreatorNameHasNoMarks`.

## Findings

| source | as written | input that shows it | evidently intended | confidence | as-written member | corrected member |
|---|---|---|---|---|---|---|
| src/api/playground.ts:64 | `return response.json()` is returned without `await` inside the `try`, so a failed parse of the body escapes the `catch` | a 200 response whose body is not JSON: the listing rejects instead of returning `[]` | every failure of the session listing, a bad body included, yields `[]` | not executed | `Playground.SessionsAsWritten` | `Playground.Sessions` |
| src/components/AddAgentModal.tsx:201-209 | the object handed to the dashboard has no `displayName`, though the submit guard requires one | submitting a new agent with display name "Helper": the added card's display name is undefined; saving an edited card erases its display name | the dashboard receives the display name the form collected | not executed | `AddAgentModal.SubmitAsWritten` | `AddAgentModal.Submit` |

=== FILE: add_agent_modal.dfy ===
/** The add/edit agent form (src/components/AddAgentModal.tsx): the reset
    run when the form opens, the submit guard and the mapping handed to the
    dashboard's handlers, the `@` prefix, and the tag toggle. */
module AddAgentModal {
  import opened Wrappers
  import Strings
  import Js
  import ToolStore
  import Dashboard

  /** The placeholder webhook URL of the legacy form data. */
  const DefaultWebhook: string := "https://link_id1234.webhook.com"

  datatype N8nFields = N8nFields(
    externalUrl: string,
    securityKeyId: string,
    returnDirect: bool,
    isIsolated: bool,
    streamIfSingle: bool,
    flashAnswerNeeded: bool,
    timeoutSeconds: int)

  datatype DustFields = DustFields(
    workspaceSid: string,
    agentSid: string,
    securityKeyId: string,
    returnDirect: bool,
    isIsolated: bool,
    streamIfSingle: bool,
    apiTimeout: int,
    msgEventsTimeout: int,
    convEventsTimeout: int)

  /** The older form fields kept for the parent's handlers. */
  datatype Legacy = Legacy(name: string, apiKey: string, agentUrl: string, webhookUrl: string, description: string)

  /** The form's state. */
  datatype Form = Form(
    isPrivate: bool,
    selectedTags: seq<string>,
    toolType: ToolStore.ToolType,
    explicitName: string,
    displayName: string,
    isEnabled: bool,
    description: string,
    n8n: N8nFields,
    dust: DustFields,
    legacy: Legacy)

  /** The card being edited, as the form sees it. */
  datatype Editing = Editing(
    id: string,
    name: string,
    kind: Dashboard.Kind,
    description: Option<string>,
    isLibraryAgent: bool,
    apiKey: Option<string>,
    agentUrl: Option<string>,
    webhookUrl: Option<string>,
    tags: Option<seq<string>>)

  const FreshN8n: N8nFields := N8nFields("", "", false, false, false, false, 30)
  const FreshDust: DustFields := DustFields("", "", "", false, false, false, 30, 180, 30)

  /** The form a new agent starts from. */
  const Fresh: Form := Form(true, [], ToolStore.HardCoded, "", "", true, "", FreshN8n, FreshDust,
                            Legacy("", "", "", DefaultWebhook, ""))

  /** The name without one leading `@`. */
  function BaseName(name: string): (r: string)
    ensures Strings.StartsWith(name, "@") ==> "@" + r == name
    ensures !Strings.StartsWith(name, "@") ==> r == name
  {
    if Strings.StartsWith(name, "@") then name[1..] else name
  }

  /** The name with an `@` in front unless it already has one. */
  function WithAt(name: string): (r: string)
    ensures Strings.StartsWith(r, "@")
    ensures Strings.StartsWith(name, "@") ==> r == name
    ensures !Strings.StartsWith(name, "@") ==> r == "@" + name
  {
    if Strings.StartsWith(name, "@") then name else "@" + name
  }

  /** Prefixing is idempotent, and it undoes the stripping of a single `@`:
      a card's call name survives being opened and saved. A name with two
      leading `@` loses one. */
  lemma AtPrefixRoundTrip(name: string, x: string)
    ensures WithAt(WithAt(name)) == WithAt(name)
    ensures !Strings.StartsWith(x, "@") ==> WithAt(BaseName("@" + x)) == "@" + x && BaseName(WithAt(x)) == x
    ensures WithAt(BaseName("@@" + x)) == "@" + x
  {
    assert Strings.StartsWith("@" + x, "@");
    assert ("@" + x)[1..] == x;
    assert ("@@" + x)[1..] == "@" + x;
  }

  /** The effect run when the form opens: editing loads the card's values;
      otherwise every field returns to its default. */
  function Reset(f: Form, isOpen: bool, editing: Option<Editing>): (r: Form)
    ensures !isOpen ==> r == f
    ensures isOpen && editing.None? ==> r == Fresh
    ensures isOpen && editing.Some? ==>
              && r.explicitName == BaseName(editing.value.name) && r.displayName == BaseName(editing.value.name)
              && r.selectedTags == editing.value.tags.GetOr([])
              && r.isPrivate == (editing.value.kind == Dashboard.Personal && !editing.value.isLibraryAgent)
              && r.description == editing.value.description.GetOr("")
    ensures isOpen && editing.Some? ==> r.toolType == f.toolType && r.n8n == f.n8n && r.dust == f.dust && r.isEnabled == f.isEnabled
  {
    if !isOpen then f
    else if editing.None? then Fresh
    else
      var e := editing.value;
      var base := BaseName(e.name);
      var description := if Js.Present(e.description) then e.description.value else "";
      f.(isPrivate := e.kind == Dashboard.Personal && !e.isLibraryAgent,
         selectedTags := e.tags.GetOr([]),
         explicitName := base,
         displayName := base,
         description := description,
         legacy := Legacy(base,
                          if Js.Present(e.apiKey) then e.apiKey.value else "",
                          if Js.Present(e.agentUrl) then e.agentUrl.value else "",
                          if Js.Present(e.webhookUrl) then e.webhookUrl.value else DefaultWebhook,
                          description))
  }

  /** A new form starts with the N8N timeout at 30 seconds and the Dust
      timeouts at 30, 180 and 30. */
  lemma FreshDefaults(f: Form)
    ensures var r := Reset(f, true, None);
            r.n8n.timeoutSeconds == 30
            && r.dust.apiTimeout == 30 && r.dust.msgEventsTimeout == 180 && r.dust.convEventsTimeout == 30
            && r.toolType == ToolStore.HardCoded && r.isPrivate && r.selectedTags == []
  {
  }

  /** `handleTagToggle`. */
  function ToggleSelected(f: Form, tag: string): (r: Form)
    ensures tag in r.selectedTags <==> tag !in f.selectedTags
    ensures forall t :: t != tag ==> (t in r.selectedTags <==> t in f.selectedTags)
    ensures r.(selectedTags := f.selectedTags) == f
  {
    f.(selectedTags := Dashboard.ToggleTag(f.selectedTags, tag))
  }

  /** The object handed to the parent's add or update handler. */
  datatype Mapped = Mapped(
    name: string,
    displayName: Option<string>,
    apiKey: string,
    agentUrl: string,
    webhookUrl: string,
    description: string,
    isPrivate: bool,
    tags: seq<string>)

  /** What a submit does: nothing, add a card, or update the edited card. */
  datatype Submitted = Nothing | Add(agent: Mapped) | Update(id: string, agent: Mapped)

  /** The mapping shared by both versions of the submit; they differ only in
      the display name they pass on. */
  function MapForm(f: Form, displayName: Option<string>): (m: Mapped)
    ensures m.name == WithAt(f.explicitName) && m.displayName == displayName
    ensures m.apiKey == "" && m.isPrivate && m.tags == []
    ensures m.agentUrl == (if f.toolType == ToolStore.N8n then f.n8n.externalUrl else "")
    ensures m.webhookUrl == f.legacy.webhookUrl && m.description == f.description
  {
    Mapped(WithAt(f.explicitName), displayName, "",
           if f.toolType == ToolStore.N8n then f.n8n.externalUrl else "",
           f.legacy.webhookUrl, f.description, true, [])
  }

  /** The submit guard: both names must be non-blank. */
  predicate Filled(f: Form) {
    Strings.Trim(f.explicitName) != "" && Strings.Trim(f.displayName) != ""
  }

  /** `handleSubmit` as written: the mapped object has no `displayName`, so
      the dashboard's handlers read it as undefined. */
  function SubmitAsWritten(f: Form, editing: Option<Editing>, hasUpdate: bool): (r: Submitted)
    ensures r.Nothing? <==> !Filled(f)
    ensures r.Update? <==> Filled(f) && editing.Some? && hasUpdate
    ensures r.Update? ==> r.id == editing.value.id
    ensures !r.Nothing? ==> r.agent == MapForm(f, None)
  {
    if !Filled(f) then Nothing
    else if editing.Some? && hasUpdate then Update(editing.value.id, MapForm(f, None))
    else Add(MapForm(f, None))
  }

  /** `handleSubmit` passing on the display name it has just required. */
  function Submit(f: Form, editing: Option<Editing>, hasUpdate: bool): (r: Submitted)
    ensures r.Nothing? <==> !Filled(f)
    ensures r.Update? <==> Filled(f) && editing.Some? && hasUpdate
    ensures r.Update? ==> r.id == editing.value.id
    ensures !r.Nothing? ==> r.agent == MapForm(f, Some(f.displayName))
  {
    if !Filled(f) then Nothing
    else if editing.Some? && hasUpdate then Update(editing.value.id, MapForm(f, Some(f.displayName)))
    else Add(MapForm(f, Some(f.displayName)))
  }

  /** The fields the dashboard's handlers read from the mapped object. */
  function Delivered(m: Mapped): Dashboard.NewAgent {
    Dashboard.NewAgent(m.name, m.displayName, m.description, m.tags)
  }

  /** The dashboard after receiving a submit. */
  function Apply(b: Dashboard.Board, s: Submitted, now: int, email: string): Dashboard.Board {
    match s
    case Nothing => b
    case Add(m) => Dashboard.AddAgent(b, Delivered(m), now, email)
    case Update(id, m) => Dashboard.UpdateAgent(b, id, Delivered(m))
  }

  /** As written, a card added through the form has no display name, even
      though the form refused to submit without one. */
  lemma AddedDisplayNameLost(b: Dashboard.Board, f: Form, now: int, email: string)
    requires Filled(f)
    ensures Apply(b, SubmitAsWritten(f, None, false), now, email).agents[0].displayName == None
  {
  }

  /** With the display name passed on, the added card carries it. */
  lemma AddedDisplayNameKept(b: Dashboard.Board, f: Form, now: int, email: string)
    requires Filled(f)
    ensures Apply(b, Submit(f, None, false), now, email).agents[0].displayName == Some(f.displayName)
    ensures Apply(b, Submit(f, None, false), now, email).agents[0].name == WithAt(f.explicitName)
  {
  }

  /** The form's view of a dashboard card. */
  function EditingOf(a: Dashboard.Agent): Editing {
    Editing(a.id, a.name, a.kind, Some(a.description), a.isLibraryAgent, None, None, None, a.tags)
  }

  /** A card name with exactly one leading `@`, as the registry cards have
      when the call name itself does not start with one. */
  predicate SingleAt(name: string) {
    Strings.StartsWith(name, "@") && !Strings.StartsWith(name[1..], "@")
  }

  /** Opening a card for editing and saving it unchanged, as written: the
      call name survives, but the update carries no display name, so the
      card's display name is erased, and it empties the card's tags. */
  lemma EditSaveAsWritten(a: Dashboard.Agent, f: Form)
    requires SingleAt(a.name) && Strings.Trim(BaseName(a.name)) != ""
    ensures var s := SubmitAsWritten(Reset(f, true, Some(EditingOf(a))), Some(EditingOf(a)), true);
            s.Update? && s.id == a.id && s.agent.name == a.name && s.agent.displayName == None && s.agent.tags == []
  {
    var form := Reset(f, true, Some(EditingOf(a)));
    assert form.explicitName == BaseName(a.name) && form.displayName == BaseName(a.name);
    assert Filled(form);
    SingleAtRoundTrip(a.name);
  }

  /** The same round trip with the display name passed on keeps the call
      name and writes the base name as the display name. */
  lemma EditSaveKeepsNames(a: Dashboard.Agent, f: Form)
    requires SingleAt(a.name) && Strings.Trim(BaseName(a.name)) != ""
    ensures var s := Submit(Reset(f, true, Some(EditingOf(a))), Some(EditingOf(a)), true);
            s.Update? && s.id == a.id && s.agent.name == a.name && s.agent.displayName == Some(BaseName(a.name))
  {
    var form := Reset(f, true, Some(EditingOf(a)));
    assert form.explicitName == BaseName(a.name) && form.displayName == BaseName(a.name);
    assert Filled(form);
    SingleAtRoundTrip(a.name);
  }

  lemma SingleAtRoundTrip(n: string)
    requires SingleAt(n)
    ensures WithAt(BaseName(n)) == n
  {
    AtPrefixRoundTrip(n, n[1..]);
    assert "@" + n[1..] == n;
  }
}

=== FILE: agent_info.dfy ===
/** The creator line of the agent information dialog
    (src/components/AgentInfoModal.tsx): an e-mail address shown as a
    title-cased name. Case mapping is ASCII-only. */
module AgentInfo {
  import opened Wrappers
  import Strings
  import Js

  /** `.replace(/[._]/g, ' ')`: dots and underscores become spaces, every
      other character stays where it is. */
  function Spaced(s: string): (r: string)
    ensures |r| == |s|
    ensures '.' !in r && '_' !in r
    ensures forall i :: 0 <= i < |s| && s[i] != '.' && s[i] != '_' ==> r[i] == s[i]
    ensures forall i :: 0 <= i < |s| && (s[i] == '.' || s[i] == '_') ==> r[i] == ' '
  {
    seq(|s|, i requires 0 <= i < |s| => if s[i] == '.' || s[i] == '_' then ' ' else s[i])
  }

  /** `word.charAt(0).toUpperCase() + word.slice(1).toLowerCase()`. */
  function Capitalize(w: string): (r: string)
    ensures |r| == |w|
    ensures |w| > 0 ==> r[0] == Strings.UpperChar(w[0])
    ensures forall i :: 0 < i < |w| ==> r[i] == Strings.LowerChar(w[i])
  {
    if w == "" then "" else [Strings.UpperChar(w[0])] + Strings.ToLower(w[1..])
  }

  function CapitalizeEach(ws: seq<string>): (r: seq<string>)
    ensures |r| == |ws|
    ensures forall i :: 0 <= i < |ws| ==> r[i] == Capitalize(ws[i])
  {
    seq(|ws|, i requires 0 <= i < |ws| => Capitalize(ws[i]))
  }

  /** `.split(' ').map(Capitalize).join(' ')`. */
  function TitleWords(s: string): string {
    Strings.Join(CapitalizeEach(Strings.Split(s, ' ')), " ")
  }

  /** `getCreatorName`: "Unknown" for a missing or empty address; otherwise
      the part before the first `@`, with dots and underscores as word
      breaks and every word capitalised. */
  function CreatorName(email: Option<string>): (r: string)
    ensures !Js.Present(email) ==> r == "Unknown"
    ensures Js.Present(email) ==> |r| == |Strings.Split(email.value, '@')[0]|
  {
    if !Js.Present(email) then "Unknown"
    else
      var local := Strings.Split(email.value, '@')[0];
      TitleWordsLength(Spaced(local));
      TitleWords(Spaced(local))
  }

  /** Title case described character by character: a character is
      upper-cased when it starts the string or follows a space, and
      lower-cased otherwise. */
  function TitleCase(s: string): (r: string)
    ensures |r| == |s|
  {
    seq(|s|, i requires 0 <= i < |s| =>
      if i == 0 || s[i - 1] == ' ' then Strings.UpperChar(s[i]) else Strings.LowerChar(s[i]))
  }

  lemma TitleWordsLength(s: string)
    ensures |TitleWords(s)| == |s|
  {
    TitleWordsIsTitleCase(s);
  }

  /** Splitting on spaces, capitalising each word and joining with single
      spaces is the same as the character-wise title case: no space is lost
      or added, and each character's case depends only on its left neighbour. */
  lemma {:induction false} TitleWordsIsTitleCase(s: string)
    ensures TitleWords(s) == TitleCase(s)
    decreases |s|, 1
  {
    if ' ' !in s {
      SingleWord(s);
    } else {
      TitleWordsStep(s);
    }
  }

  lemma {:induction false} TitleWordsStep(s: string)
    requires ' ' in s
    ensures TitleWords(s) == TitleCase(s)
    decreases |s|, 0
  {
    var k := Strings.IndexOf(s, ' ');
    var a, b := s[..k], s[k + 1..];
    Strings.SliceAround(s, k);
    FirstWordOf(a, b);
    TitleWordsIsTitleCase(b);
    TitleCaseAtSpace(s, k);
  }

  lemma SingleWord(s: string)
    requires ' ' !in s
    ensures TitleWords(s) == TitleCase(s)
  {
    assert Strings.Split(s, ' ') == [s];
    assert CapitalizeEach([s]) == [Capitalize(s)];
    forall j | 0 <= j < |s| - 1 ensures s[j] != ' ' {
      assert s[j] in s;
    }
  }

  /** The first word is capitalised on its own, then a space, then the rest. */
  lemma FirstWordOf(a: string, b: string)
    requires ' ' !in a
    ensures TitleWords(a + " " + b) == Capitalize(a) + " " + TitleWords(b)
  {
    var rest := Strings.Split(b, ' ');
    calc {
      TitleWords(a + " " + b);
    == { Strings.SplitAfter(a, ' ', b); }
      Strings.Join(CapitalizeEach([a] + rest), " ");
    == { CapitalizeCons(a, rest); }
      Strings.Join([Capitalize(a)] + CapitalizeEach(rest), " ");
    == { Strings.JoinCons(Capitalize(a), CapitalizeEach(rest), " "); }
      Capitalize(a) + " " + TitleWords(b);
    }
  }

  lemma CapitalizeCons(w: string, ws: seq<string>)
    ensures CapitalizeEach([w] + ws) == [Capitalize(w)] + CapitalizeEach(ws)
  {
  }

  lemma TitleCaseAtSpace(s: string, k: nat)
    requires k < |s| && s[k] == ' ' && ' ' !in s[..k]
    ensures TitleCase(s) == Capitalize(s[..k]) + " " + TitleCase(s[k + 1..])
  {
    var a := s[..k];
    var rest := s[k + 1..];
    var r := Capitalize(a) + " " + TitleCase(rest);
    forall i | 0 <= i < |s| ensures r[i] == TitleCase(s)[i] {
      if 0 < i < k {
        assert s[i - 1] == a[i - 1];
        assert a[i - 1] in a;
      } else if i > k + 1 {
        assert s[i - 1] == rest[i - k - 2];
      }
    }
  }

  /** Case mapping never produces a dot, an underscore or an `@` from any
      other character. */
  lemma CaseKeepsMarks(c: char)
    requires c != '.' && c != '_' && c != '@'
    ensures var u := Strings.UpperChar(c); u != '.' && u != '_' && u != '@'
    ensures var l := Strings.LowerChar(c); l != '.' && l != '_' && l != '@'
  {
  }

  /** A shown name never contains a dot, an underscore or an `@`. */
  lemma CreatorNameHasNoMarks(email: string)
    requires email != ""
    ensures var r := CreatorName(Some(email)); '.' !in r && '_' !in r && '@' !in r
  {
    var local := Strings.Split(email, '@')[0];
    var sp := Spaced(local);
    TitleWordsIsTitleCase(sp);
    var r := CreatorName(Some(email));
    assert r == TitleCase(sp);
    forall i | 0 <= i < |r| ensures r[i] != '.' && r[i] != '_' && r[i] != '@' {
      assert sp[i] in sp;
      assert local[i] in local;
      CaseKeepsMarks(sp[i]);
    }
  }

  /** Only the part before the first `@` counts: the domain never shows. */
  lemma DomainIgnored(local: string, d1: string, d2: string)
    requires '@' !in local
    ensures CreatorName(Some(local + "@" + d1)) == CreatorName(Some(local + "@" + d2))
    ensures CreatorName(Some(local + "@" + d1)) == TitleCase(Spaced(local))
  {
    LocalPart(local, d1);
    LocalPart(local, d2);
    TitleWordsIsTitleCase(Spaced(local));
  }

  lemma LocalPart(local: string, d: string)
    requires '@' !in local
    ensures Strings.Split(local + "@" + d, '@')[0] == local
  {
    var e := local + "@" + d;
    Strings.IndexOfAfterPrefix(local, '@', d);
    assert e[|local|] == '@';
    assert e[..|local|] == local;
  }

}

=== FILE: agno_proxy.dfy ===
/** The server-side proxy to the Agno backend (src/app/api/agno/_utils.ts):
    where requests go, which headers they carry, and which upstream response
    headers are relayed back. `fetch` sits between the outbound request and
    the upstream response and is not modelled; the body is relayed as is. */
module AgnoProxy {
  import opened Wrappers
  import opened Http
  import Js
  import Strings

  const DefaultUpstream := "http://localhost:7777"

  /** The response headers the proxy lets through. */
  const AllowedResponseHeaders: seq<string> := ["content-type", "content-length", "transfer-encoding", "cache-control"]

  /** The environment the proxy reads. */
  datatype ProxyEnv = ProxyEnv(agnoApiUrl: Option<string>, publicAgnoApiUrl: Option<string>, apiKey: Option<string>)

  /** `getUpstreamBase`: the first non-empty of the two URLs, else the local
      default, with exactly one trailing slash removed. */
  function UpstreamBase(env: ProxyEnv): (base: string)
    ensures Js.Present(env.agnoApiUrl) ==> Strings.StripTrailingSlash(env.agnoApiUrl.value) == base
    ensures !Js.Present(env.agnoApiUrl) && Js.Present(env.publicAgnoApiUrl) ==>
              Strings.StripTrailingSlash(env.publicAgnoApiUrl.value) == base
    ensures !Js.Present(env.agnoApiUrl) && !Js.Present(env.publicAgnoApiUrl) ==> base == DefaultUpstream
  {
    var chosen := Js.Or(Js.Or(env.agnoApiUrl, env.publicAgnoApiUrl), Some(DefaultUpstream));
    Strings.StripTrailingSlash(chosen.value)
  }

  /** Only one slash goes: a configured `http://h//` becomes `http://h/`. */
  lemma OneSlashStripped(url: string)
    requires url != ""
    ensures UpstreamBase(ProxyEnv(Some(url + "/"), None, None)) == url
  {
  }

  /** `buildServerHeaders(incoming)`: the incoming headers, with Content-Type
      forced to JSON and Authorization replaced by the API key, or removed
      when there is none. */
  function BuildServerHeaders(incoming: Headers, apiKey: Option<string>): (h: Headers)
    ensures "content-type" in h && h["content-type"] == "application/json"
    ensures Js.Present(apiKey) ==> "authorization" in h && h["authorization"] == "Bearer " + apiKey.value
    ensures !Js.Present(apiKey) ==> "authorization" !in h
    ensures forall k :: k in incoming && k != "content-type" && k != "authorization" ==>
              k in h && h[k] == incoming[k]
    ensures forall k :: k in h ==> k in incoming || k == "content-type" || k == "authorization"
  {
    var withType := incoming["content-type" := "application/json"];
    if Js.Present(apiKey) then withType["authorization" := "Bearer " + apiKey.value]
    else withType - {"authorization"}
  }

  /** Building the headers twice changes nothing: the policy is a fixed point. */
  lemma BuildServerHeadersIdempotent(incoming: Headers, apiKey: Option<string>)
    ensures BuildServerHeaders(BuildServerHeaders(incoming, apiKey), apiKey) == BuildServerHeaders(incoming, apiKey)
  {
    var once := BuildServerHeaders(incoming, apiKey);
    var twice := BuildServerHeaders(once, apiKey);
    assert twice.Keys == once.Keys;
  }

  /** A client-supplied Authorization never reaches the backend: it is either
      overwritten by the server key or removed. */
  lemma ClientAuthorizationDropped(incoming: Headers, apiKey: Option<string>)
    requires "authorization" in incoming
    ensures var h := BuildServerHeaders(incoming, apiKey);
            "authorization" !in h || (Js.Present(apiKey) && h["authorization"] == "Bearer " + apiKey.value)
  {
  }

  /** A response header is relayed when its name, ignoring case, is on the
      allow-list. */
  function Allowed(name: string): (r: bool)
    ensures name in AllowedResponseHeaders ==> r
    ensures r ==> Strings.ToLower(name) in AllowedResponseHeaders
  {
    if name in AllowedResponseHeaders then
      Strings.ToLowerNoCapitals(name);
      Strings.ToLower(name) in AllowedResponseHeaders
    else
      Strings.ToLower(name) in AllowedResponseHeaders
  }

  /** `filterResponseHeaders`: the upstream headers whose (lower-cased) name
      is on the allow-list, values untouched. */
  function FilterResponseHeaders(upstream: Headers): (h: Headers)
    ensures forall k :: k in h ==> k in upstream && Allowed(k) && h[k] == upstream[k]
    ensures forall k :: k in upstream && Allowed(k) ==> k in h
  {
    map k | k in upstream && Allowed(k) :: upstream[k]
  }

  /** Header names, as the Fetch `Headers` class yields them, are lower case. */
  predicate Normalised(h: Headers) {
    forall k :: k in h ==> Strings.ToLower(k) == k
  }

  /** For normalised headers the relayed names are among the four allowed. */
  lemma FilteredNamesAllowed(upstream: Headers)
    requires Normalised(upstream)
    ensures forall k :: k in FilterResponseHeaders(upstream) ==> k in AllowedResponseHeaders
  {
  }

  /** Filtering a filtered set of headers changes nothing. */
  lemma FilterIdempotent(upstream: Headers)
    ensures FilterResponseHeaders(FilterResponseHeaders(upstream)) == FilterResponseHeaders(upstream)
  {
    var once := FilterResponseHeaders(upstream);
    assert FilterResponseHeaders(once).Keys == once.Keys;
  }

  datatype Method = Get | Post | Delete

  /** The request the proxy hands to `fetch`. */
  datatype Outbound = Outbound(verb: Method, url: string, headers: Headers, body: Option<string>)

  /** What `fetch` resolved with. */
  datatype Upstream = Upstream(status: int, headers: Headers, body: string)

  /** The response given back to the browser. */
  datatype Relayed = Relayed(status: int, headers: Headers, body: string)

  /** `proxyGet(path)`: GET to base ++ path with only the server headers. */
  function ProxyGet(env: ProxyEnv, path: string): (o: Outbound)
    ensures o.verb == Get && o.url == UpstreamBase(env) + path && o.body.None?
    ensures "content-type" in o.headers && o.headers["content-type"] == "application/json"
    ensures forall k :: k in o.headers ==> k == "content-type" || k == "authorization"
    ensures "authorization" in o.headers <==> Js.Present(env.apiKey)
  {
    Outbound(Get, UpstreamBase(env) + path, BuildServerHeaders(map[], env.apiKey), None)
  }

  /** `proxyDelete(path)`: DELETE to base ++ path with only the server headers. */
  function ProxyDelete(env: ProxyEnv, path: string): (o: Outbound)
    ensures o.verb == Delete && o.url == UpstreamBase(env) + path && o.body.None?
    ensures "content-type" in o.headers && o.headers["content-type"] == "application/json"
    ensures forall k :: k in o.headers ==> k == "content-type" || k == "authorization"
    ensures "authorization" in o.headers <==> Js.Present(env.apiKey)
  {
    Outbound(Delete, UpstreamBase(env) + path, BuildServerHeaders(map[], env.apiKey), None)
  }

  /** `proxyPost(path, req)`: POST to base ++ path carrying the request's
      text verbatim and its headers under the server policy. */
  function ProxyPost(env: ProxyEnv, path: string, reqHeaders: Headers, reqText: string): (o: Outbound)
    ensures o.verb == Post && o.url == UpstreamBase(env) + path
    ensures o.body == Some(reqText)
    ensures o.headers == BuildServerHeaders(reqHeaders, env.apiKey)
  {
    Outbound(Post, UpstreamBase(env) + path, BuildServerHeaders(reqHeaders, env.apiKey), Some(reqText))
  }

  /** The relay step shared by all three: upstream status and body unchanged,
      headers filtered. */
  function Relay(res: Upstream): (r: Relayed)
    ensures r.status == res.status && r.body == res.body
    ensures r.headers == FilterResponseHeaders(res.headers)
  {
    Relayed(res.status, FilterResponseHeaders(res.headers), res.body)
  }

  /** Relaying a relayed response gives the same response: everything the
      proxy lets through, it lets through again. */
  lemma RelayIdempotent(res: Upstream)
    ensures var r := Relay(res); Relay(Upstream(r.status, r.headers, r.body)) == r
  {
    FilterIdempotent(res.headers);
  }
}

=== FILE: api_routes.dfy ===
/** The client's URL builders (src/api/routes.ts): each joins a base URL
    with one of the `AGNO_ENDPOINTS` paths. */
module ApiRoutes {
  import Strings
  import Config

  function PlaygroundAgents(base: string): (u: string)
    ensures Strings.StartsWith(u, base) && u[|base|..] == Config.AgentsPath
  {
    base + Config.AgentsPath
  }

  function AgentRun(base: string): (u: string)
    ensures Strings.StartsWith(u, base) && u[|base|..] == Config.ChatPath
  {
    base + Config.ChatPath
  }

  function PlaygroundStatus(base: string): (u: string)
    ensures Strings.StartsWith(u, base) && u[|base|..] == Config.StatusPath
  {
    base + Config.StatusPath
  }

  /** `${base}/sessions/${agentId}`. */
  function PlaygroundSessions(base: string, agentId: string): (u: string)
    ensures Strings.StartsWith(u, base + Config.SessionsPath + "/")
    ensures u[|base + Config.SessionsPath + "/"|..] == agentId
  {
    base + Config.SessionsPath + "/" + agentId
  }

  /** `${base}/sessions/${agentId}/${sessionId}`. */
  function PlaygroundSession(base: string, agentId: string, sessionId: string): (u: string)
    ensures Strings.StartsWith(u, PlaygroundSessions(base, agentId) + "/")
    ensures u[|PlaygroundSessions(base, agentId) + "/"|..] == sessionId
  {
    PlaygroundSessions(base, agentId) + "/" + sessionId
  }

  /** Deleting a session addresses the same URL as reading it. */
  function DeletePlaygroundSession(base: string, agentId: string, sessionId: string): (u: string)
    ensures u == PlaygroundSession(base, agentId, sessionId)
  {
    base + Config.SessionsPath + "/" + agentId + "/" + sessionId
  }

  /** Ids without a slash are recovered from a session URL: the builder
      loses nothing when neither id holds a "/". */
  lemma SessionUrlInjective(base: string, a1: string, s1: string, a2: string, s2: string)
    requires '/' !in a1 && '/' !in a2
    requires PlaygroundSession(base, a1, s1) == PlaygroundSession(base, a2, s2)
    ensures a1 == a2 && s1 == s2
  {
    var p := base + Config.SessionsPath + "/";
    var u := PlaygroundSession(base, a1, s1);
    assert u == p + a1 + "/" + s1;
    assert u == p + a2 + "/" + s2;
    var tail := u[|p|..];
    assert tail == a1 + "/" + s1 && tail == a2 + "/" + s2;
    FirstSegment(a1, s1, a2, s2);
  }

  lemma FirstSegment(a1: string, s1: string, a2: string, s2: string)
    requires '/' !in a1 && '/' !in a2
    requires a1 + "/" + s1 == a2 + "/" + s2
    ensures a1 == a2 && s1 == s2
  {
    var t := a1 + "/" + s1;
    Strings.IndexOfAfterPrefix(a1, '/', s1);
    Strings.IndexOfAfterPrefix(a2, '/', s2);
    assert a1 == t[..|a1|] == a2;
    assert s1 == t[|a1| + 1..] == s2;
  }
}

=== FILE: config.dfy ===
/** Client configuration (src/lib/config.ts): the proxy base URL, the
    feature flag, the list of alternative endpoints and the request headers,
    each a function of the environment variable it reads. */
module Config {
  import opened Wrappers
  import Strings
  import Js

  const DefaultProxyBase: string := "/api/agno"

  const DefaultAlternatives: seq<string> := [
    "http://localhost:7777",
    "http://localhost:8000",
    "http://localhost:3001",
    "https://api.openai.com/v1",
    "https://api.groq.com/openai/v1"
  ]

  /** `AGNO_ENDPOINTS`. */
  const ChatPath: string := "/chat/completions"
  const AgentsPath: string := "/models"
  const SessionsPath: string := "/sessions"
  const StatusPath: string := "/status"

  /** `API_URL`: `NEXT_PUBLIC_AGNO_PROXY_BASE || "/api/agno"`, with one
      trailing slash removed. */
  function ApiUrl(proxyBase: Option<string>): (u: string)
    ensures !Js.Present(proxyBase) ==> u == DefaultProxyBase
    ensures Js.Present(proxyBase) ==> u == Strings.StripTrailingSlash(proxyBase.value)
    ensures Js.Present(proxyBase) && u != proxyBase.value ==> proxyBase.value == u + "/"
  {
    Strings.StripTrailingSlash(Js.Or(proxyBase, Some(DefaultProxyBase)).value)
  }

  /** `ENABLED`: `(NEXT_PUBLIC_AGNO_ENABLED ?? "true") === "true"`. Only an
      unset variable defaults to on; a set variable must be exactly "true". */
  function Enabled(flag: Option<string>): (on: bool)
    ensures on <==> flag.None? || flag == Some("true")
  {
    (if flag.Some? then flag.value else "true") == "true"
  }

  /** `.map(s => s.trim()).filter(Boolean)`. */
  function NonBlankTrimmed(parts: seq<string>): (r: seq<string>)
    ensures |r| <= |parts|
    ensures forall x :: x in r ==> x != ""
  {
    if |parts| == 0 then []
    else
      var t := Strings.Trim(parts[0]);
      if t == "" then NonBlankTrimmed(parts[1..]) else [t] + NonBlankTrimmed(parts[1..])
  }

  /** The kept entries are exactly the non-blank trimmed pieces. */
  lemma NonBlankTrimmedMembers(parts: seq<string>)
    ensures forall i :: 0 <= i < |parts| && Strings.Trim(parts[i]) != "" ==> Strings.Trim(parts[i]) in NonBlankTrimmed(parts)
    ensures forall x :: x in NonBlankTrimmed(parts) ==> exists i :: 0 <= i < |parts| && x == Strings.Trim(parts[i])
  {
    NonBlankTrimmedComplete(parts);
    NonBlankTrimmedSound(parts);
  }

  lemma {:induction false} NonBlankTrimmedComplete(parts: seq<string>)
    ensures forall i :: 0 <= i < |parts| && Strings.Trim(parts[i]) != "" ==> Strings.Trim(parts[i]) in NonBlankTrimmed(parts)
  {
    if |parts| > 0 {
      NonBlankTrimmedComplete(parts[1..]);
      forall i | 0 <= i < |parts| && Strings.Trim(parts[i]) != "" ensures Strings.Trim(parts[i]) in NonBlankTrimmed(parts) {
        if i > 0 {
          assert parts[i] == parts[1..][i - 1];
        }
      }
    }
  }

  /** `x` is one of the pieces, trimmed. */
  predicate FromPart(parts: seq<string>, x: string) {
    exists i :: 0 <= i < |parts| && x == Strings.Trim(parts[i])
  }

  lemma {:induction false} NonBlankTrimmedSound(parts: seq<string>)
    ensures forall x :: x in NonBlankTrimmed(parts) ==> FromPart(parts, x)
  {
    if |parts| > 0 {
      NonBlankTrimmedSound(parts[1..]);
      forall x | x in NonBlankTrimmed(parts) ensures FromPart(parts, x) {
        if x != Strings.Trim(parts[0]) {
          assert x in NonBlankTrimmed(parts[1..]);
          FromPartTail(parts, x);
        }
      }
    }
  }

  lemma FromPartTail(parts: seq<string>, x: string)
    requires |parts| > 0 && FromPart(parts[1..], x)
    ensures FromPart(parts, x)
  {
    var k :| 0 <= k < |parts[1..]| && x == Strings.Trim(parts[1..][k]);
    assert parts[1..][k] == parts[k + 1];
  }

  /** `ALTERNATIVE_ENDPOINTS`: the comma-separated list in
      `NEXT_PUBLIC_AGNO_ALT_ENDPOINTS`, trimmed and without blank entries, or
      the five defaults when that leaves nothing. */
  function AlternativeEndpoints(list: Option<string>): (r: seq<string>)
    ensures |r| > 0
    ensures forall x :: x in r ==> x != ""
    ensures r != DefaultAlternatives ==> Js.Present(list)
    ensures !Js.Present(list) ==> r == DefaultAlternatives
    ensures Js.Present(list) && |NonBlankTrimmed(Strings.Split(list.value, ','))| > 0 ==>
              r == NonBlankTrimmed(Strings.Split(list.value, ','))
    ensures Js.Present(list) && |NonBlankTrimmed(Strings.Split(list.value, ','))| == 0 ==> r == DefaultAlternatives
  {
    var entries := NonBlankTrimmed(Strings.Split(if Js.Present(list) then list.value else "", ','));
    NoEntriesWhenUnset();
    if |entries| > 0 then entries else DefaultAlternatives
  }

  /** An unset variable splits into one empty piece, which is dropped. */
  lemma NoEntriesWhenUnset()
    ensures NonBlankTrimmed(Strings.Split("", ',')) == []
  {
    assert Strings.Split("", ',') == [""];
    assert Strings.Trim("") == "";
  }

  /** A list written out as comma-separated, already trimmed, non-blank
      entries is read back exactly. */
  lemma AlternativesRoundTrip(xs: seq<string>)
    requires |xs| > 0
    requires AllClean(xs) && forall i :: 0 <= i < |xs| ==> ',' !in xs[i]
    ensures AlternativeEndpoints(Some(Strings.Join(xs, ","))) == xs
  {
    var s := Strings.Join(xs, [',']);
    Strings.SplitJoin(xs, ',');
    assert Clean(xs[0]);
    JoinNonEmpty(xs);
    KeepsClean(xs);
    EntriesOf(s, xs);
  }

  /** The configured list, once it is known to be split into clean entries. */
  lemma EntriesOf(s: string, xs: seq<string>)
    requires s != "" && |xs| > 0
    requires NonBlankTrimmed(Strings.Split(s, ',')) == xs
    ensures AlternativeEndpoints(Some(s)) == xs
  {
  }

  lemma JoinNonEmpty(xs: seq<string>)
    requires |xs| > 0 && xs[0] != ""
    ensures |Strings.Join(xs, ",")| >= |xs[0]| > 0
  {
  }

  /** An entry the cleaning leaves alone: non-empty, nothing to trim. */
  predicate Clean(x: string) {
    x != "" && Strings.Trim(x) == x
  }

  predicate AllClean(xs: seq<string>) {
    forall i :: 0 <= i < |xs| ==> Clean(xs[i])
  }

  /** Entries that are already trimmed and non-blank pass unchanged. */
  lemma {:induction false} KeepsClean(xs: seq<string>)
    requires AllClean(xs)
    ensures NonBlankTrimmed(xs) == xs
  {
    if |xs| > 0 {
      var rest := xs[1..];
      assert forall i :: 0 <= i < |rest| ==> rest[i] == xs[i + 1];
      KeepsClean(rest);
      KeepsCleanStep(xs);
      assert xs == [xs[0]] + rest;
    }
  }

  lemma KeepsCleanStep(xs: seq<string>)
    requires |xs| > 0 && Clean(xs[0])
    ensures NonBlankTrimmed(xs) == [xs[0]] + NonBlankTrimmed(xs[1..])
  {
  }

  /** `getAgnoHeaders()`: JSON in both directions and, on purpose, no
      Authorization header. */
  function AgnoHeaders(): (h: map<string, string>)
    ensures h.Keys == {"Content-Type", "Accept"}
    ensures "Authorization" !in h && "authorization" !in h
    ensures forall k :: k in h ==> h[k] == "application/json"
  {
    map["Content-Type" := "application/json", "Accept" := "application/json"]
  }
}

=== FILE: context_menu.dfy ===
/** The per-card context menu (src/components/AgentContextMenu.tsx): which
    items it lists, the delete item's caption, and the open/closed state
    the items' handlers drive. */
module ContextMenu {
  import opened Wrappers
  import Dashboard

  /** The props that shape the menu. An omitted flag is `None` and takes its
      default: false for all of them except `canDelete`, which defaults to
      true. */
  datatype Props = Props(
    isCustomAgent: Option<bool>,
    hasInfo: bool,
    hasToggleTeam: bool,
    isInTeam: Option<bool>,
    showTeamToggle: Option<bool>,
    isTeamTab: Option<bool>,
    showRemove: Option<bool>,
    canDelete: Option<bool>)

  datatype Item = Edit | Info | TeamToggle(caption: string) | Delete(caption: string)

  /** The delete item's caption: the team tab wins, then `showRemove`, then
      `canDelete`. */
  function DeleteCaption(p: Props): (c: string)
    ensures p.isTeamTab.GetOr(false) ==> c == "Remove from Team"
    ensures !p.isTeamTab.GetOr(false) && p.showRemove.GetOr(false) ==> c == "Remove"
    ensures !p.isTeamTab.GetOr(false) && !p.showRemove.GetOr(false) ==> (c == "Delete" <==> p.canDelete.GetOr(true))
    ensures c in {"Remove from Team", "Remove", "Delete"}
  {
    if p.isTeamTab.GetOr(false) then "Remove from Team"
    else if p.showRemove.GetOr(false) then "Remove"
    else if p.canDelete.GetOr(true) then "Delete"
    else "Remove"
  }

  /** One for a shown item, zero for a hidden one. */
  function Count(shown: bool): nat {
    if shown then 1 else 0
  }

  /** The items of the open menu, top to bottom: Edit for custom agents,
      Info when a handler is given, the team toggle when asked for, and the
      delete item always last. */
  function Items(p: Props): (items: seq<Item>)
    ensures |items| >= 1 && items[|items| - 1] == Delete(DeleteCaption(p))
    ensures Edit in items <==> p.isCustomAgent.GetOr(false)
    ensures Info in items <==> p.hasInfo
    ensures (exists i :: 0 <= i < |items| && items[i].TeamToggle?) <==> p.showTeamToggle.GetOr(false)
    ensures forall i :: 0 <= i < |items| - 1 ==> !items[i].Delete?
    ensures |items| == Count(p.isCustomAgent.GetOr(false)) + Count(p.hasInfo) + Count(p.showTeamToggle.GetOr(false)) + 1
    ensures p.isCustomAgent.GetOr(false) ==> items[0] == Edit
    ensures p.hasInfo ==> items[Count(p.isCustomAgent.GetOr(false))] == Info
    ensures p.showTeamToggle.GetOr(false) ==>
              items[|items| - 2] == TeamToggle(if p.isInTeam.GetOr(false) then "Remove from Team" else "Add to Team")
  {
    var edit := if p.isCustomAgent.GetOr(false) then [Edit] else [];
    var info := if p.hasInfo then [Info] else [];
    var toggle := if p.showTeamToggle.GetOr(false)
                  then [TeamToggle(if p.isInTeam.GetOr(false) then "Remove from Team" else "Add to Team")] else [];
    Assemble(edit, info, toggle, Delete(DeleteCaption(p)));
    edit + info + toggle + [Delete(DeleteCaption(p))]
  }

  /** The menu's layout: the optional items in order, then the delete item. */
  lemma Assemble(edit: seq<Item>, info: seq<Item>, toggle: seq<Item>, d: Item)
    requires forall x :: x in edit ==> x == Edit
    requires forall x :: x in info ==> x == Info
    requires forall x :: x in toggle ==> x.TeamToggle?
    requires d.Delete?
    ensures var xs := edit + info + toggle + [d];
            && xs[|xs| - 1] == d
            && (Edit in xs <==> edit != [])
            && (Info in xs <==> info != [])
            && ((exists i :: 0 <= i < |xs| && xs[i].TeamToggle?) <==> toggle != [])
            && (forall i :: 0 <= i < |xs| - 1 ==> !xs[i].Delete?)
  {
    var xs := edit + info + toggle + [d];
    var front := edit + info + toggle;
    assert forall i :: 0 <= i < |front| ==> xs[i] == front[i] && front[i] in front;
    assert forall x :: x in front <==> x in edit || x in info || x in toggle;
    if edit != [] { assert edit[0] in edit; }
    if info != [] { assert info[0] in info; }
    if toggle != [] { assert xs[|edit| + |info|] == toggle[0] && toggle[0] in toggle; }
    if exists i :: 0 <= i < |xs| && xs[i].TeamToggle? {
      var i :| 0 <= i < |xs| && xs[i].TeamToggle?;
      assert i < |front| && front[i] in front;
    }
  }

  /** The callbacks the items invoke. */
  datatype Callback = OnEdit | OnDelete | OnInfo | OnToggleTeam

  /** The menu after an item is clicked, and the callback it ran (`None`
      when the optional handler is absent). */
  datatype Clicked = Clicked(open: bool, ran: Option<Callback>)

  /** `handleEdit`, `handleDelete`, `handleInfo` and `handleToggleTeam`: run
      the callback (the optional ones only when given) and close the menu. */
  function Click(p: Props, item: Item): (r: Clicked)
    ensures !r.open
    ensures item == Edit ==> r.ran == Some(OnEdit)
    ensures item.Delete? ==> r.ran == Some(OnDelete)
    ensures item == Info ==> (r.ran == Some(OnInfo) <==> p.hasInfo)
    ensures item.TeamToggle? ==> (r.ran == Some(OnToggleTeam) <==> p.hasToggleTeam)
  {
    match item
    case Edit => Clicked(false, Some(OnEdit))
    case Delete(_) => Clicked(false, Some(OnDelete))
    case Info => Clicked(false, if p.hasInfo then Some(OnInfo) else None)
    case TeamToggle(_) => Clicked(false, if p.hasToggleTeam then Some(OnToggleTeam) else None)
  }

  /** `handleMenuToggle`: the button opens a closed menu and closes an open
      one. */
  function ToggleOpen(open: bool): (r: bool)
    ensures r != open
  {
    !open
  }

  /** The props the dashboard passes for a card. */
  function CardProps(a: Dashboard.Agent, email: string): Props {
    Props(Some(a.isCustom), true, false, None, None, None,
          Some(Dashboard.ShouldShowRemove(a, email)), Some(Dashboard.CanDelete(a, email)))
  }

  /** On a dashboard card, the delete item reads "Delete" exactly when the
      user may delete the card and "Remove" otherwise; the menu never shows a
      team toggle, always offers Info, and offers Edit on custom cards. */
  lemma CardMenuCaption(a: Dashboard.Agent, email: string)
    ensures DeleteCaption(CardProps(a, email)) == (if Dashboard.CanDelete(a, email) then "Delete" else "Remove")
    ensures var items := Items(CardProps(a, email));
            Info in items && (Edit in items <==> a.isCustom)
            && forall i :: 0 <= i < |items| ==> !items[i].TeamToggle?
  {
  }

  /** The team tab's caption hides every other flag. */
  lemma TeamTabWins(p: Props)
    requires p.isTeamTab == Some(true)
    ensures DeleteCaption(p) == DeleteCaption(p.(showRemove := Some(false), canDelete := Some(true)))
    ensures DeleteCaption(p) == "Remove from Team"
  {
  }
}

=== FILE: dashboard.dfy ===
/** The dashboard's list logic (src/components/Dashboard.tsx): turning the
    registry and hardcoded listings into agent cards; adding, updating,
    deleting and removing personal agents; the library's tag filter and
    grouping; and the delete/remove permission flags. The component's state
    is an immutable `Board`, and `Date.now()` is the `now` parameter. */
module Dashboard {
  import opened Wrappers
  import Strings
  import Js
  import ToolStore
  import RegistryRoute
  import HardcodedRoute

  datatype Kind = Personal | Team

  /** A card on the "My agents" tab. */
  datatype Agent = Agent(
    id: string,
    name: string,
    displayName: Option<string>,
    kind: Kind,
    description: string,
    isCustom: bool,
    createdBy: Option<string>,
    isLibraryAgent: bool,
    tags: Option<seq<string>>)

  /** An entry of the team library. */
  datatype LibraryAgent = LibraryAgent(
    id: string,
    name: string,
    description: string,
    category: string,
    createdBy: string,
    tags: Option<seq<string>>)

  /** The dashboard's state: the cards, the library, the ids of library
      entries added to the personal list, and the agent awaiting delete
      confirmation. */
  datatype Board = Board(agents: seq<Agent>, library: seq<LibraryAgent>, personal: set<string>, pendingDelete: Option<string>)

  /** The fields the add and update handlers read from the form. */
  datatype NewAgent = NewAgent(name: string, displayName: Option<string>, description: string, tags: seq<string>)

  // ---------------------------------------------------------------------
  // Loading the cards

  /** How one of the two listing requests ended: the promise rejected
      (including a body that does not parse), the status was not ok, or the
      list arrived. */
  datatype Fetch<+T> = Rejected | NotOk | Ok(value: T)

  /** `h?.notes || h?.registry?.notes || undefined`. The hardcoded listing
      selects no `notes` column of the registry row, so the second operand is
      always undefined and only the profile's own notes count. */
  function NoteOf(h: HardcodedRoute.Listed): (n: Option<string>)
    ensures n.Some? <==> Js.Present(h.notes)
    ensures n.Some? ==> n == h.notes
  {
    if Js.Present(h.notes) then h.notes else None
  }

  /** `notesById`, filled in listing order. */
  function NotesById(hs: seq<HardcodedRoute.Listed>): (m: map<string, Option<string>>)
    ensures forall i :: 0 <= i < |hs| ==> hs[i].id in m
    ensures forall id :: id in m ==> exists i :: 0 <= i < |hs| && hs[i].id == id
    decreases |hs|
  {
    if |hs| == 0 then map[]
    else
      var prefix := hs[..|hs| - 1];
      var m := NotesById(prefix);
      assert forall i :: 0 <= i < |prefix| ==> prefix[i] == hs[i];
      m[hs[|hs| - 1].id := NoteOf(hs[|hs| - 1])]
  }

  /** The last listed profile with a given id decides its notes. */
  lemma {:induction false} NotesByIdLastWins(hs: seq<HardcodedRoute.Listed>, j: nat)
    requires j < |hs|
    requires forall k :: j < k < |hs| ==> hs[k].id != hs[j].id
    ensures hs[j].id in NotesById(hs) && NotesById(hs)[hs[j].id] == NoteOf(hs[j])
    decreases |hs|
  {
    if j < |hs| - 1 {
      var prefix := hs[..|hs| - 1];
      assert prefix[j] == hs[j];
      forall k | j < k < |prefix| ensures prefix[k].id != prefix[j].id {
        assert prefix[k] == hs[k];
      }
      NotesByIdLastWins(prefix, j);
    }
  }

  /** The card text: a hardcoded tool's notes, or "" without any; for the
      other kinds the type name followed by " tool". */
  function Description(item: RegistryRoute.Item, notes: map<string, Option<string>>): (d: string)
    ensures item.toolType != ToolStore.HardCoded ==> d == ToolStore.ToolTypeName(item.toolType) + " tool"
    ensures item.toolType == ToolStore.HardCoded && item.id in notes && Js.Present(notes[item.id]) ==> d == notes[item.id].value
    ensures item.toolType == ToolStore.HardCoded && !(item.id in notes && Js.Present(notes[item.id])) ==> d == ""
  {
    if item.toolType == ToolStore.HardCoded then
      (if item.id in notes && Js.Present(notes[item.id]) then notes[item.id].value else "")
    else ToolStore.ToolTypeName(item.toolType) + " tool"
  }

  function TagNames(tags: seq<ToolStore.Tag>): (r: seq<string>)
    ensures |r| == |tags| && forall i :: 0 <= i < |tags| ==> r[i] == tags[i].name
  {
    seq(|tags|, i requires 0 <= i < |tags| => tags[i].name)
  }

  /** One registry row as a card. */
  function CardOf(item: RegistryRoute.Item, notes: map<string, Option<string>>): (a: Agent)
    ensures a.id == item.id && a.name == "@" + item.explicitCallName && a.displayName == Some(item.readableName)
    ensures a.kind == Personal && a.isCustom && a.createdBy.None? && !a.isLibraryAgent
    ensures a.tags == Some(TagNames(item.tags))
  {
    Agent(item.id, "@" + item.explicitCallName, Some(item.readableName), Personal,
          Description(item, notes), true, None, false, Some(TagNames(item.tags)))
  }

  /** The load effect: one card per registry row, in listing order. A
      non-ok hardcoded listing only loses the notes; any rejection empties
      the board. */
  function LoadAgents(reg: Fetch<seq<RegistryRoute.Item>>, hc: Fetch<seq<HardcodedRoute.Listed>>): (agents: seq<Agent>)
    ensures reg.Rejected? || hc.Rejected? || reg.NotOk? ==> agents == []
    ensures reg.Ok? && !hc.Rejected? ==> |agents| == |reg.value|
    ensures reg.Ok? && !hc.Rejected? ==>
              forall i :: 0 <= i < |agents| ==> agents[i] == CardOf(reg.value[i], NotesById(if hc.Ok? then hc.value else []))
  {
    if reg.Rejected? || hc.Rejected? then []
    else
      var items := if reg.Ok? then reg.value else [];
      var notes := NotesById(if hc.Ok? then hc.value else []);
      seq(|items|, i requires 0 <= i < |items| => CardOf(items[i], notes))
  }

  /** Every row of the registry becomes a card, named by its call name. */
  lemma EveryRegistryRowHasCard(s: ToolStore.Store, row: ToolStore.RegistryRow)
    requires row in s.registry
    ensures var agents := LoadAgents(Ok(RegistryRoute.Listing(s, None, None)), Ok(HardcodedRoute.List(s).payload));
            exists a :: a in agents && a.id == row.id && a.name == "@" + row.explicitCallName
  {
    var items := RegistryRoute.Listing(s, None, None);
    RegistryRoute.ListingComplete(s, None, None);
    assert RegistryRoute.ShapeItem(row) in items;
    var k :| 0 <= k < |items| && items[k] == RegistryRoute.ShapeItem(row);
    CardAt(items, HardcodedRoute.List(s).payload, k);
  }

  /** The card at a row's position carries that row's id and call name. */
  lemma CardAt(items: seq<RegistryRoute.Item>, hs: seq<HardcodedRoute.Listed>, k: nat)
    requires k < |items|
    ensures var agents := LoadAgents(Ok(items), Ok(hs));
            exists a :: a in agents && a.id == items[k].id && a.name == "@" + items[k].explicitCallName
  {
    var agents := LoadAgents(Ok(items), Ok(hs));
    assert agents[k] in agents;
  }

  /** A hardcoded card shows the notes of its profile: the listing holds one
      entry per profile id, so that entry decides. */
  lemma HardcodedCardShowsNotes(item: RegistryRoute.Item, hs: seq<HardcodedRoute.Listed>, j: nat)
    requires item.toolType == ToolStore.HardCoded
    requires j < |hs| && hs[j].id == item.id
    requires forall k :: 0 <= k < |hs| && k != j ==> hs[k].id != item.id
    ensures Js.Present(hs[j].notes) ==> CardOf(item, NotesById(hs)).description == hs[j].notes.value
    ensures !Js.Present(hs[j].notes) ==> CardOf(item, NotesById(hs)).description == ""
  {
    NotesByIdLastWins(hs, j);
  }

  // ---------------------------------------------------------------------
  // Filters over the card list

  /** The first-order criteria the handlers filter cards by. */
  datatype Test = HasId(id: string) | PersonalNamed(name: string) | IsTeam

  predicate Passes(a: Agent, t: Test) {
    match t
    case HasId(id) => a.id == id
    case PersonalNamed(name) => a.name == name && a.kind == Personal
    case IsTeam => a.kind == Team
  }

  /** The cards that fail the test, in order. */
  function Without(agents: seq<Agent>, t: Test): (r: seq<Agent>)
    ensures |r| <= |agents|
    ensures forall a :: a in r <==> a in agents && !Passes(a, t)
  {
    if |agents| == 0 then []
    else (if Passes(agents[0], t) then [] else [agents[0]]) + Without(agents[1..], t)
  }

  /** Filtering keeps each failing card as often as the list holds it. */
  lemma {:induction false} WithoutCounts(agents: seq<Agent>, t: Test)
    ensures forall a :: multiset(Without(agents, t))[a] == if Passes(a, t) then 0 else multiset(agents)[a]
  {
    if |agents| > 0 {
      assert agents == [agents[0]] + agents[1..];
      WithoutCounts(agents[1..], t);
    }
  }

  /** Filtering distributes over concatenation, so the kept cards stay in
      their original order. */
  lemma {:induction false} WithoutAppend(xs: seq<Agent>, ys: seq<Agent>, t: Test)
    ensures Without(xs + ys, t) == Without(xs, t) + Without(ys, t)
  {
    if |xs| > 0 {
      var x, tl := xs[0], xs[1..];
      assert xs == [x] + tl && xs + ys == [x] + (tl + ys);
      var head := if Passes(x, t) then [] else [x];
      WithoutCons(x, tl, t);
      WithoutCons(x, tl + ys, t);
      WithoutAppend(tl, ys, t);
      AppendAssoc(head, Without(tl, t), Without(ys, t));
    } else {
      assert xs + ys == ys;
    }
  }

  lemma AppendAssoc<T>(a: seq<T>, b: seq<T>, c: seq<T>)
    ensures a + (b + c) == (a + b) + c
  {
  }

  lemma WithoutCons(x: Agent, xs: seq<Agent>, t: Test)
    ensures Without([x] + xs, t) == (if Passes(x, t) then [] else [x]) + Without(xs, t)
  {
    assert ([x] + xs)[0] == x && ([x] + xs)[1..] == xs;
  }

  lemma {:induction false} WithoutNoMatch(agents: seq<Agent>, t: Test)
    requires forall a :: a in agents ==> !Passes(a, t)
    ensures Without(agents, t) == agents
  {
    if |agents| > 0 {
      var rest := agents[1..];
      assert !Passes(agents[0], t) by { assert agents[0] in agents; }
      assert forall a :: a in rest ==> !Passes(a, t) by {
        forall a | a in rest ensures !Passes(a, t) {
          var k :| 0 <= k < |rest| && rest[k] == a;
          assert agents[k + 1] == a;
        }
      }
      WithoutNoMatch(rest, t);
      HeadTail(agents);
    }
  }

  lemma HeadTail(agents: seq<Agent>)
    requires |agents| > 0
    ensures [agents[0]] + agents[1..] == agents
  {
  }

  /** `agents.find(a => a.id === id)`: the first card with that id. */
  function FindAgent(agents: seq<Agent>, id: string): (r: Option<Agent>)
    ensures r.None? <==> forall a :: a in agents ==> a.id != id
    ensures r.Some? ==> r.value in agents && r.value.id == id
  {
    if |agents| == 0 then None
    else if agents[0].id == id then Some(agents[0])
    else FindAgent(agents[1..], id)
  }

  /** `libraryAgents.find(lib => lib.name === name)`. */
  function FindLibrary(library: seq<LibraryAgent>, name: string): (r: Option<LibraryAgent>)
    ensures r.None? <==> forall l :: l in library ==> l.name != name
    ensures r.Some? ==> r.value in library && r.value.name == name
  {
    if |library| == 0 then None
    else if library[0].name == name then Some(library[0])
    else FindLibrary(library[1..], name)
  }

  /** Forgets that the library entry named like a removed card was added. */
  function Unlink(personal: set<string>, library: seq<LibraryAgent>, name: string): (r: set<string>)
    ensures r <= personal
    ensures FindLibrary(library, name).None? ==> r == personal
    ensures FindLibrary(library, name).Some? ==> r == personal - {FindLibrary(library, name).value.id}
  {
    var lib := FindLibrary(library, name);
    if lib.Some? then personal - {lib.value.id} else personal
  }

  // ---------------------------------------------------------------------
  // Handlers

  /** `handleAddAgent`: the new card goes first, owned by the signed-in user. */
  function AddAgent(b: Board, n: NewAgent, now: int, email: string): (r: Board)
    ensures |r.agents| == |b.agents| + 1 && r.agents[1..] == b.agents
    ensures r.agents[0].id == Strings.IntToString(now) && r.agents[0].name == n.name
    ensures r.agents[0].displayName == n.displayName && r.agents[0].description == n.description
    ensures r.agents[0].tags == Some(n.tags) && r.agents[0].kind == Personal
    ensures r.library == b.library && r.personal == b.personal && r.pendingDelete == b.pendingDelete
  {
    var a := Agent(Strings.IntToString(now), n.name, n.displayName, Personal, n.description, true, Some(email), false, Some(n.tags));
    b.(agents := [a] + b.agents)
  }

  /** The card a library entry becomes on the personal list. */
  function FromLibrary(lib: LibraryAgent, now: int): (a: Agent)
    ensures a.name == lib.name && a.kind == Personal && !a.isCustom && a.createdBy == Some(lib.createdBy)
  {
    Agent(Strings.IntToString(now), lib.name, None, Personal, lib.description, false, Some(lib.createdBy), false, lib.tags)
  }

  /** `handleAddLibraryAgent`: adds the entry to the personal list, or, when
      it is already there, removes every personal card with its name. */
  function ToggleLibrary(b: Board, lib: LibraryAgent, now: int): (r: Board)
    ensures lib.id in r.personal <==> lib.id !in b.personal
    ensures forall id :: id != lib.id ==> (id in r.personal <==> id in b.personal)
    ensures lib.id !in b.personal ==> r.agents == [FromLibrary(lib, now)] + b.agents
    ensures lib.id in b.personal ==> forall a :: a in r.agents <==> a in b.agents && !Passes(a, PersonalNamed(lib.name))
    ensures lib.id in b.personal ==> r.agents == Without(b.agents, PersonalNamed(lib.name))
    ensures r.library == b.library && r.pendingDelete == b.pendingDelete
  {
    if lib.id in b.personal then
      b.(agents := Without(b.agents, PersonalNamed(lib.name)), personal := b.personal - {lib.id})
    else
      b.(agents := [FromLibrary(lib, now)] + b.agents, personal := b.personal + {lib.id})
  }

  /** Adding a library entry and toggling it again restores the board when
      no personal card already had its name; with such a card, that card is
      removed too. */
  lemma ToggleLibraryTwice(b: Board, lib: LibraryAgent, t1: int, t2: int)
    requires lib.id !in b.personal
    ensures var r := ToggleLibrary(ToggleLibrary(b, lib, t1), lib, t2);
            r.personal == b.personal && r.agents == Without(b.agents, PersonalNamed(lib.name))
    ensures (forall a :: a in b.agents ==> !Passes(a, PersonalNamed(lib.name))) ==>
              ToggleLibrary(ToggleLibrary(b, lib, t1), lib, t2) == b
  {
    var mid := ToggleLibrary(b, lib, t1);
    assert Passes(FromLibrary(lib, t1), PersonalNamed(lib.name));
    assert mid.agents[1..] == b.agents;
    if forall a :: a in b.agents ==> !Passes(a, PersonalNamed(lib.name)) {
      WithoutNoMatch(b.agents, PersonalNamed(lib.name));
    }
  }

  /** The card an update writes: name, display name, description and tags
      from the form, everything else kept. */
  function Updated(a: Agent, u: NewAgent): Agent {
    a.(name := u.name, displayName := u.displayName, description := u.description, tags := Some(u.tags))
  }

  /** `handleUpdateAgent`: only the cards with the edited id change. */
  function UpdateAgent(b: Board, id: string, u: NewAgent): (r: Board)
    ensures FindAgent(b.agents, id).None? ==> r == b
    ensures |r.agents| == |b.agents|
    ensures forall i :: 0 <= i < |b.agents| && b.agents[i].id != id ==> r.agents[i] == b.agents[i]
    ensures forall i :: 0 <= i < |b.agents| && b.agents[i].id == id ==> r.agents[i] == Updated(b.agents[i], u)
    ensures r.library == b.library && r.personal == b.personal && r.pendingDelete == b.pendingDelete
  {
    if FindAgent(b.agents, id).None? then b
    else
      var agents := b.agents;
      b.(agents := seq(|agents|, i requires 0 <= i < |agents| => if agents[i].id == id then Updated(agents[i], u) else agents[i]))
  }

  /** An update keeps every card's id, kind, owner and custom flag, so it
      never changes who may delete a card. */
  lemma UpdateKeepsOwnership(b: Board, id: string, u: NewAgent, email: string)
    ensures var r := UpdateAgent(b, id, u);
            forall i :: 0 <= i < |r.agents| ==>
              r.agents[i].id == b.agents[i].id && r.agents[i].kind == b.agents[i].kind
              && (CanDelete(r.agents[i], email) <==> CanDelete(b.agents[i], email))
  {
  }

  /** `handleDeleteAgent`: a library card goes at once; a custom card waits
      for confirmation. */
  function DeleteAgent(b: Board, id: string): (r: Board)
    ensures FindAgent(b.agents, id).None? ==> r == b
    ensures FindAgent(b.agents, id).Some? && FindAgent(b.agents, id).value.isCustom ==>
              r == b.(pendingDelete := Some(id))
    ensures FindAgent(b.agents, id).Some? && !FindAgent(b.agents, id).value.isCustom ==>
              r.agents == Without(b.agents, HasId(id)) && r.pendingDelete == b.pendingDelete
              && r.personal == Unlink(b.personal, b.library, FindAgent(b.agents, id).value.name)
              && r.library == b.library
  {
    match FindAgent(b.agents, id)
    case None => b
    case Some(a) =>
      if !a.isCustom then b.(agents := Without(b.agents, HasId(id)), personal := Unlink(b.personal, b.library, a.name))
      else b.(pendingDelete := Some(id))
  }

  /** `handleRemoveFromPersonal`: the card goes at once, and a library
      card's entry is no longer marked as added. */
  function RemoveFromPersonal(b: Board, id: string): (r: Board)
    ensures FindAgent(b.agents, id).None? ==> r == b
    ensures FindAgent(b.agents, id).Some? ==> r.agents == Without(b.agents, HasId(id))
    ensures FindAgent(b.agents, id).Some? && FindAgent(b.agents, id).value.isCustom ==> r.personal == b.personal
    ensures FindAgent(b.agents, id).Some? && !FindAgent(b.agents, id).value.isCustom ==>
              r.personal == Unlink(b.personal, b.library, FindAgent(b.agents, id).value.name)
    ensures r.library == b.library && r.pendingDelete == b.pendingDelete
  {
    match FindAgent(b.agents, id)
    case None => b
    case Some(a) =>
      b.(agents := Without(b.agents, HasId(id)),
         personal := if !a.isCustom then Unlink(b.personal, b.library, a.name) else b.personal)
  }

  /** Drops the library entries named `name` whose id starts with "custom-". */
  function DropCustomCopies(library: seq<LibraryAgent>, name: string): (r: seq<LibraryAgent>)
    ensures forall l :: l in r <==> l in library && (l.name != name || !Strings.StartsWith(l.id, "custom-"))
  {
    if |library| == 0 then []
    else
      var l := library[0];
      (if l.name != name || !Strings.StartsWith(l.id, "custom-") then [l] else []) + DropCustomCopies(library[1..], name)
  }

  /** Every kept entry stays as often as the library holds it. */
  lemma {:induction false} DropCustomCopiesCounts(library: seq<LibraryAgent>, name: string)
    ensures forall l :: multiset(DropCustomCopies(library, name))[l] ==
              if l.name != name || !Strings.StartsWith(l.id, "custom-") then multiset(library)[l] else 0
  {
    if |library| > 0 {
      assert library == [library[0]] + library[1..];
      DropCustomCopiesCounts(library[1..], name);
    }
  }

  /** Dropping distributes over concatenation: the kept entries stay in
      order. */
  lemma {:induction false} DropCustomCopiesAppend(xs: seq<LibraryAgent>, ys: seq<LibraryAgent>, name: string)
    ensures DropCustomCopies(xs + ys, name) == DropCustomCopies(xs, name) + DropCustomCopies(ys, name)
  {
    if |xs| > 0 {
      var l, tl := xs[0], xs[1..];
      assert xs == [l] + tl && xs + ys == [l] + (tl + ys);
      var head := if l.name != name || !Strings.StartsWith(l.id, "custom-") then [l] else [];
      DropCustomCopiesCons(l, tl, name);
      DropCustomCopiesCons(l, tl + ys, name);
      DropCustomCopiesAppend(tl, ys, name);
      AppendAssoc(head, DropCustomCopies(tl, name), DropCustomCopies(ys, name));
    } else {
      assert xs + ys == ys;
    }
  }

  lemma DropCustomCopiesCons(l: LibraryAgent, xs: seq<LibraryAgent>, name: string)
    ensures DropCustomCopies([l] + xs, name)
            == (if l.name != name || !Strings.StartsWith(l.id, "custom-") then [l] else []) + DropCustomCopies(xs, name)
  {
    assert ([l] + xs)[0] == l && ([l] + xs)[1..] == xs;
  }

  /** `confirmDeleteAgent`: removes the awaited card (an empty id counts as
      none) and clears the confirmation. */
  function ConfirmDelete(b: Board): (r: Board)
    ensures b.pendingDelete.None? || b.pendingDelete == Some("") ==> r == b
    ensures b.pendingDelete.Some? && b.pendingDelete != Some("") ==>
              r.pendingDelete.None? && r.agents == Without(b.agents, HasId(b.pendingDelete.value))
    ensures b.pendingDelete.Some? && b.pendingDelete != Some("") ==>
              var found := FindAgent(b.agents, b.pendingDelete.value);
              && (found.Some? && !found.value.isCustom ==> r.personal == Unlink(b.personal, b.library, found.value.name))
              && (!(found.Some? && !found.value.isCustom) ==> r.personal == b.personal)
              && (found.Some? && found.value.isCustom && found.value.isLibraryAgent ==>
                    r.library == DropCustomCopies(b.library, found.value.name))
              && (!(found.Some? && found.value.isCustom && found.value.isLibraryAgent) ==> r.library == b.library)
  {
    if b.pendingDelete.None? || b.pendingDelete == Some("") then b
    else
      var id := b.pendingDelete.value;
      var found := FindAgent(b.agents, id);
      var personal := if found.Some? && !found.value.isCustom then Unlink(b.personal, b.library, found.value.name) else b.personal;
      var library := if found.Some? && found.value.isCustom && found.value.isLibraryAgent then DropCustomCopies(b.library, found.value.name) else b.library;
      Board(Without(b.agents, HasId(id)), library, personal, None)
  }

  // ---------------------------------------------------------------------
  // Permission flags and the menu's delete action

  /** `canDeleteAgent`: only a custom card created by the signed-in user. */
  function CanDelete(a: Agent, email: string): (r: bool)
    ensures !a.isCustom ==> !r
    ensures r <==> a.isCustom && a.createdBy == Some(email)
  {
    if !a.isCustom then false else a.isCustom && a.createdBy == Some(email)
  }

  /** `shouldShowRemove`. */
  function ShouldShowRemove(a: Agent, email: string): (r: bool)
    ensures r <==> !CanDelete(a, email)
  {
    if !a.isCustom then true else a.isCustom && a.createdBy != Some(email)
  }

  /** At most one user may delete a given card, and a library card shows
      Remove to everyone. */
  lemma OneUserMayDelete(a: Agent, e1: string, e2: string)
    ensures CanDelete(a, e1) && CanDelete(a, e2) ==> e1 == e2
    ensures !a.isCustom ==> ShouldShowRemove(a, e1) && ShouldShowRemove(a, e2)
  {
  }

  /** The context menu's delete item on a card. */
  function MenuDelete(b: Board, a: Agent, email: string): (r: Board)
    ensures FindAgent(b.agents, a.id) == Some(a) && CanDelete(a, email) ==> r == b.(pendingDelete := Some(a.id))
    ensures FindAgent(b.agents, a.id) == Some(a) && !CanDelete(a, email) ==>
              r.agents == Without(b.agents, HasId(a.id)) && r.pendingDelete == b.pendingDelete
    ensures FindAgent(b.agents, a.id).None? ==> r == b
  {
    if ShouldShowRemove(a, email) then RemoveFromPersonal(b, a.id) else DeleteAgent(b, a.id)
  }

  /** Only the creator's own custom card asks for confirmation; every other
      card, custom or not, leaves the list at once. */
  lemma MenuDeleteConfirmsOnlyOwnCards(b: Board, a: Agent, email: string)
    requires FindAgent(b.agents, a.id) == Some(a)
    ensures CanDelete(a, email) ==> MenuDelete(b, a, email) == b.(pendingDelete := Some(a.id))
    ensures !CanDelete(a, email) ==> MenuDelete(b, a, email).agents == Without(b.agents, HasId(a.id))
                                      && MenuDelete(b, a, email).pendingDelete == b.pendingDelete
  {
  }

  /** Cards loaded from the registry carry no creator, so nobody can delete
      them from the dashboard: the menu only removes them from the list. */
  lemma LoadedCardsAreNeverDeletable(reg: Fetch<seq<RegistryRoute.Item>>, hc: Fetch<seq<HardcodedRoute.Listed>>, email: string)
    ensures forall a :: a in LoadAgents(reg, hc) ==> !CanDelete(a, email) && ShouldShowRemove(a, email)
  {
  }

  /** A card the user just added is theirs to delete. */
  lemma AddedCardIsDeletable(b: Board, n: NewAgent, now: int, email: string)
    ensures CanDelete(AddAgent(b, n, now, email).agents[0], email)
  {
  }

  // ---------------------------------------------------------------------
  // Tabs, the tag filter and the library view

  /** `filteredAgents`: the "My agents" tab shows the personal cards; any
      other tab shows none. */
  function ShownOnTab(agents: seq<Agent>, tab: string): (r: seq<Agent>)
    ensures tab != "My agents" ==> r == []
    ensures tab == "My agents" ==> forall a :: a in r <==> a in agents && a.kind == Personal
    ensures tab == "My agents" ==> forall a :: multiset(r)[a] == if a.kind == Personal then multiset(agents)[a] else 0
    ensures tab == "My agents" ==> r == Without(agents, IsTeam)
  {
    if tab == "My agents" then WithoutCounts(agents, IsTeam); Without(agents, IsTeam) else []
  }

  /** Every occurrence of `x` removed, order kept. */
  function Remove(xs: seq<string>, x: string): (r: seq<string>)
    ensures |r| <= |xs|
    ensures forall y :: y in r <==> y in xs && y != x
  {
    if |xs| == 0 then []
    else (if xs[0] == x then [] else [xs[0]]) + Remove(xs[1..], x)
  }

  lemma {:induction false} RemoveAbsent(xs: seq<string>, x: string)
    requires x !in xs
    ensures Remove(xs, x) == xs
  {
    if |xs| > 0 {
      assert xs[0] != x && x !in xs[1..];
      RemoveAbsent(xs[1..], x);
      assert xs == [xs[0]] + xs[1..];
    }
  }

  lemma {:induction false} RemoveAppend(xs: seq<string>, ys: seq<string>, x: string)
    ensures Remove(xs + ys, x) == Remove(xs, x) + Remove(ys, x)
  {
    if |xs| > 0 {
      assert (xs + ys)[1..] == xs[1..] + ys;
      RemoveAppend(xs[1..], ys, x);
    } else {
      assert xs + ys == ys;
    }
  }

  /** `handleTagFilterToggle` (and the form's `handleTagToggle`): a selected
      tag is removed, any other is appended. */
  function ToggleTag(selected: seq<string>, tag: string): (r: seq<string>)
    ensures tag in r <==> tag !in selected
    ensures forall t :: t != tag ==> (t in r <==> t in selected)
    ensures tag !in selected ==> r == selected + [tag]
  {
    if tag in selected then Remove(selected, tag) else selected + [tag]
  }

  /** Toggling a tag on and off again gives back the selection. */
  lemma ToggleTagTwice(selected: seq<string>, tag: string)
    requires tag !in selected
    ensures ToggleTag(ToggleTag(selected, tag), tag) == selected
  {
    RemoveAppend(selected, [tag], tag);
    RemoveAbsent(selected, tag);
    assert Remove([tag], tag) == [];
  }

  /** `agent.tags?.includes(tag)` for some selected tag. */
  predicate SharesTag(l: LibraryAgent, selected: seq<string>) {
    l.tags.Some? && exists i :: 0 <= i < |selected| && selected[i] in l.tags.value
  }

  /** `filteredLibraryAgents`: everything when no tag is selected, otherwise
      the entries with at least one selected tag. */
  function LibraryFilter(library: seq<LibraryAgent>, selected: seq<string>): (r: seq<LibraryAgent>)
    ensures |selected| == 0 ==> r == library
    ensures |selected| > 0 ==> forall l :: l in r <==> l in library && SharesTag(l, selected)
    ensures |selected| > 0 ==> forall l :: multiset(r)[l] == if SharesTag(l, selected) then multiset(library)[l] else 0
    ensures |selected| > 0 ==> r == Tagged(library, selected)
  {
    if |selected| == 0 then library else TaggedCounts(library, selected); Tagged(library, selected)
  }

  /** The entries carrying a selected tag, in order. */
  function Tagged(library: seq<LibraryAgent>, selected: seq<string>): (r: seq<LibraryAgent>)
    ensures forall l :: l in r <==> l in library && SharesTag(l, selected)
  {
    if |library| == 0 then []
    else
      (if SharesTag(library[0], selected) then [library[0]] else []) + Tagged(library[1..], selected)
  }

  /** Each entry carrying a selected tag stays as often as the library
      holds it. */
  lemma {:induction false} TaggedCounts(library: seq<LibraryAgent>, selected: seq<string>)
    ensures forall l :: multiset(Tagged(library, selected))[l] == if SharesTag(l, selected) then multiset(library)[l] else 0
  {
    if |library| > 0 {
      assert library == [library[0]] + library[1..];
      TaggedCounts(library[1..], selected);
    }
  }

  /** The tag filter distributes over concatenation: the shown entries keep
      the library's order. */
  lemma {:induction false} TaggedAppend(xs: seq<LibraryAgent>, ys: seq<LibraryAgent>, selected: seq<string>)
    ensures Tagged(xs + ys, selected) == Tagged(xs, selected) + Tagged(ys, selected)
  {
    if |xs| > 0 {
      var l, tl := xs[0], xs[1..];
      var head := if SharesTag(l, selected) then [l] else [];
      assert xs == [l] + tl && xs + ys == [l] + (tl + ys);
      TaggedCons(l, tl, selected);
      TaggedCons(l, tl + ys, selected);
      TaggedAppend(tl, ys, selected);
      AppendAssoc(head, Tagged(tl, selected), Tagged(ys, selected));
    } else {
      assert xs + ys == ys;
    }
  }

  lemma TaggedCons(l: LibraryAgent, xs: seq<LibraryAgent>, selected: seq<string>)
    ensures Tagged([l] + xs, selected) == (if SharesTag(l, selected) then [l] else []) + Tagged(xs, selected)
  {
    assert ([l] + xs)[0] == l && ([l] + xs)[1..] == xs;
  }

  /** The entries of one category, in order. */
  function InCategory(library: seq<LibraryAgent>, c: string): seq<LibraryAgent> {
    if |library| == 0 then []
    else InCategory(library[..|library| - 1], c) + (if library[|library| - 1].category == c then [library[|library| - 1]] else [])
  }

  /** `groupedLibraryAgents`: the `reduce` that appends each entry to its
      category's bucket. */
  function Group(library: seq<LibraryAgent>): (r: map<string, seq<LibraryAgent>>)
    ensures forall c :: c in r ==> |r[c]| > 0
    ensures |library| > 0 ==> library[|library| - 1].category in r
  {
    if |library| == 0 then map[]
    else
      var g := Group(library[..|library| - 1]);
      var l := library[|library| - 1];
      g[l.category := (if l.category in g then g[l.category] else []) + [l]]
  }

  /** The grouping is a partition by category: a bucket exists exactly for
      the categories present, and each bucket holds that category's entries
      in their original order. */
  lemma {:induction false} GroupPartitions(library: seq<LibraryAgent>)
    ensures forall c :: c in Group(library) <==> exists i :: 0 <= i < |library| && library[i].category == c
    ensures forall c :: c in Group(library) ==> Group(library)[c] == InCategory(library, c)
  {
    GroupKeys(library);
    GroupBuckets(library);
  }

  lemma {:induction false} GroupKeys(library: seq<LibraryAgent>)
    ensures forall c :: c in Group(library) <==> exists i :: 0 <= i < |library| && library[i].category == c
    decreases |library|
  {
    if |library| > 0 {
      var prefix := library[..|library| - 1];
      GroupKeys(prefix);
      assert forall i :: 0 <= i < |prefix| ==> prefix[i] == library[i];
    }
  }

  lemma {:induction false} GroupBuckets(library: seq<LibraryAgent>)
    ensures forall c :: c in Group(library) ==> Group(library)[c] == InCategory(library, c)
    decreases |library|
  {
    if |library| > 0 {
      var prefix := library[..|library| - 1];
      GroupBuckets(prefix);
      GroupKeys(prefix);
      assert forall i :: 0 <= i < |prefix| ==> prefix[i] == library[i];
      forall c | c in Group(library) ensures Group(library)[c] == InCategory(library, c) {
        BucketStep(library, c);
      }
    }
  }

  /** One category's bucket after appending the last entry, given the
      buckets of the prefix. */
  lemma BucketStep(library: seq<LibraryAgent>, c: string)
    requires |library| > 0 && c in Group(library)
    requires c in Group(library[..|library| - 1]) ==>
               Group(library[..|library| - 1])[c] == InCategory(library[..|library| - 1], c)
    requires c !in Group(library[..|library| - 1]) ==>
               forall i :: 0 <= i < |library| - 1 ==> library[i].category != c
    ensures Group(library)[c] == InCategory(library, c)
  {
    var prefix := library[..|library| - 1];
    if c != library[|library| - 1].category {
      assert c in Group(prefix);
    } else if c !in Group(prefix) {
      EmptyCategory(prefix, c);
    }
  }

  lemma {:induction false} EmptyCategory(library: seq<LibraryAgent>, c: string)
    requires forall i :: 0 <= i < |library| ==> library[i].category != c
    ensures InCategory(library, c) == []
    decreases |library|
  {
    if |library| > 0 {
      var prefix := library[..|library| - 1];
      assert forall i :: 0 <= i < |prefix| ==> prefix[i] == library[i];
      EmptyCategory(prefix, c);
    }
  }
}

=== FILE: dust_route.dfy ===
/** The Dust profile endpoint (`POST /api/tools/dust`,
    src/app/api/tools/dust/route.ts): an admin attaches a Dust profile to an
    existing DUST registry row, with the three timeouts defaulting to 30, 180
    and 30 seconds. */
module DustRoute {
  import opened Wrappers
  import opened Http
  import opened Js
  import opened ToolStore

  /** The profile the insert writes, or `None` when the database rejects one
      of the body's values (a non-string id field, a non-integer timeout). */
  function NewProfile(body: Option<JVal>, id: string): (r: Option<DustTool>)
    ensures r.Some? ==> r.value.id == id
    ensures r.Some? <==> AsString(Nullish(Get(body, "dust_workspace_sid"), JNull)).Some?
                         && AsString(Nullish(Get(body, "dust_agent_sid"), JNull)).Some?
                         && AsString(Nullish(Get(body, "security_key_id"), JNull)).Some?
                         && AsInt(Nullish(Get(body, "api_timeout_seconds"), JNum(30))).Some?
                         && AsInt(Nullish(Get(body, "message_events_timeout_seconds"), JNum(180))).Some?
                         && AsInt(Nullish(Get(body, "conversation_events_timeout_seconds"), JNum(30))).Some?
    ensures r.Some? ==> r.value.returnDirect == TruthyOpt(Get(body, "return_direct"))
                        && r.value.isIsolated == TruthyOpt(Get(body, "is_isolated"))
                        && r.value.streamIfSingleTool == TruthyOpt(Get(body, "stream_if_single_tool"))
    ensures r.Some? && Get(body, "dust_agent_sid").Some? ==> Get(body, "dust_agent_sid").value == JStr(r.value.dustAgentSid)
    ensures r.Some? ==> r.value.dustWorkspaceSid == AsString(Nullish(Get(body, "dust_workspace_sid"), JNull)).value
                        && r.value.dustAgentSid == AsString(Nullish(Get(body, "dust_agent_sid"), JNull)).value
                        && r.value.securityKeyId == AsString(Nullish(Get(body, "security_key_id"), JNull)).value
    ensures r.Some? ==> r.value.apiTimeoutSeconds == AsInt(Nullish(Get(body, "api_timeout_seconds"), JNum(30))).value
                        && r.value.messageEventsTimeoutSeconds == AsInt(Nullish(Get(body, "message_events_timeout_seconds"), JNum(180))).value
                        && r.value.conversationEventsTimeoutSeconds == AsInt(Nullish(Get(body, "conversation_events_timeout_seconds"), JNum(30))).value
  {
    var workspace := AsString(Nullish(Get(body, "dust_workspace_sid"), JNull));
    var agent := AsString(Nullish(Get(body, "dust_agent_sid"), JNull));
    var key := AsString(Nullish(Get(body, "security_key_id"), JNull));
    var api := AsInt(Nullish(Get(body, "api_timeout_seconds"), JNum(30)));
    var message := AsInt(Nullish(Get(body, "message_events_timeout_seconds"), JNum(180)));
    var conversation := AsInt(Nullish(Get(body, "conversation_events_timeout_seconds"), JNum(30)));
    if workspace.None? || agent.None? || key.None? || api.None? || message.None? || conversation.None? then None
    else Some(DustTool(id, workspace.value, agent.value, key.value,
                       TruthyOpt(Get(body, "return_direct")),
                       TruthyOpt(Get(body, "is_isolated")),
                       TruthyOpt(Get(body, "stream_if_single_tool")),
                       api.value, message.value, conversation.value))
  }

  /** All four required fields are truthy. */
  predicate HasRequired(body: Option<JVal>) {
    TruthyOpt(Get(body, "id")) && TruthyOpt(Get(body, "dust_workspace_sid"))
    && TruthyOpt(Get(body, "dust_agent_sid")) && TruthyOpt(Get(body, "security_key_id"))
  }

  /** The checks before the insert all passed. */
  predicate Insertable(body: Option<JVal>, s: Store) {
    HasRequired(body) && Get(body, "id").value.JStr?
    && FindRegistry(s, Get(body, "id").value.s).Some?
    && FindRegistry(s, Get(body, "id").value.s).value.toolType == Dust
  }

  /** `POST /api/tools/dust`. */
  function Post(body: Option<JVal>, userId: string, s: Store, env: WriteEnv): (o: Outcome<DustTool>)
    ensures o.handled.Returned? ==> o.handled.reply.Status() in {CREATED, BAD_REQUEST, FORBIDDEN, NOT_FOUND, SERVER_ERROR}
    ensures o.handled.Threw? <==> IsAdmin(s, userId) && HasRequired(body) && !Get(body, "id").value.JStr?
    ensures !(o.handled.Returned? && o.handled.reply.Status() == CREATED) ==> o.store == s
    ensures !IsAdmin(s, userId) ==> o.handled == Returned(Error(FORBIDDEN, "forbidden"))
    ensures IsAdmin(s, userId) && !HasRequired(body) ==> o.handled == Returned(Error(BAD_REQUEST, "missing_fields"))
    ensures IsAdmin(s, userId) && HasRequired(body) && Get(body, "id").value.JStr?
            && FindRegistry(s, Get(body, "id").value.s).None?
            ==> o.handled == Returned(Error(NOT_FOUND, "registry_not_found"))
    ensures IsAdmin(s, userId) && HasRequired(body) && Get(body, "id").value.JStr?
            && FindRegistry(s, Get(body, "id").value.s).Some?
            && FindRegistry(s, Get(body, "id").value.s).value.toolType != Dust
            ==> o.handled == Returned(Error(BAD_REQUEST, "type_mismatch"))
    ensures IsAdmin(s, userId) && Insertable(body, s)
            && (NewProfile(body, Get(body, "id").value.s).None? || HasDust(s, Get(body, "id").value.s) || env.fault)
            ==> o.handled == Returned(Error(SERVER_ERROR, "create_failed"))
    ensures o.handled.Returned? && o.handled.reply.Status() == CREATED <==>
              IsAdmin(s, userId) && Insertable(body, s)
              && NewProfile(body, Get(body, "id").value.s).Some?
              && !HasDust(s, Get(body, "id").value.s) && !env.fault
    ensures o.handled.Returned? && o.handled.reply.Status() == CREATED ==>
              Insertable(body, s) && NewProfile(body, Get(body, "id").value.s).Some?
              && var p := NewProfile(body, Get(body, "id").value.s).value;
                 o.handled.reply == Json(CREATED, p) && o.store == AddProfile(s, DustProfile(p))
  {
    if !IsAdmin(s, userId) then Refuse(s, FORBIDDEN, "forbidden")
    else if !HasRequired(body) then Refuse(s, BAD_REQUEST, "missing_fields")
    else
      var id := Get(body, "id").value;
      if !id.JStr? then Outcome(Threw, s)
      else
        match FindRegistry(s, id.s)
        case None => Refuse(s, NOT_FOUND, "registry_not_found")
        case Some(reg) =>
          if reg.toolType != Dust then Refuse(s, BAD_REQUEST, "type_mismatch")
          else
            var p := NewProfile(body, reg.id);
            if p.None? || HasDust(s, reg.id) || env.fault then Refuse(s, SERVER_ERROR, "create_failed")
            else Outcome(Returned(Json(CREATED, p.value)), AddProfile(s, DustProfile(p.value)))
  }

  /** Posting the same body twice: the second insert hits the primary key
      and fails, leaving the database as the first one left it. */
  lemma SecondPostFails(body: Option<JVal>, userId: string, s: Store, env1: WriteEnv, env2: WriteEnv)
    requires Post(body, userId, s, env1).handled.Returned?
    requires Post(body, userId, s, env1).handled.reply.Status() == CREATED
    ensures var s1 := Post(body, userId, s, env1).store;
            Post(body, userId, s1, env2) == Outcome(Returned(Error(SERVER_ERROR, "create_failed")), s1)
  {
    var s1 := Post(body, userId, s, env1).store;
    var id := Get(body, "id").value.s;
    assert s1.dust[|s.dust|].id == id;
    assert HasDust(s1, id);
    assert s1.registry == s.registry && s1.userRoles == s.userRoles;
  }

  /** A created Dust profile leaves the other profile tables alone, and its
      registry row is a DUST row. */
  lemma CreatedProfileMatchesRegistry(body: Option<JVal>, userId: string, s: Store, env: WriteEnv)
    requires Post(body, userId, s, env).handled.Returned?
    requires Post(body, userId, s, env).handled.reply.Status() == CREATED
    ensures var o := Post(body, userId, s, env);
            var p := o.handled.reply.payload;
            && (exists i :: 0 <= i < |s.registry| && s.registry[i].id == p.id && s.registry[i].toolType == Dust)
            && HasDust(o.store, p.id)
            && o.store.n8n == s.n8n && o.store.hardcoded == s.hardcoded
  {
    var o := Post(body, userId, s, env);
    var p := o.handled.reply.payload;
    var reg := FindRegistry(s, p.id).value;
    var k :| 0 <= k < |s.registry| && s.registry[k] == reg;
    assert o.store.dust[|s.dust|] == p;
  }

  /** Absent timeouts are 30, 180 and 30 seconds; absent flags are false. */
  lemma Defaults(id: string, workspace: string, agent: string, key: string)
    ensures var body := Some(JObj(map["id" := JStr(id), "dust_workspace_sid" := JStr(workspace),
                                      "dust_agent_sid" := JStr(agent), "security_key_id" := JStr(key)]));
            NewProfile(body, id) == Some(DustTool(id, workspace, agent, key, false, false, false, 30, 180, 30))
  {
    var body := Some(JObj(map["id" := JStr(id), "dust_workspace_sid" := JStr(workspace),
                              "dust_agent_sid" := JStr(agent), "security_key_id" := JStr(key)]));
    assert Get(body, "api_timeout_seconds").None?;
    assert Get(body, "message_events_timeout_seconds").None?;
    assert Get(body, "conversation_events_timeout_seconds").None?;
    assert Get(body, "return_direct").None? && Get(body, "is_isolated").None?;
    assert Get(body, "stream_if_single_tool").None?;
  }
}

=== FILE: hardcoded_route.dfy ===
/** The hardcoded profile endpoint (src/app/api/tools/hardcoded/route.ts):
    `GET` lists hardcoded profiles joined with their registry row, by id
    descending; `POST` lets any signed-in user attach a hardcoded profile to
    an existing HARD_CODED registry row. */
module HardcodedRoute {
  import opened Wrappers
  import opened Http
  import opened Js
  import opened ToolStore
  import Ordering

  /** The registry columns the listing selects. */
  datatype RegistrySummary = RegistrySummary(
    id: string,
    explicitCallName: string,
    readableName: string,
    toolType: ToolType)

  /** A listed profile with its registry row (`None` if the row is gone). */
  datatype Listed = Listed(id: string, notes: Option<string>, registry: Option<RegistrySummary>)

  function Summary(row: RegistryRow): RegistrySummary {
    RegistrySummary(row.id, row.explicitCallName, row.readableName, row.toolType)
  }

  function Join(s: Store, h: HardcodedTool): (l: Listed)
    ensures l.id == h.id && l.notes == h.notes
    ensures l.registry.Some? <==> exists i :: 0 <= i < |s.registry| && s.registry[i].id == h.id
    ensures l.registry.Some? ==> l.registry.value.id == h.id
  {
    var reg := FindRegistry(s, h.id);
    Listed(h.id, h.notes, if reg.Some? then Some(Summary(reg.value)) else None)
  }

  function IdKey(h: HardcodedTool): seq<int> {
    Ordering.StringKey(h.id)
  }

  /** `GET /api/tools/hardcoded`. */
  function List(s: Store): (r: Reply<seq<Listed>>)
    ensures r.Json? && r.status == OK
    ensures |r.payload| == |s.hardcoded|
    ensures forall i :: 0 <= i < |r.payload| ==> FromStore(s, r.payload[i])
    ensures forall i, j :: 0 <= i < j < |r.payload| ==>
              Ordering.LexLe(Ordering.StringKey(r.payload[j].id), Ordering.StringKey(r.payload[i].id))
  {
    ListItemsFromStore(s);
    ListItemsOrdered(s);
    Json(OK, ListItems(s))
  }

  /** A listed entry is some stored profile joined with its registry row. */
  predicate FromStore(s: Store, l: Listed) {
    exists h :: h in s.hardcoded && l == Join(s, h)
  }

  /** The profiles by id descending, each joined with its registry row. */
  function ListItems(s: Store): seq<Listed> {
    var rows := Ordering.SortDesc(s.hardcoded, IdKey);
    seq(|rows|, i requires 0 <= i < |rows| => Join(s, rows[i]))
  }

  lemma ListItemsFromStore(s: Store)
    ensures |ListItems(s)| == |s.hardcoded|
    ensures forall i :: 0 <= i < |ListItems(s)| ==> FromStore(s, ListItems(s)[i])
  {
    var rows := Ordering.SortDesc(s.hardcoded, IdKey);
    Ordering.SortKeepsElements(s.hardcoded, IdKey);
    forall i | 0 <= i < |ListItems(s)| ensures FromStore(s, ListItems(s)[i]) {
      assert rows[i] in rows;
      assert rows[i] in s.hardcoded && ListItems(s)[i] == Join(s, rows[i]);
    }
  }

  lemma ListItemsOrdered(s: Store)
    ensures forall i, j :: 0 <= i < j < |ListItems(s)| ==>
              Ordering.LexLe(Ordering.StringKey(ListItems(s)[j].id), Ordering.StringKey(ListItems(s)[i].id))
  {
    var rows := Ordering.SortDesc(s.hardcoded, IdKey);
    var items := ListItems(s);
    forall i, j | 0 <= i < j < |items|
      ensures Ordering.LexLe(Ordering.StringKey(items[j].id), Ordering.StringKey(items[i].id))
    {
      assert Ordering.LexLe(IdKey(rows[j]), IdKey(rows[i]));
      assert items[i].id == rows[i].id && items[j].id == rows[j].id;
    }
  }

  /** Every stored profile appears in the listing. */
  lemma ListHasEveryProfile(s: Store, h: HardcodedTool)
    requires h in s.hardcoded
    ensures Join(s, h) in List(s).payload
  {
    var rows := Ordering.SortDesc(s.hardcoded, IdKey);
    Ordering.SortKeepsElements(s.hardcoded, IdKey);
    var k :| 0 <= k < |rows| && rows[k] == h;
    assert List(s).payload[k] == Join(s, h);
  }

  /** `POST /api/tools/hardcoded`: no admin check. A truthy non-string `id`
      makes the lookup throw (401 from the wrapper). */
  function Post(body: Option<JVal>, s: Store, env: WriteEnv): (o: Outcome<HardcodedTool>)
    ensures o.handled.Threw? <==> TruthyOpt(Get(body, "id")) && !Get(body, "id").value.JStr?
    ensures o.handled.Returned? ==> o.handled.reply.Status() in {CREATED, BAD_REQUEST, NOT_FOUND, SERVER_ERROR}
    ensures !(o.handled.Returned? && o.handled.reply.Status() == CREATED) ==> o.store == s
    ensures !TruthyOpt(Get(body, "id")) ==> o.handled == Returned(Error(BAD_REQUEST, "missing_registry_id"))
    ensures TruthyOpt(Get(body, "id")) && Get(body, "id").value.JStr? && FindRegistry(s, Get(body, "id").value.s).None?
            ==> o.handled == Returned(Error(NOT_FOUND, "registry_not_found"))
    ensures TruthyOpt(Get(body, "id")) && Get(body, "id").value.JStr? && FindRegistry(s, Get(body, "id").value.s).Some?
            && FindRegistry(s, Get(body, "id").value.s).value.toolType != HardCoded
            ==> o.handled == Returned(Error(BAD_REQUEST, "type_mismatch"))
    ensures TruthyOpt(Get(body, "id")) && Get(body, "id").value.JStr? && FindRegistry(s, Get(body, "id").value.s).Some?
            && FindRegistry(s, Get(body, "id").value.s).value.toolType == HardCoded
            && (StringOrNull(Get(body, "notes")).None? || HasHardcoded(s, Get(body, "id").value.s) || env.fault)
            ==> o.handled == Returned(Error(SERVER_ERROR, "create_failed"))
    ensures o.handled.Returned? && o.handled.reply.Status() == CREATED <==>
              TruthyOpt(Get(body, "id")) && Get(body, "id").value.JStr?
              && FindRegistry(s, Get(body, "id").value.s).Some?
              && FindRegistry(s, Get(body, "id").value.s).value.toolType == HardCoded
              && StringOrNull(Get(body, "notes")).Some?
              && !HasHardcoded(s, Get(body, "id").value.s) && !env.fault
    ensures o.handled.Returned? && o.handled.reply.Status() == CREATED ==>
              Get(body, "id").Some? && Get(body, "id").value.JStr? && StringOrNull(Get(body, "notes")).Some?
              && var h := HardcodedTool(Get(body, "id").value.s, StringOrNull(Get(body, "notes")).value);
                 o.handled.reply == Json(CREATED, h) && o.store == AddProfile(s, HardcodedProfile(h))
  {
    var id := Get(body, "id");
    if !TruthyOpt(id) then Refuse(s, BAD_REQUEST, "missing_registry_id")
    else if !id.value.JStr? then Outcome(Threw, s)
    else
      match FindRegistry(s, id.value.s)
      case None => Refuse(s, NOT_FOUND, "registry_not_found")
      case Some(reg) =>
        if reg.toolType != HardCoded then Refuse(s, BAD_REQUEST, "type_mismatch")
        else
          var notes := StringOrNull(Get(body, "notes"));
          if notes.None? || HasHardcoded(s, reg.id) || env.fault then Refuse(s, SERVER_ERROR, "create_failed")
          else
            var h := HardcodedTool(reg.id, notes.value);
            Outcome(Returned(Json(CREATED, h)), AddProfile(s, HardcodedProfile(h)))
  }

  /** Unlike the N8N and Dust endpoints the caller's roles play no part:
      the answer depends on the body, the database and the write alone. */
  lemma PostIgnoresRoles(body: Option<JVal>, s: Store, roles: map<string, seq<string>>, env: WriteEnv)
    ensures Post(body, s.(userRoles := roles), env).handled == Post(body, s, env).handled
  {
  }

  /** A created profile becomes visible in the listing. */
  lemma CreatedIsListed(body: Option<JVal>, s: Store, env: WriteEnv)
    requires Post(body, s, env).handled.Returned?
    requires Post(body, s, env).handled.reply.Status() == CREATED
    ensures var o := Post(body, s, env);
            Join(o.store, o.handled.reply.payload) in List(o.store).payload
  {
    var o := Post(body, s, env);
    assert o.store.hardcoded[|s.hardcoded|] == o.handled.reply.payload;
    ListHasEveryProfile(o.store, o.handled.reply.payload);
  }
}

=== FILE: http.dfy ===
/** The shape of what a route handler produces: a JSON reply with a status,
    either an error body `{error: code}` or a payload; and, for handlers that
    run inside the authentication wrapper, whether they threw instead. */
module Http {

  /** Request and response headers, keyed by lower-case header name (the
      normalisation the Fetch `Headers` class applies). */
  type Headers = map<string, string>

  datatype Reply<+T> =
    | Error(status: int, code: string)
    | Json(status: int, payload: T)
  {
    function Status(): int {
      match this
      case Error(s, _) => s
      case Json(s, _) => s
    }
  }

  /** What an inner handler did: returned a reply, or threw. */
  datatype Handled<+T> = Threw | Returned(reply: Reply<T>)

  const OK := 200
  const CREATED := 201
  const BAD_REQUEST := 400
  const UNAUTHORIZED := 401
  const FORBIDDEN := 403
  const NOT_FOUND := 404
  const CONFLICT := 409
  const SERVER_ERROR := 500

  /** The `Response.ok` test: a status in the 2xx range. */
  predicate IsOk(status: int) {
    200 <= status <= 299
  }
}

=== FILE: js.dfy ===
/** JSON values as the route handlers receive them from `request.json()`, and
    the JavaScript coercions the handlers apply to them: truthiness (`!x`,
    `x || y`, `!!x`), nullish defaulting (`x ?? d`), `String(x)` and
    `Number(x)`. Numbers are integers; NaN only arises as the failure of
    `Number` (modelled as `None`). */
module Js {
  import opened Wrappers
  import Strings

  datatype JVal =
    | JNull
    | JBool(b: bool)
    | JNum(n: int)
    | JStr(s: string)
    | JList(items: seq<JVal>)
    | JObj(fields: map<string, JVal>)

  /** A parsed JSON object body: its fields, where a missing key is `undefined`. */
  type Fields = map<string, JVal>

  /** JavaScript truthiness of a JSON value. */
  function Truthy(v: JVal): (r: bool)
    ensures !r <==> v in {JNull, JBool(false), JNum(0), JStr("")}
  {
    match v
    case JNull => false
    case JBool(b) => b
    case JNum(n) => n != 0
    case JStr(s) => s != ""
    case JList(_) => true
    case JObj(_) => true
  }

  /** Truthiness of a possibly-`undefined` value. */
  predicate TruthyOpt(v: Option<JVal>) {
    v.Some? && Truthy(v.value)
  }

  /** Truthiness of an optional string: absent and "" are both falsy. */
  predicate Present(s: Option<string>) {
    s.Some? && s.value != ""
  }

  /** `a || b` on optional strings, with a falsy result read as absent. */
  function Or(a: Option<string>, b: Option<string>): (r: Option<string>)
    ensures Present(a) ==> r == a
    ensures !Present(a) && Present(b) ==> r == b
    ensures !Present(a) && !Present(b) ==> r == None
  {
    if Present(a) then a else if Present(b) then b else None
  }

  /** Field lookup `obj.key`, `undefined` (None) when `obj` is not an object
      or has no such key; optional chaining makes this total. */
  function Get(obj: Option<JVal>, key: string): (r: Option<JVal>)
    ensures r.Some? <==> obj.Some? && obj.value.JObj? && key in obj.value.fields
    ensures r.Some? ==> r.value == obj.value.fields[key]
  {
    if obj.Some? && obj.value.JObj? && key in obj.value.fields then
      Some(obj.value.fields[key])
    else None
  }

  /** Field lookup on a body's field map. */
  function Field(body: Fields, key: string): Option<JVal> {
    if key in body then Some(body[key]) else None
  }

  /** `x ?? d`: the default replaces `undefined` and `null` only. */
  function Nullish(v: Option<JVal>, d: JVal): (r: JVal)
    ensures v.None? || v == Some(JNull) ==> r == d
    ensures v.Some? && !v.value.JNull? ==> r == v.value
  {
    if v.None? || v.value.JNull? then d else v.value
  }

  /** `String(x)` for a JSON value. Inside an array, `null` renders as "". */
  function ToStr(v: JVal): (r: string)
    ensures v.JStr? ==> r == v.s
    ensures v.JNum? ==> StrToNumber(r) == Some(v.n)
  {
    match v
    case JNull => "null"
    case JBool(b) => if b then "true" else "false"
    case JNum(n) => IntStringRoundTrip(n); Strings.IntToString(n)
    case JStr(s) => s
    case JList(items) =>
      Strings.Join(seq(|items|, i requires 0 <= i < |items| =>
        if items[i].JNull? then "" else ToStr(items[i])), ",")
    case JObj(_) => "[object Object]"
  }

  /** `String(x || "")`: falsy values become "", others are stringified. */
  function StrOrEmpty(v: Option<JVal>): (r: string)
    ensures !TruthyOpt(v) ==> r == ""
    ensures TruthyOpt(v) && v.value.JStr? ==> r == v.value.s
  {
    if TruthyOpt(v) then ToStr(v.value) else ""
  }

  /** `x || null` written to a nullable string column: a falsy value is
      stored as null, a string as itself, and any other truthy value is
      rejected by the column (outer `None`). */
  function StringOrNull(v: Option<JVal>): (r: Option<Option<string>>)
    ensures !TruthyOpt(v) ==> r == Some(None)
    ensures TruthyOpt(v) && v.value.JStr? ==> r == Some(Some(v.value.s))
    ensures TruthyOpt(v) && !v.value.JStr? ==> r.None?
  {
    if !TruthyOpt(v) then Some(None)
    else if v.value.JStr? then Some(Some(v.value.s))
    else None
  }

  /** `Number(s)` for a string: blank is 0; an optionally signed run of
      decimal digits (after trimming) is its value; anything else is NaN. */
  function StrToNumber(s: string): Option<int> {
    var t := Strings.Trim(s);
    if t == "" then Some(0)
    else if Strings.AllDigits(t) then Some(Strings.ParseDecimal(t))
    else if |t| > 1 && t[0] == '-' && Strings.AllDigits(t[1..]) then Some(-(Strings.ParseDecimal(t[1..]) as int))
    else if |t| > 1 && t[0] == '+' && Strings.AllDigits(t[1..]) then Some(Strings.ParseDecimal(t[1..]))
    else None
  }

  /** `Number(x)` for a JSON value; `None` stands for NaN. */
  function ToNumber(v: JVal): (r: Option<int>)
    ensures v.JNum? ==> r == Some(v.n)
    ensures v.JNull? ==> r == Some(0)
    ensures v.JObj? ==> r == None
  {
    match v
    case JNull => Some(0)
    case JBool(b) => Some(if b then 1 else 0)
    case JNum(n) => Some(n)
    case JStr(s) => StrToNumber(s)
    case JList(items) =>
      if |items| == 0 then Some(0)
      else if |items| == 1 then StrToNumber(if items[0].JNull? then "" else ToStr(items[0]))
      else None
    case JObj(_) => None
  }

  /** The value a string-typed database column accepts: only a JSON string. */
  function AsString(v: JVal): Option<string> {
    if v.JStr? then Some(v.s) else None
  }

  /** The value an integer-typed database column accepts: only a JSON number. */
  function AsInt(v: JVal): Option<int> {
    if v.JNum? then Some(v.n) else None
  }

  /** Rendering an integer and reading it back with `Number` is the identity. */
  lemma NumberOfString(n: int)
    ensures ToNumber(JStr(ToStr(JNum(n)))) == Some(n)
  {
  }

  lemma IntStringRoundTrip(n: int)
    ensures StrToNumber(Strings.IntToString(n)) == Some(n)
  {
    var r := Strings.IntToString(n);
    if n < 0 {
      NegativeNumberOfString(n);
    } else {
      assert r == Strings.NatToString(n);
      Strings.ParseNatToString(n);
      DigitsNumber(r);
    }
  }

  lemma DigitsNumber(s: string)
    requires s != [] && Strings.AllDigits(s)
    ensures StrToNumber(s) == Some(Strings.ParseDecimal(s) as int)
  {
    assert Strings.IsDigit(s[0]) && Strings.IsDigit(s[|s| - 1]);
    Strings.TrimNoOp(s);
  }

  lemma NegativeNumberOfString(n: int)
    requires n < 0
    ensures StrToNumber(Strings.IntToString(n)) == Some(n)
  {
    var m: nat := -n;
    assert Strings.IntToString(n) == "-" + Strings.NatToString(m);
    NegativeParse(m);
  }

  lemma NegativeParse(m: nat)
    requires m > 0
    ensures StrToNumber("-" + Strings.NatToString(m)) == Some(-(m as int))
  {
    var d := Strings.NatToString(m);
    SignedDigitsNumber(d);
    Strings.ParseNatToString(m);
  }

  lemma SignedDigitsNumber(d: string)
    requires d != [] && Strings.AllDigits(d)
    ensures StrToNumber("-" + d) == Some(-(Strings.ParseDecimal(d) as int))
  {
    var s := "-" + d;
    assert s[1..] == d;
    assert !Strings.IsWhitespace(s[|s| - 1]) by {
      assert s[|s| - 1] == d[|d| - 1];
      assert Strings.IsDigit(d[|d| - 1]);
    }
    assert !Strings.IsWhitespace(s[0]) && !Strings.IsDigit(s[0]);
    Strings.TrimNoOp(s);
  }
}

=== FILE: middleware.dfy ===
/** The edge middleware (src/middleware.ts): a presence check for the auth
    cookie that never verifies the JWT. Public paths always pass; without a
    cookie, API paths are refused with 401 and pages render (the client shows
    the login screen). The cookie value is the one Next.js parsed for the
    configured cookie name. */
module Middleware {
  import opened Wrappers
  import Js
  import Strings

  const PublicPaths: seq<string> := ["/health", "/api/health", "/favicon.ico", "/robots.txt"]

  /** Either let the request through, or answer it here. */
  datatype Decision =
    | Continue
    | Respond(status: int, error: string, contentType: string)

  /** `pathname === p || pathname.startsWith(p + "/")` for one public path. */
  predicate UnderPath(path: string, p: string) {
    path == p || Strings.StartsWith(path, p + "/")
  }

  /** The path is one of the public paths or lies beneath one of them. */
  function IsPublic(path: string): (r: bool)
    ensures path in PublicPaths ==> r
    ensures r <==> exists p :: p in PublicPaths && UnderPath(path, p)
  {
    exists i :: 0 <= i < |PublicPaths| && UnderPath(path, PublicPaths[i])
  }

  function Middleware(path: string, cookie: Option<string>): (d: Decision)
    ensures IsPublic(path) ==> d == Continue
    ensures Js.Present(cookie) ==> d == Continue
    ensures !Strings.StartsWith(path, "/api") ==> d == Continue
    ensures d != Continue <==> !IsPublic(path) && !Js.Present(cookie) && Strings.StartsWith(path, "/api")
    ensures d != Continue ==> d == Respond(401, "Unauthorized", "application/json")
  {
    if IsPublic(path) then Continue
    else if Js.Present(cookie) then Continue
    else if Strings.StartsWith(path, "/api") then Respond(401, "Unauthorized", "application/json")
    else Continue
  }

  /** Only presence matters: any two non-empty cookie values, however
      different (a forged token included), lead to the same decision. */
  lemma PresenceOnly(path: string, a: string, b: string)
    requires a != "" && b != ""
    ensures Middleware(path, Some(a)) == Middleware(path, Some(b)) == Continue
  {
  }

  /** A missing cookie and an empty one are treated alike. */
  lemma EmptyCookieIsMissing(path: string)
    ensures Middleware(path, Some("")) == Middleware(path, None)
  {
  }

  /** The public-path prefix match needs the `/` boundary: `/healthz` and
      `/api/healthcheck` are not public, so an API path among them is refused
      without a cookie, while a path below a public one passes. */
  lemma PrefixNeedsBoundary()
    ensures !IsPublic("/healthz")
    ensures !IsPublic("/api/healthcheck")
    ensures Middleware("/api/healthcheck", None) == Respond(401, "Unauthorized", "application/json")
    ensures IsPublic("/health/live") && Middleware("/health/live", None) == Continue
  {
    assert UnderPath("/health/live", PublicPaths[0]) by {
      assert "/health/live"[..|"/health/"|] == "/health/";
    }
    forall i | 0 <= i < |PublicPaths| ensures !UnderPath("/healthz", PublicPaths[i]) {
      assert "/healthz"[1] == 'h';
      assert "/healthz"[7] == 'z';
    }
    forall i | 0 <= i < |PublicPaths| ensures !UnderPath("/api/healthcheck", PublicPaths[i]) {
      assert "/api/healthcheck"[1] == 'a';
      assert "/api/healthcheck"[11] == 'c';
    }
    assert Strings.StartsWith("/api/healthcheck", "/api") by {
      assert "/api/healthcheck"[..4] == "/api";
    }
  }
}

=== FILE: n8n_route.dfy ===
/** The N8N profile endpoint (`POST /api/tools/n8n`,
    src/app/api/tools/n8n/route.ts): an admin attaches an N8N profile to an
    existing N8N registry row. The body's values reach the database as they
    are, so a value of the wrong JSON type is rejected by the column and
    answered like any other failed insert. */
module N8nRoute {
  import opened Wrappers
  import opened Http
  import opened Js
  import opened ToolStore

  /** The profile the insert writes for `reg`, or `None` when the database
      rejects one of the body's values: the URL and the key id must be
      strings and `timeout_seconds ?? 30` an integer. */
  function NewProfile(body: Option<JVal>, id: string): (r: Option<N8nTool>)
    ensures r.Some? ==> r.value.id == id
    ensures r.Some? <==> AsString(Nullish(Get(body, "external_url"), JNull)).Some?
                         && AsString(Nullish(Get(body, "security_key_id"), JNull)).Some?
                         && AsInt(Nullish(Get(body, "timeout_seconds"), JNum(30))).Some?
    ensures r.Some? ==> r.value.returnDirect == TruthyOpt(Get(body, "return_direct"))
                        && r.value.isIsolated == TruthyOpt(Get(body, "is_isolated"))
                        && r.value.streamIfSingleTool == TruthyOpt(Get(body, "stream_if_single_tool"))
                        && r.value.flashAnswerNeeded == TruthyOpt(Get(body, "flash_answer_needed"))
    ensures r.Some? && Get(body, "external_url").Some? ==> Get(body, "external_url").value == JStr(r.value.externalUrl)
    ensures r.Some? && Get(body, "security_key_id").Some? ==> Get(body, "security_key_id").value == JStr(r.value.securityKeyId)
    ensures r.Some? ==> r.value.externalUrl == AsString(Nullish(Get(body, "external_url"), JNull)).value
                        && r.value.securityKeyId == AsString(Nullish(Get(body, "security_key_id"), JNull)).value
                        && r.value.timeoutSeconds == AsInt(Nullish(Get(body, "timeout_seconds"), JNum(30))).value
  {
    var url := AsString(Nullish(Get(body, "external_url"), JNull));
    var key := AsString(Nullish(Get(body, "security_key_id"), JNull));
    var timeout := AsInt(Nullish(Get(body, "timeout_seconds"), JNum(30)));
    if url.None? || key.None? || timeout.None? then None
    else Some(N8nTool(id, url.value, key.value,
                      TruthyOpt(Get(body, "return_direct")),
                      TruthyOpt(Get(body, "is_isolated")),
                      TruthyOpt(Get(body, "stream_if_single_tool")),
                      TruthyOpt(Get(body, "flash_answer_needed")),
                      timeout.value))
  }

  /** The checks before the insert all passed. */
  predicate Insertable(body: Option<JVal>, s: Store) {
    var id := Get(body, "id");
    TruthyOpt(id) && id.value.JStr?
    && TruthyOpt(Get(body, "external_url")) && TruthyOpt(Get(body, "security_key_id"))
    && FindRegistry(s, id.value.s).Some? && FindRegistry(s, id.value.s).value.toolType == N8n
  }

  /** `POST /api/tools/n8n`. A truthy `id` that is not a string makes the
      registry lookup throw outside the `try` (answered 401 by the wrapper). */
  function Post(body: Option<JVal>, userId: string, s: Store, env: WriteEnv): (o: Outcome<N8nTool>)
    ensures o.handled.Returned? ==> o.handled.reply.Status() in {CREATED, BAD_REQUEST, FORBIDDEN, NOT_FOUND, SERVER_ERROR}
    ensures o.handled.Threw? <==> IsAdmin(s, userId) && TruthyOpt(Get(body, "external_url"))
                                  && TruthyOpt(Get(body, "security_key_id"))
                                  && TruthyOpt(Get(body, "id")) && !Get(body, "id").value.JStr?
    ensures !(o.handled.Returned? && o.handled.reply.Status() == CREATED) ==> o.store == s
    ensures !IsAdmin(s, userId) ==> o.handled == Returned(Error(FORBIDDEN, "forbidden"))
    ensures IsAdmin(s, userId) && !(TruthyOpt(Get(body, "id")) && TruthyOpt(Get(body, "external_url"))
                                    && TruthyOpt(Get(body, "security_key_id")))
            ==> o.handled == Returned(Error(BAD_REQUEST, "missing_fields"))
    ensures IsAdmin(s, userId) && TruthyOpt(Get(body, "id")) && TruthyOpt(Get(body, "external_url"))
            && TruthyOpt(Get(body, "security_key_id")) && Get(body, "id").value.JStr?
            && FindRegistry(s, Get(body, "id").value.s).None?
            ==> o.handled == Returned(Error(NOT_FOUND, "registry_not_found"))
    ensures IsAdmin(s, userId) && TruthyOpt(Get(body, "id")) && TruthyOpt(Get(body, "external_url"))
            && TruthyOpt(Get(body, "security_key_id")) && Get(body, "id").value.JStr?
            && FindRegistry(s, Get(body, "id").value.s).Some?
            && FindRegistry(s, Get(body, "id").value.s).value.toolType != N8n
            ==> o.handled == Returned(Error(BAD_REQUEST, "type_mismatch"))
    ensures IsAdmin(s, userId) && Insertable(body, s)
            && (NewProfile(body, Get(body, "id").value.s).None? || HasN8n(s, Get(body, "id").value.s) || env.fault)
            ==> o.handled == Returned(Error(SERVER_ERROR, "create_failed"))
    ensures o.handled.Returned? && o.handled.reply.Status() == CREATED <==>
              IsAdmin(s, userId) && Insertable(body, s)
              && NewProfile(body, Get(body, "id").value.s).Some?
              && !HasN8n(s, Get(body, "id").value.s) && !env.fault
    ensures o.handled.Returned? && o.handled.reply.Status() == CREATED ==>
              Insertable(body, s) && NewProfile(body, Get(body, "id").value.s).Some?
              && var p := NewProfile(body, Get(body, "id").value.s).value;
                 o.handled.reply == Json(CREATED, p) && o.store == AddProfile(s, N8nProfile(p))
  {
    if !IsAdmin(s, userId) then Refuse(s, FORBIDDEN, "forbidden")
    else
      var id := Get(body, "id");
      if !TruthyOpt(id) || !TruthyOpt(Get(body, "external_url")) || !TruthyOpt(Get(body, "security_key_id")) then
        Refuse(s, BAD_REQUEST, "missing_fields")
      else if !id.value.JStr? then Outcome(Threw, s)
      else
        match FindRegistry(s, id.value.s)
        case None => Refuse(s, NOT_FOUND, "registry_not_found")
        case Some(reg) =>
          if reg.toolType != N8n then Refuse(s, BAD_REQUEST, "type_mismatch")
          else
            var p := NewProfile(body, reg.id);
            if p.None? || HasN8n(s, reg.id) || env.fault then Refuse(s, SERVER_ERROR, "create_failed")
            else Outcome(Returned(Json(CREATED, p.value)), AddProfile(s, N8nProfile(p.value)))
  }

  /** A created profile hangs off an existing N8N registry row with its id,
      and afterwards the id has an N8N profile. */
  lemma CreatedProfileMatchesRegistry(body: Option<JVal>, userId: string, s: Store, env: WriteEnv)
    requires Post(body, userId, s, env).handled.Returned?
    requires Post(body, userId, s, env).handled.reply.Status() == CREATED
    ensures var o := Post(body, userId, s, env);
            var p := o.handled.reply.payload;
            && (exists i :: 0 <= i < |s.registry| && s.registry[i].id == p.id && s.registry[i].toolType == N8n)
            && HasN8n(o.store, p.id) && !HasN8n(s, p.id)
            && o.store.registry == s.registry
  {
    var o := Post(body, userId, s, env);
    var p := o.handled.reply.payload;
    var reg := FindRegistry(s, p.id).value;
    var k :| 0 <= k < |s.registry| && s.registry[k] == reg;
    assert o.store.n8n[|s.n8n|] == p;
  }

  /** Posting the same body twice: the second insert hits the primary key
      and fails, leaving the database as the first one left it. */
  lemma SecondPostFails(body: Option<JVal>, userId: string, s: Store, env1: WriteEnv, env2: WriteEnv)
    requires Post(body, userId, s, env1).handled.Returned?
    requires Post(body, userId, s, env1).handled.reply.Status() == CREATED
    ensures var s1 := Post(body, userId, s, env1).store;
            Post(body, userId, s1, env2) == Outcome(Returned(Error(SERVER_ERROR, "create_failed")), s1)
  {
    var o := Post(body, userId, s, env1);
    var s1 := o.store;
    var id := Get(body, "id").value.s;
    assert s1.n8n[|s.n8n|].id == id;
    assert HasN8n(s1, id);
    assert s1.registry == s.registry && s1.userRoles == s.userRoles;
  }

  /** Absent or null timeouts become 30 seconds; absent flags are false. */
  lemma Defaults(id: string, url: string, key: string)
    ensures var body := Some(JObj(map["id" := JStr(id), "external_url" := JStr(url), "security_key_id" := JStr(key)]));
            NewProfile(body, id) == Some(N8nTool(id, url, key, false, false, false, false, 30))
  {
    var body := Some(JObj(map["id" := JStr(id), "external_url" := JStr(url), "security_key_id" := JStr(key)]));
    assert Get(body, "timeout_seconds").None?;
    assert Get(body, "return_direct").None? && Get(body, "is_isolated").None?;
    assert Get(body, "stream_if_single_tool").None? && Get(body, "flash_answer_needed").None?;
  }
}

=== FILE: ordering.dfy ===
/** Descending order on sort keys, as the database applies it for
    `orderBy: { field: "desc" }`. Keys are integer sequences compared
    lexicographically: a timestamp is a one-element key, a string id is the
    sequence of its character codes. Rows with equal keys may come back in
    any order; the model keeps their input order. */
module Ordering {

  /** `a` sorts no later than `b` in ascending lexicographic order. */
  predicate LexLe(a: seq<int>, b: seq<int>)
    decreases |a|
  {
    |a| == 0 || (|b| > 0 && (a[0] < b[0] || (a[0] == b[0] && LexLe(a[1..], b[1..]))))
  }

  lemma {:induction false} LexTotal(a: seq<int>, b: seq<int>)
    ensures LexLe(a, b) || LexLe(b, a)
    decreases |a|
  {
    if |a| > 0 && |b| > 0 && a[0] == b[0] {
      LexTotal(a[1..], b[1..]);
    }
  }

  lemma {:induction false} LexTrans(a: seq<int>, b: seq<int>, c: seq<int>)
    requires LexLe(a, b) && LexLe(b, c)
    ensures LexLe(a, c)
    decreases |a|
  {
    if |a| > 0 && a[0] == b[0] && b[0] == c[0] {
      LexTrans(a[1..], b[1..], c[1..]);
    }
  }

  lemma {:induction false} LexRefl(a: seq<int>)
    ensures LexLe(a, a)
    decreases |a|
  {
    if |a| > 0 {
      LexRefl(a[1..]);
    }
  }

  /** The key of a string: its character codes. */
  function StringKey(s: string): (k: seq<int>)
    ensures |k| == |s| && forall i :: 0 <= i < |s| ==> k[i] == s[i] as int
  {
    seq(|s|, i requires 0 <= i < |s| => s[i] as int)
  }

  /** Every earlier element has a key at least as large as every later one. */
  predicate SortedDesc<T>(xs: seq<T>, key: T -> seq<int>) {
    forall i, j :: 0 <= i < j < |xs| ==> LexLe(key(xs[j]), key(xs[i]))
  }

  /** Places `x` before the first element whose key it is at least. */
  function Insert<T>(x: T, xs: seq<T>, key: T -> seq<int>): (r: seq<T>)
    requires SortedDesc(xs, key)
    ensures SortedDesc(r, key)
    ensures multiset(r) == multiset(xs) + multiset{x}
    decreases |xs|
  {
    if |xs| == 0 then [x]
    else if LexLe(key(xs[0]), key(x)) then
      InsertFront(x, xs, key);
      [x] + xs
    else
      var rest := Insert(x, xs[1..], key);
      InsertBehind(x, xs, key, rest);
      assert xs == [xs[0]] + xs[1..];
      [xs[0]] + rest
  }

  lemma InsertFront<T>(x: T, xs: seq<T>, key: T -> seq<int>)
    requires |xs| > 0 && SortedDesc(xs, key) && LexLe(key(xs[0]), key(x))
    ensures SortedDesc([x] + xs, key)
  {
    var r := [x] + xs;
    forall i, j | 0 <= i < j < |r| ensures LexLe(key(r[j]), key(r[i])) {
      if i == 0 {
        if j > 1 {
          LexTrans(key(xs[j - 1]), key(xs[0]), key(x));
        }
      } else {
        assert r[i] == xs[i - 1] && r[j] == xs[j - 1];
      }
    }
  }

  lemma InsertBehind<T>(x: T, xs: seq<T>, key: T -> seq<int>, rest: seq<T>)
    requires |xs| > 0 && SortedDesc(xs, key) && !LexLe(key(xs[0]), key(x))
    requires SortedDesc(rest, key) && multiset(rest) == multiset(xs[1..]) + multiset{x}
    ensures SortedDesc([xs[0]] + rest, key)
  {
    LexTotal(key(xs[0]), key(x));
    var r := [xs[0]] + rest;
    forall i, j | 0 <= i < j < |r| ensures LexLe(key(r[j]), key(r[i])) {
      if i == 0 {
        var y := rest[j - 1];
        assert y in multiset(rest);
        if y != x {
          assert y in multiset(xs[1..]);
          var k :| 0 <= k < |xs[1..]| && xs[1..][k] == y;
          assert xs[k + 1] == y;
        }
      } else {
        assert r[i] == rest[i - 1] && r[j] == rest[j - 1];
      }
    }
  }

  /** Insertion sort into descending key order. */
  function SortDesc<T>(xs: seq<T>, key: T -> seq<int>): (r: seq<T>)
    ensures SortedDesc(r, key)
    ensures multiset(r) == multiset(xs)
    decreases |xs|
  {
    if |xs| == 0 then []
    else
      assert xs == [xs[0]] + xs[1..];
      Insert(xs[0], SortDesc(xs[1..], key), key)
  }

  /** A sorted sequence holding the same elements has the same length and
      contents; in particular sorting drops nothing and invents nothing. */
  lemma SortKeepsElements<T>(xs: seq<T>, key: T -> seq<int>)
    ensures |SortDesc(xs, key)| == |xs|
    ensures forall y :: y in SortDesc(xs, key) <==> y in xs
  {
    var r := SortDesc(xs, key);
    assert |multiset(r)| == |multiset(xs)|;
    forall y ensures y in r <==> y in xs {
      assert y in r <==> y in multiset(r);
      assert y in xs <==> y in multiset(xs);
    }
  }

  /** The first row of a sorted listing has the largest key of all. */
  lemma {:induction false} SortDescFirstIsMax<T>(xs: seq<T>, key: T -> seq<int>)
    requires |xs| > 0
    ensures forall y :: y in xs ==> LexLe(key(y), key(SortDesc(xs, key)[0]))
  {
    var r := SortDesc(xs, key);
    SortKeepsElements(xs, key);
    forall y | y in xs ensures LexLe(key(y), key(r[0])) {
      var j :| 0 <= j < |r| && r[j] == y;
      if j == 0 { LexRefl(key(y)); }
    }
  }
}

=== FILE: playground.dfy ===
/** The client's calls to the agent API through the proxy
    (src/api/playground.ts). Each call's `fetch` outcome is a parameter; the
    model states which request is sent and what the returned promise
    settles to. Toasts and console logging are left out. */
module Playground {
  import opened Wrappers
  import opened Http
  import opened Js
  import Strings
  import Config
  import ApiRoutes
  import AgnoProxy

  /** What `fetch` came to: it rejected, or a response arrived with its
      status and its body parsed as JSON (`None` when it does not parse). */
  datatype FetchResult = NetworkFailure | Answered(status: int, json: Option<JVal>)

  /** How the promise an API function returns settles. */
  datatype Settled<+T> = Rejects | Resolves(value: T)

  /** A request the client sends. */
  datatype Request = Request(verb: AgnoProxy.Method, url: string, headers: map<string, string>, body: Option<JVal>)

  /** `resolveBase`: a non-blank argument, trimmed and without one trailing
      slash; otherwise the configured `API_URL`. */
  function ResolveBase(maybeBase: string, apiUrl: string): (b: string)
    ensures Strings.Trim(maybeBase) == "" ==> b == apiUrl
    ensures Strings.Trim(maybeBase) != "" ==> b == Strings.StripTrailingSlash(Strings.Trim(maybeBase))
    ensures Strings.Trim(maybeBase) != "" ==> b + "/" == Strings.Trim(maybeBase) || b == Strings.Trim(maybeBase)
  {
    var trimmed := Strings.Trim(maybeBase);
    if trimmed != "" then Strings.StripTrailingSlash(trimmed) else apiUrl
  }

  /** An agent as the picker shows it. The fields keep whatever JSON value
      the server sent when it is truthy; `caption` is the `label` field. */
  datatype ComboboxAgent = ComboboxAgent(value: JVal, caption: JVal, model: JVal, storage: JVal)

  /** `x || d` on a JSON property. */
  function OrElse(v: Option<JVal>, d: JVal): (r: JVal)
    ensures TruthyOpt(v) ==> r == v.value
    ensures !TruthyOpt(v) ==> r == d
  {
    if TruthyOpt(v) then v.value else d
  }

  /** One element of `data.map(...)`; reading a property of `null` throws. */
  function ToAgent(item: JVal): (a: Option<ComboboxAgent>)
    ensures a.None? <==> item.JNull?
    ensures a.Some? ==> a.value.value == OrElse(Get(Some(item), "agent_id"), JStr(""))
                        && a.value.storage == OrElse(Get(Some(item), "storage"), JBool(false))
  {
    if item.JNull? then None
    else Some(ComboboxAgent(
      OrElse(Get(Some(item), "agent_id"), JStr("")),
      OrElse(Get(Some(item), "name"), JStr("")),
      OrElse(Get(Some(item), "model"), JStr("")),
      OrElse(Get(Some(item), "storage"), JBool(false))))
  }

  /** The request `getPlaygroundAgentsAPI` sends. */
  function AgentsRequest(endpoint: string, apiUrl: string): (q: Request)
    ensures q.verb == AgnoProxy.Get && q.body.None? && q.headers == Config.AgnoHeaders()
    ensures q.url == ApiRoutes.PlaygroundAgents(ResolveBase(endpoint, apiUrl))
  {
    Request(AgnoProxy.Get, ApiRoutes.PlaygroundAgents(ResolveBase(endpoint, apiUrl)), Config.AgnoHeaders(), None)
  }

  /** `getPlaygroundAgentsAPI`: every failure, including a body that is not
      an array or holds a `null`, yields the empty list. */
  function Agents(call: FetchResult): (r: seq<ComboboxAgent>)
    ensures call.NetworkFailure? || !IsOk(call.status) || call.json.None? ==> r == []
    ensures |r| > 0 ==> call.Answered? && IsOk(call.status) && call.json.Some? && call.json.value.JList?
                        && |r| == |call.json.value.items|
    ensures |r| > 0 ==> forall i :: 0 <= i < |r| ==> ToAgent(call.json.value.items[i]) == Some(r[i])
  {
    match call
    case NetworkFailure => []
    case Answered(status, json) =>
      if !IsOk(status) || json.None? || !json.value.JList? then []
      else
        var items := json.value.items;
        if exists i :: 0 <= i < |items| && items[i].JNull? then []
        else seq(|items|, i requires 0 <= i < |items| => ToAgent(items[i]).value)
  }

  /** A well-formed answer lists one agent per element, in order. */
  lemma AgentsOnePerItem(items: seq<JVal>, status: int)
    requires IsOk(status)
    requires forall i :: 0 <= i < |items| ==> !items[i].JNull?
    ensures var r := Agents(Answered(status, Some(JList(items))));
            |r| == |items| && forall i :: 0 <= i < |r| ==> Some(r[i]) == ToAgent(items[i])
  {
  }

  /** `getPlaygroundStatusAPI`: the status, whatever it is; a network
      failure propagates. */
  function Status(call: FetchResult): (r: Settled<int>)
    ensures r.Rejects? <==> call.NetworkFailure?
    ensures r.Resolves? ==> r.value == call.status
  {
    match call
    case NetworkFailure => Rejects
    case Answered(status, _) => Resolves(status)
  }

  /** `getAllPlaygroundSessionsAPI` as written: `return response.json()`
      inside the `try` hands back the parsing promise without awaiting it,
      so a body that fails to parse rejects past the `catch`. */
  function SessionsAsWritten(call: FetchResult): (r: Settled<JVal>)
    ensures r.Rejects? <==> call.Answered? && IsOk(call.status) && call.json.None?
    ensures call.NetworkFailure? || !IsOk(call.status) ==> r == Resolves(JList([]))
  {
    match call
    case NetworkFailure => Resolves(JList([]))
    case Answered(status, json) =>
      if !IsOk(status) then Resolves(JList([]))
      else if json.None? then Rejects
      else Resolves(json.value)
  }

  /** The listing with the parse awaited inside the `try`, as the `catch`
      (return an empty list on any error) evidently intends. */
  function Sessions(call: FetchResult): (r: Settled<JVal>)
    ensures r.Resolves?
    ensures call.Answered? && IsOk(call.status) && call.json.Some? ==> r == Resolves(call.json.value)
    ensures !(call.Answered? && IsOk(call.status) && call.json.Some?) ==> r == Resolves(JList([]))
  {
    match call
    case NetworkFailure => Resolves(JList([]))
    case Answered(status, json) =>
      if !IsOk(status) || json.None? then Resolves(JList([]))
      else Resolves(json.value)
  }

  /** The two differ on exactly one kind of answer: a 200 whose body does not
      parse. There the listing as written rejects, while every other failure
      is answered with the empty list. */
  lemma SessionsParseFailureEscapes()
    ensures SessionsAsWritten(Answered(200, None)) == Rejects
    ensures SessionsAsWritten(Answered(500, None)) == Resolves(JList([]))
    ensures Sessions(Answered(200, None)) == Resolves(JList([]))
  {
  }

  lemma SessionsAgreeOtherwise(call: FetchResult)
    requires !(call.Answered? && IsOk(call.status) && call.json.None?)
    ensures SessionsAsWritten(call) == Sessions(call)
  {
  }

  /** The request `getAllPlaygroundSessionsAPI` sends. */
  function SessionsRequest(base: string, apiUrl: string, agentId: string): (q: Request)
    ensures q.verb == AgnoProxy.Get && q.body.None?
    ensures q.url == ApiRoutes.PlaygroundSessions(ResolveBase(base, apiUrl), agentId)
  {
    Request(AgnoProxy.Get, ApiRoutes.PlaygroundSessions(ResolveBase(base, apiUrl), agentId), Config.AgnoHeaders(), None)
  }

  /** `getPlaygroundSessionAPI`: the parsed body, whatever the status. */
  function GetSession(call: FetchResult): (r: Settled<JVal>)
    ensures r.Resolves? <==> call.Answered? && call.json.Some?
    ensures r.Resolves? ==> r.value == call.json.value
  {
    match call
    case NetworkFailure => Rejects
    case Answered(_, json) => if json.None? then Rejects else Resolves(json.value)
  }

  /** An error answer is handed to the caller as if it were the session. */
  lemma GetSessionIgnoresStatus(status: int, v: JVal)
    ensures GetSession(Answered(status, Some(v))) == GetSession(Answered(OK, Some(v)))
  {
  }

  /** The requests for reading and deleting a session: same URL, different
      verb. */
  function SessionRequest(base: string, apiUrl: string, agentId: string, sessionId: string, delete: bool): (q: Request)
    ensures q.url == ApiRoutes.PlaygroundSession(ResolveBase(base, apiUrl), agentId, sessionId)
    ensures q.verb == (if delete then AgnoProxy.Delete else AgnoProxy.Get) && q.body.None?
  {
    var base := ResolveBase(base, apiUrl);
    if delete then Request(AgnoProxy.Delete, ApiRoutes.DeletePlaygroundSession(base, agentId, sessionId), Config.AgnoHeaders(), None)
    else Request(AgnoProxy.Get, ApiRoutes.PlaygroundSession(base, agentId, sessionId), Config.AgnoHeaders(), None)
  }

  /** `deletePlaygroundSessionAPI`: the response itself, its status unchecked. */
  function DeleteSession(call: FetchResult): (r: Settled<int>)
    ensures r.Rejects? <==> call.NetworkFailure?
    ensures r.Resolves? ==> r.value == call.status
  {
    Status(call)
  }

  /** The body `sendMessageToAgentAPI` posts; `JSON.stringify` drops an
      undefined `session_id`. */
  function MessageBody(message: string, agentId: string, sessionId: Option<string>): (b: JVal)
    ensures b.JObj?
    ensures "session_id" in b.fields <==> sessionId.Some?
    ensures b.fields.Keys == {"model", "messages", "stream"} + (if sessionId.Some? then {"session_id"} else {})
    ensures b.fields["model"] == JStr(agentId) && b.fields["stream"] == JBool(true)
    ensures b.fields["messages"] == JList([JObj(map["role" := JStr("user"), "content" := JStr(message)])])
  {
    var fields := map["model" := JStr(agentId),
                      "messages" := JList([JObj(map["role" := JStr("user"), "content" := JStr(message)])]),
                      "stream" := JBool(true)];
    JObj(if sessionId.Some? then fields["session_id" := JStr(sessionId.value)] else fields)
  }

  /** The request `sendMessageToAgentAPI` sends. */
  function MessageRequest(message: string, agentId: string, sessionId: Option<string>, base: string, apiUrl: string): (q: Request)
    ensures q.verb == AgnoProxy.Post && q.headers == Config.AgnoHeaders()
    ensures q.url == ApiRoutes.AgentRun(ResolveBase(base, apiUrl))
    ensures q.body == Some(MessageBody(message, agentId, sessionId))
  {
    Request(AgnoProxy.Post, ApiRoutes.AgentRun(ResolveBase(base, apiUrl)), Config.AgnoHeaders(),
            Some(MessageBody(message, agentId, sessionId)))
  }

  /** `sendMessageToAgentAPI`: the response on an ok status; a failure or a
      non-ok status rejects. */
  function SendMessage(call: FetchResult): (r: Settled<int>)
    ensures r.Resolves? <==> call.Answered? && IsOk(call.status)
    ensures r.Resolves? ==> r.value == call.status
  {
    match call
    case NetworkFailure => Rejects
    case Answered(status, _) => if IsOk(status) then Resolves(status) else Rejects
  }

  /** The posted message reaches the body unchanged, whatever the session. */
  lemma MessageCarried(message: string, agentId: string, s1: Option<string>, s2: Option<string>)
    ensures MessageBody(message, agentId, s1).fields["messages"] == MessageBody(message, agentId, s2).fields["messages"]
    ensures s1.Some? ==> MessageBody(message, agentId, s1).fields["session_id"] == JStr(s1.value)
  {
  }
}

=== FILE: registry_route.dfy ===
/** The tools registry endpoint (src/app/api/tools/registry/route.ts):
    `GET` lists rows filtered by type and tag name, newest first; `POST`
    creates a registry row without a profile. */
module RegistryRoute {
  import opened Wrappers
  import opened Http
  import opened Js
  import Strings
  import opened ToolStore
  import Ordering
  import ToolsRoute

  /** A listed row, as the response shapes it. */
  datatype Item = Item(
    id: string,
    explicitCallName: string,
    readableName: string,
    description: Option<string>,
    toolType: ToolType,
    tags: seq<Tag>,
    createdAt: int)

  /** The `where` clause: the type, when given, must match, and some tag of
      the row must carry the tag name, when given. */
  predicate Matches(row: RegistryRow, t: Option<ToolType>, tagName: Option<string>) {
    (t.Some? ==> row.toolType == t.value)
    && (tagName.Some? ==> exists i :: 0 <= i < |row.tags| && row.tags[i].name == tagName.value)
  }

  /** The rows satisfying the `where` clause, in store order. */
  function Select(rows: seq<RegistryRow>, t: Option<ToolType>, tagName: Option<string>): (r: seq<RegistryRow>)
    ensures forall x :: x in r <==> x in rows && Matches(x, t, tagName)
    ensures forall x :: multiset(r)[x] == if Matches(x, t, tagName) then multiset(rows)[x] else 0
    ensures |r| <= |rows|
  {
    if |rows| == 0 then []
    else
      assert rows == [rows[0]] + rows[1..];
      if Matches(rows[0], t, tagName) then [rows[0]] + Select(rows[1..], t, tagName)
      else Select(rows[1..], t, tagName)
  }

  function CreatedKey(row: RegistryRow): seq<int> {
    [row.createdAt]
  }

  /** `r.description || null`. */
  function ShapeItem(row: RegistryRow): (it: Item)
    ensures it.description.Some? <==> Present(row.description)
    ensures it.description.Some? ==> it.description == row.description
    ensures it.id == row.id && it.toolType == row.toolType && it.tags == row.tags && it.createdAt == row.createdAt
  {
    Item(row.id, row.explicitCallName, row.readableName,
         if Present(row.description) then row.description else None,
         row.toolType, row.tags, row.createdAt)
  }

  /** The type filter a present `type` parameter selects. */
  function TypeFilter(typeParam: Option<string>): Option<ToolType> {
    if Present(typeParam) then ParseToolType(typeParam.value) else None
  }

  /** The tag filter: an empty `tag` parameter filters nothing. */
  function TagFilter(tagParam: Option<string>): Option<string> {
    if Present(tagParam) then tagParam else None
  }

  /** The rows passing the filters, newest first, shaped for the response. */
  function Listing(s: Store, t: Option<ToolType>, tagName: Option<string>): seq<Item> {
    var rows := Ordering.SortDesc(Select(s.registry, t, tagName), CreatedKey);
    seq(|rows|, i requires 0 <= i < |rows| => ShapeItem(rows[i]))
  }

  /** `GET /api/tools/registry?type=&tag=`. A `type` that is not one of the
      enum's values makes the query throw (answered 401 by the wrapper). */
  function List(s: Store, typeParam: Option<string>, tagParam: Option<string>): (r: Handled<seq<Item>>)
    ensures Present(typeParam) && ParseToolType(typeParam.value).None? <==> r.Threw?
    ensures r.Returned? ==> r.reply == Json(OK, Listing(s, TypeFilter(typeParam), TagFilter(tagParam)))
  {
    if Present(typeParam) && ParseToolType(typeParam.value).None? then Threw
    else Returned(Json(OK, Listing(s, TypeFilter(typeParam), TagFilter(tagParam))))
  }

  /** The listing holds exactly the shaped rows that pass both filters, each
      once per row, ordered by creation time, newest first. */
  lemma ListIsFilteredAndSorted(s: Store, t: Option<ToolType>, tagName: Option<string>)
    ensures var rows := Ordering.SortDesc(Select(s.registry, t, tagName), CreatedKey);
            var items := Listing(s, t, tagName);
            && (forall x :: multiset(rows)[x] == if Matches(x, t, tagName) then multiset(s.registry)[x] else 0)
            && |items| == |rows|
            && (forall i :: 0 <= i < |rows| ==> items[i] == ShapeItem(rows[i]))
    ensures var items := Listing(s, t, tagName);
            && (forall i, j :: 0 <= i < j < |items| ==> items[i].createdAt >= items[j].createdAt)
            && (forall row :: row in s.registry && Matches(row, t, tagName) ==> ShapeItem(row) in items)
            && (forall it :: it in items ==> exists row :: row in s.registry && Matches(row, t, tagName) && it == ShapeItem(row))
  {
    Ordering.SortKeepsElements(Select(s.registry, t, tagName), CreatedKey);
    ListingSorted(s, t, tagName);
    ListingComplete(s, t, tagName);
    ListingSound(s, t, tagName);
  }

  lemma ListingSorted(s: Store, t: Option<ToolType>, tagName: Option<string>)
    ensures var items := Listing(s, t, tagName);
            forall i, j :: 0 <= i < j < |items| ==> items[i].createdAt >= items[j].createdAt
  {
    var rows := Ordering.SortDesc(Select(s.registry, t, tagName), CreatedKey);
    var items := Listing(s, t, tagName);
    forall i, j | 0 <= i < j < |items| ensures items[i].createdAt >= items[j].createdAt {
      assert Ordering.LexLe(CreatedKey(rows[j]), CreatedKey(rows[i]));
      assert items[i] == ShapeItem(rows[i]) && items[j] == ShapeItem(rows[j]);
    }
  }

  lemma ListingComplete(s: Store, t: Option<ToolType>, tagName: Option<string>)
    ensures forall row :: row in s.registry && Matches(row, t, tagName) ==> ShapeItem(row) in Listing(s, t, tagName)
  {
    var sel := Select(s.registry, t, tagName);
    var rows := Ordering.SortDesc(sel, CreatedKey);
    Ordering.SortKeepsElements(sel, CreatedKey);
    forall row | row in s.registry && Matches(row, t, tagName) ensures ShapeItem(row) in Listing(s, t, tagName) {
      assert row in rows;
      var k :| 0 <= k < |rows| && rows[k] == row;
      ListingAt(s, t, tagName, k);
    }
  }

  lemma ListingSound(s: Store, t: Option<ToolType>, tagName: Option<string>)
    ensures forall it :: it in Listing(s, t, tagName) ==>
              exists row :: row in s.registry && Matches(row, t, tagName) && it == ShapeItem(row)
  {
    var items := Listing(s, t, tagName);
    forall it | it in items
      ensures exists row :: row in s.registry && Matches(row, t, tagName) && it == ShapeItem(row)
    {
      var k :| 0 <= k < |items| && items[k] == it;
      ListingAt(s, t, tagName, k);
    }
  }

  /** The k-th listed item is the k-th sorted row, which is a stored row that
      passes the filters. */
  lemma ListingAt(s: Store, t: Option<ToolType>, tagName: Option<string>, k: nat)
    requires k < |Listing(s, t, tagName)|
    ensures var rows := Ordering.SortDesc(Select(s.registry, t, tagName), CreatedKey);
            && k < |rows| && Listing(s, t, tagName)[k] == ShapeItem(rows[k])
            && rows[k] in s.registry && Matches(rows[k], t, tagName)
  {
    var sel := Select(s.registry, t, tagName);
    var rows := Ordering.SortDesc(sel, CreatedKey);
    Ordering.SortKeepsElements(sel, CreatedKey);
    assert rows[k] in rows;
  }

  /** Without filters every registry row is listed. */
  lemma UnfilteredListsAll(s: Store)
    ensures |Listing(s, None, None)| == |s.registry|
  {
    var sel := Select(s.registry, None, None);
    assert sel == s.registry by { SelectAll(s.registry); }
    Ordering.SortKeepsElements(sel, CreatedKey);
  }

  lemma {:induction false} SelectAll(rows: seq<RegistryRow>)
    ensures Select(rows, None, None) == rows
  {
    if |rows| > 0 {
      SelectAll(rows[1..]);
      assert Matches(rows[0], None, None);
      assert Select(rows, None, None) == [rows[0]] + Select(rows[1..], None, None);
      assert rows == [rows[0]] + rows[1..];
    }
  }

  /** The write that follows validation: tag check, then the row insert. */
  function Create(req: ToolsRoute.Request, description: Option<string>, s: Store, env: WriteEnv): (o: Outcome<string>)
    ensures o.handled.Returned?
    ensures o.handled.reply.Status() in {CREATED, BAD_REQUEST, CONFLICT, SERVER_ERROR}
    ensures o.handled.reply.Status() != CREATED ==> o.store == s
    ensures ProfileCount(o.store) == ProfileCount(s)
    ensures o.handled.reply.Status() == CREATED <==>
              |MissingTagIds(s, req.tagIds)| == 0 && req.toolType.Valid? && !NameTaken(s, req.explicitCallName) && !env.fault
    ensures |MissingTagIds(s, req.tagIds)| == 0 && req.toolType.Valid? && !NameTaken(s, req.explicitCallName) && !env.fault
            ==> o == Outcome(Returned(Json(CREATED, env.newId)), s.(registry := s.registry + [NewRow(req, description, s, env)]))
    ensures |MissingTagIds(s, req.tagIds)| > 0 ==> o.handled.reply == Error(BAD_REQUEST, "invalid_tag_ids")
    ensures |MissingTagIds(s, req.tagIds)| == 0 && req.toolType.Valid? && NameTaken(s, req.explicitCallName) ==>
              o.handled.reply == Error(CONFLICT, "explicit_call_name_conflict")
    ensures |MissingTagIds(s, req.tagIds)| == 0 && (req.toolType.Invalid? || (!NameTaken(s, req.explicitCallName) && env.fault)) ==>
              o.handled.reply == Error(SERVER_ERROR, "create_failed")
  {
    if |MissingTagIds(s, req.tagIds)| > 0 then Refuse(s, BAD_REQUEST, "invalid_tag_ids")
    else if req.toolType.Invalid? then Refuse(s, SERVER_ERROR, "create_failed")
    else if NameTaken(s, req.explicitCallName) then Refuse(s, CONFLICT, "explicit_call_name_conflict")
    else if env.fault then Refuse(s, SERVER_ERROR, "create_failed")
    else Outcome(Returned(Json(CREATED, env.newId)), s.(registry := s.registry + [NewRow(req, description, s, env)]))
  }

  /** `POST /api/tools/registry`. Unlike the unified endpoint, the admin
      lookup comes before validation and no profile is created. */
  function Post(body: Option<JVal>, userId: string, s: Store, env: WriteEnv): (o: Outcome<string>)
    ensures o.handled.Returned?
    ensures o.handled.reply.Status() in {CREATED, BAD_REQUEST, CONFLICT, SERVER_ERROR}
    ensures o.handled.reply.Status() != CREATED ==> o.store == s
    ensures ProfileCount(o.store) == ProfileCount(s)
    ensures !TruthyOpt(body) ==> o.handled.reply == Error(BAD_REQUEST, "Invalid JSON")
    ensures TruthyOpt(body) && (ToolsRoute.TrimmedField(body, "explicit_call_name") == ""
                                || ToolsRoute.TrimmedField(body, "readable_name") == "")
            ==> o.handled.reply == Error(BAD_REQUEST, "Missing required fields")
    ensures TruthyOpt(body) && ToolsRoute.TrimmedField(body, "explicit_call_name") != ""
            && ToolsRoute.TrimmedField(body, "readable_name") != ""
            ==> o == Create(ToolsRoute.ParseRequest(body, IsAdmin(s, userId)), Description(body), s, env)
  {
    if !TruthyOpt(body) then Refuse(s, BAD_REQUEST, "Invalid JSON")
    else
      var req := ToolsRoute.ParseRequest(body, IsAdmin(s, userId));
      if req.explicitCallName == "" || req.readableName == "" then Refuse(s, BAD_REQUEST, "Missing required fields")
      else Create(req, Description(body), s, env)
  }

  /** `body.description ? String(body.description).trim() : null`. */
  function Description(body: Option<JVal>): (d: Option<string>)
    ensures !TruthyOpt(Get(body, "description")) ==> d.None?
    ensures TruthyOpt(Get(body, "description")) && Get(body, "description").value.JStr? ==>
              d == Some(Strings.Trim(Get(body, "description").value.s))
    ensures d.Some? ==> d.value == [] || !Strings.IsWhitespace(d.value[0])
  {
    var v := Get(body, "description");
    if TruthyOpt(v) then Some(Strings.Trim(ToStr(v.value))) else None
  }

  /** The registry row a successful POST writes. */
  function NewRow(req: ToolsRoute.Request, description: Option<string>, s: Store, env: WriteEnv): (row: RegistryRow)
    requires |MissingTagIds(s, req.tagIds)| == 0 && req.toolType.Valid?
    ensures row.id == env.newId && row.toolType == req.toolType.t && row.description == description
    ensures row.explicitCallName == req.explicitCallName && row.readableName == req.readableName
    ensures |row.tags| == |req.tagIds| && forall i :: 0 <= i < |row.tags| ==> row.tags[i].id == req.tagIds[i]
  {
    RegistryRow(env.newId, req.explicitCallName, req.readableName, description,
                req.toolType.t, TagsFor(s, req.tagIds), env.now)
  }

  /** A non-admin's registry row is always HARD_CODED, and the row holds the
      trimmed names and the trimmed description. */
  lemma NonAdminRowIsHardcoded(body: Option<JVal>, userId: string, s: Store, env: WriteEnv)
    requires !IsAdmin(s, userId)
    ensures Post(body, userId, s, env).handled.Returned? && Post(body, userId, s, env).handled.reply.Status() == CREATED ==>
            var row := Post(body, userId, s, env).store.registry[|s.registry|];
            && row.toolType == HardCoded
            && row.id == env.newId
            && row.explicitCallName == ToolsRoute.TrimmedField(body, "explicit_call_name")
            && row.readableName == ToolsRoute.TrimmedField(body, "readable_name")
            && row.description == Description(body)
  {
  }
}

=== FILE: roles_route.dfy ===
/** The roles endpoint (`GET /api/auth/roles`,
    src/app/api/auth/roles/route.ts): resolves the canonical user id through
    the identity service, never failing because of it, and answers with the
    database roles of that id, defaulting to `["USER"]`. */
module RolesRoute {
  import opened Wrappers
  import opened Http
  import opened Js
  import opened ToolStore
  import opened UserInfo
  import SecurityKeysRoute

  datatype RolesPayload = RolesPayload(roles: seq<string>, userId: string)

  /** The route's own resolution: start from the token id, and replace it by
      `String(me.id)` only when the URL is set, the response is ok, its body
      parses and `data.me.id` is truthy. Failures leave the token id. */
  function CanonicalUserId(url: Option<string>, call: MeCall, tokenId: string): (id: string)
    ensures !Present(url) ==> id == tokenId
    ensures call.NetworkError? ==> id == tokenId
    ensures call.Responded? && !IsOk(call.status) ==> id == tokenId
    ensures Present(url) && ConfirmedId(call).Some? ==> id == ToStr(ConfirmedId(call).value)
    ensures ConfirmedId(call).None? ==> id == tokenId
  {
    if !Present(url) then tokenId
    else if call.NetworkError? then tokenId
    else if !IsOk(call.status) then tokenId
    else if call.json.None? then tokenId
    else
      var id := Js.Get(Me(call.json.value), "id");
      if TruthyOpt(id) then ToStr(id.value) else tokenId
  }

  /** The roles route and the security-keys route resolve the same id from
      the same upstream outcome. */
  lemma ResolutionsAgree(url: Option<string>, call: MeCall, tokenId: string)
    ensures CanonicalUserId(url, call, tokenId) == SecurityKeysRoute.ResolveCanonicalUserId(url, call, tokenId)
  {
  }

  /** `roleNames.length > 0 ? roleNames : ["USER"]`. */
  function EffectiveRoles(names: seq<string>): (r: seq<string>)
    ensures |r| > 0
    ensures |names| > 0 ==> r == names
    ensures |names| == 0 ==> r == ["USER"]
  {
    if |names| > 0 then names else ["USER"]
  }

  /** `GET /api/auth/roles`: always 200; the roles are those of the id the
      response reports. */
  function Get(tokenId: string, url: Option<string>, call: MeCall, s: Store): (r: Reply<RolesPayload>)
    ensures r.Json? && r.status == OK
    ensures r.payload.userId == CanonicalUserId(url, call, tokenId)
    ensures r.payload.roles == EffectiveRoles(RolesOf(s, r.payload.userId))
    ensures |r.payload.roles| > 0
  {
    var id := CanonicalUserId(url, call, tokenId);
    Json(OK, RolesPayload(EffectiveRoles(RolesOf(s, id)), id))
  }

  /** A user with no role rows is reported as USER, and as admin never. */
  lemma NoRowsMeansUser(tokenId: string, url: Option<string>, call: MeCall, s: Store)
    requires RolesOf(s, CanonicalUserId(url, call, tokenId)) == []
    ensures Get(tokenId, url, call, s).payload.roles == ["USER"]
    ensures "ADMIN" !in Get(tokenId, url, call, s).payload.roles
  {
  }

  /** An upstream failure of any kind is absorbed: the answer is 200 with
      the token id's roles, as if no URL were configured. */
  lemma UpstreamFailureIsSoft(tokenId: string, url: Option<string>, status: int, s: Store)
    requires !IsOk(status)
    ensures Get(tokenId, url, NetworkError, s) == Get(tokenId, None, NetworkError, s)
    ensures Get(tokenId, url, Responded(status, None), s) == Get(tokenId, None, NetworkError, s)
    ensures Get(tokenId, url, Responded(OK, None), s) == Get(tokenId, None, NetworkError, s)
  {
  }
}

=== FILE: security_keys_cache.dfy ===
/** The client's security-keys cache (src/store/securityKeys.ts): like the
    tag cache, except that a 401 or 403 is not an error: it empties the list
    and stamps the cache. */
module SecurityKeysCache {
  import opened Wrappers
  import opened Http
  import Strings
  import opened TtlCache
  import ToolStore
  import UserInfo
  import ServerAuth
  import SecurityKeysRoute

  const TtlMs: int := 5 * 60 * 1000

  type KeysState = Cache<seq<SecurityKeysRoute.KeyItem>>

  /** The statuses that mean "not allowed to see keys". */
  predicate Denied(status: int) {
    status == FORBIDDEN || status == UNAUTHORIZED
  }

  /** Everything after `set({ loading: true, error: null })`. */
  function Complete(c: KeysState, now: int, f: Fetched<seq<SecurityKeysRoute.KeyItem>>): (r: KeysState)
    ensures !r.loading && r.lastFetchedAt == Some(now)
    ensures f.Response? && Denied(f.status) ==> r.data == [] && r.error == c.error
    ensures f.Response? && !Denied(f.status) && !IsOk(f.status) ==>
              r.data == c.data && r.error == Some(Strings.IntToString(f.status))
    ensures f.Response? && IsOk(f.status) && f.body.Success? ==> r.data == f.body.value && r.error == c.error
    ensures f.Rejected? ==> r.data == c.data && r.error == Some(f.message)
    ensures f.Response? && IsOk(f.status) && f.body.Failure? ==> r.data == c.data && r.error == Some(f.body.error)
  {
    match f
    case Rejected(message) => Fail(c, message, now)
    case Response(status, _, body) =>
      if Denied(status) then Settle(c, [], now)
      else if !IsOk(status) then Fail(c, Strings.IntToString(status), now)
      else if body.Failure? then Fail(c, body.error, now)
      else Settle(c, body.value, now)
  }

  /** `fetchIfNeeded`. */
  function FetchIfNeeded(c: KeysState, now: int, f: Fetched<seq<SecurityKeysRoute.KeyItem>>): (r: KeysState)
    ensures Begin(c, now, TtlMs).None? ==> r == c
    ensures Begin(c, now, TtlMs).Some? ==> !r.loading && r.lastFetchedAt == Some(now)
    ensures Begin(c, now, TtlMs).Some? ==>
              (r.error.None? <==> f.Response? && (Denied(f.status) || (IsOk(f.status) && f.body.Success?)))
    ensures Begin(c, now, TtlMs).Some? && f.Response? && Denied(f.status) ==> r.data == []
    ensures Begin(c, now, TtlMs).Some? && f.Response? && IsOk(f.status) && f.body.Success? ==> r.data == f.body.value
    ensures Begin(c, now, TtlMs).Some? && r.error.Some? ==> r.data == c.data
  {
    TtlCache.FetchIfNeeded(c, now, TtlMs, b => Complete(b, now, f))
  }

  /** `forceRefresh`. Unlike the tag cache, a 401 or 403 empties the list
      without recording an error. */
  function ForceRefresh(c: KeysState, now: int, f: Fetched<seq<SecurityKeysRoute.KeyItem>>): (r: KeysState)
    ensures c.loading ==> r == Invalidate(c)
    ensures !c.loading ==> !r.loading && r.lastFetchedAt == Some(now)
    ensures !c.loading && f.Response? && Denied(f.status) ==> r.data == [] && r.error.None?
    ensures !c.loading && f.Response? && IsOk(f.status) && f.body.Success? ==> r.data == f.body.value && r.error.None?
    ensures !c.loading && f.Response? && !Denied(f.status) && !IsOk(f.status) ==>
              r.data == c.data && r.error == Some(Strings.IntToString(f.status))
    ensures !c.loading && f.Response? && IsOk(f.status) && f.body.Failure? ==> r.data == c.data && r.error == Some(f.body.error)
    ensures !c.loading && f.Rejected? ==> r.data == c.data && r.error == Some(f.message)
  {
    TtlCache.ForceRefresh(c, now, TtlMs, b => Complete(b, now, f))
  }

  /** The endpoint's answer as the store receives it. */
  function Deliver(reply: Reply<seq<SecurityKeysRoute.KeyItem>>): Fetched<seq<SecurityKeysRoute.KeyItem>> {
    match reply
    case Json(status, items) => Response(status, "", Success(items))
    case Error(status, code) => Response(status, "", Failure(code))
  }

  /** What a user sees after a forced refresh: every key, newest first, when
      the endpoint lets them list; otherwise an empty list and no error, the
      same state as an empty key table. */
  lemma ClientSeesServerKeys(c: KeysState, now: int, user: ServerAuth.CurrentUser, url: Option<string>,
                             call: UserInfo.MeCall, s: ToolStore.Store)
    requires !c.loading
    ensures var r := ForceRefresh(c, now, Deliver(SecurityKeysRoute.Get(user, url, call, s)));
            && r.error.None?
            && (SecurityKeysRoute.MayList(user, url, call, s) ==> r.data == SecurityKeysRoute.KeyListing(s))
            && (!SecurityKeysRoute.MayList(user, url, call, s) ==> r.data == [])
  {
    InvalidateForcesFetch(c, now, TtlMs);
  }

  /** A denied user cannot tell "not allowed" from "no keys exist". */
  lemma DeniedLooksEmpty(c: KeysState, now: int, user: ServerAuth.CurrentUser, url: Option<string>,
                         call: UserInfo.MeCall, s: ToolStore.Store)
    requires !c.loading && !SecurityKeysRoute.MayList(user, url, call, s)
    ensures ForceRefresh(c, now, Deliver(SecurityKeysRoute.Get(user, url, call, s)))
            == ForceRefresh(c, now, Response(OK, "", Success([])))
  {
    InvalidateForcesFetch(c, now, TtlMs);
  }
}

=== FILE: security_keys_route.dfy ===
/** The security-keys endpoint (src/app/api/tools/security-keys/route.ts).
    `GET` admits an ADMIN role in the token, or an ADMIN mapping in the
    database for the CANONICAL user id (resolved through the identity
    service); `POST` admits only an ADMIN mapping for the TOKEN's user id.
    The two checks can disagree, and the model keeps them apart. */
module SecurityKeysRoute {
  import opened Wrappers
  import opened Http
  import opened Js
  import Strings
  import opened ToolStore
  import Ordering
  import opened UserInfo
  import opened ServerAuth

  /** `resolveCanonicalUserId`: the identity service's `me.id`, stringified,
      when the URL is configured and the call succeeds with one; the token's
      id in every other case, errors included. */
  function ResolveCanonicalUserId(url: Option<string>, call: MeCall, userId: string): (id: string)
    ensures !Present(url) ==> id == userId
    ensures Present(url) && ConfirmedId(call).Some? ==> id == ToStr(ConfirmedId(call).value)
    ensures ConfirmedId(call).None? ==> id == userId
  {
    if !Present(url) then userId
    else
      match ConfirmedId(call)
      case None => userId
      case Some(v) => ToStr(v)
  }

  /** A listed key: `systemName` renamed to `system_name` on the wire. */
  datatype KeyItem = KeyItem(id: string, systemName: string, description: Option<string>)

  function KeyCreatedKey(k: SecurityKey): seq<int> {
    [k.createdAt]
  }

  /** Every key, newest first, reduced to id, system name and description. */
  function KeyListing(s: Store): (items: seq<KeyItem>)
    ensures |items| == |s.keys|
  {
    var keys := Ordering.SortDesc(s.keys, KeyCreatedKey);
    Ordering.SortKeepsElements(s.keys, KeyCreatedKey);
    seq(|keys|, i requires 0 <= i < |keys| => KeyItem(keys[i].id, keys[i].systemName, keys[i].description))
  }

  /** The token itself grants ADMIN: `Array.isArray(roles) && roles.includes("ADMIN")`. */
  function AdminByJwt(user: CurrentUser): (r: bool)
    ensures user.roles.None? ==> !r
    ensures r <==> user.roles.Some? && exists i :: 0 <= i < |user.roles.value| && user.roles.value[i] == "ADMIN"
  {
    user.roles.Some? && "ADMIN" in user.roles.value
  }

  /** Who may list keys. */
  function MayList(user: CurrentUser, url: Option<string>, call: MeCall, s: Store): (r: bool)
    ensures AdminByJwt(user) ==> r
    ensures !AdminByJwt(user) ==> (r <==> IsAdmin(s, ResolveCanonicalUserId(url, call, user.id)))
  {
    AdminByJwt(user) || IsAdmin(s, ResolveCanonicalUserId(url, call, user.id))
  }

  /** `GET /api/tools/security-keys`. */
  function Get(user: CurrentUser, url: Option<string>, call: MeCall, s: Store): (r: Reply<seq<KeyItem>>)
    ensures r.Status() == OK <==> MayList(user, url, call, s)
    ensures r.Status() != OK ==> r == Error(FORBIDDEN, "forbidden")
    ensures r.Status() == OK ==> r == Json(OK, KeyListing(s))
  {
    if AdminByJwt(user) then Json(OK, KeyListing(s))
    else if IsAdmin(s, ResolveCanonicalUserId(url, call, user.id)) then Json(OK, KeyListing(s))
    else Error(FORBIDDEN, "forbidden")
  }

  /** With ADMIN in the token the identity service and the database are not
      consulted: any outcome of the call, any role table, the same answer. */
  lemma JwtAdminSkipsResolution(user: CurrentUser, url: Option<string>, c1: MeCall, c2: MeCall, s: Store)
    requires AdminByJwt(user)
    ensures Get(user, url, c1, s) == Get(user, url, c2, s.(userRoles := map[])) == Json(OK, KeyListing(s))
  {
  }

  /** The listing is the stored keys rearranged, each exactly as often as it
      is stored, newest first, each reduced to id, system name and
      description in that same position. */
  lemma KeyListingOrdered(s: Store)
    ensures var keys := Ordering.SortDesc(s.keys, KeyCreatedKey);
            var items := KeyListing(s);
            && multiset(keys) == multiset(s.keys)
            && |items| == |keys|
            && (forall i :: 0 <= i < |keys| ==> items[i] == KeyItem(keys[i].id, keys[i].systemName, keys[i].description))
            && (forall i, j :: 0 <= i < j < |keys| ==> keys[i].createdAt >= keys[j].createdAt)
    ensures var items := KeyListing(s);
            forall i :: 0 <= i < |items| ==> exists k :: k in s.keys && items[i] == KeyItem(k.id, k.systemName, k.description)
  {
    KeyListingFromStore(s);
    KeysNewestFirst(s);
  }

  lemma KeyListingFromStore(s: Store)
    ensures var items := KeyListing(s);
            forall i :: 0 <= i < |items| ==> exists k :: k in s.keys && items[i] == KeyItem(k.id, k.systemName, k.description)
  {
    var keys := Ordering.SortDesc(s.keys, KeyCreatedKey);
    Ordering.SortKeepsElements(s.keys, KeyCreatedKey);
    var items := KeyListing(s);
    forall i | 0 <= i < |items|
      ensures exists k :: k in s.keys && items[i] == KeyItem(k.id, k.systemName, k.description)
    {
      assert keys[i] in keys;
      assert keys[i] in s.keys;
    }
  }

  lemma KeysNewestFirst(s: Store)
    ensures var keys := Ordering.SortDesc(s.keys, KeyCreatedKey);
            forall i, j :: 0 <= i < j < |keys| ==> keys[i].createdAt >= keys[j].createdAt
  {
    var keys := Ordering.SortDesc(s.keys, KeyCreatedKey);
    forall i, j | 0 <= i < j < |keys| ensures keys[i].createdAt >= keys[j].createdAt {
      assert Ordering.LexLe(KeyCreatedKey(keys[j]), KeyCreatedKey(keys[i]));
    }
  }

  /** `POST /api/tools/security-keys`. A truthy `system_name` that is not a
      string makes `.trim()` throw inside the `try`, which answers 500. */
  function Post(body: Option<JVal>, user: CurrentUser, s: Store, env: WriteEnv): (o: Outcome<string>)
    ensures o.handled.Returned?
    ensures o.handled.reply.Status() in {CREATED, BAD_REQUEST, FORBIDDEN, CONFLICT, SERVER_ERROR}
    ensures o.handled.reply.Status() != CREATED ==> o.store == s
    ensures !IsAdmin(s, user.id) ==> o.handled.reply == Error(FORBIDDEN, "forbidden")
    ensures IsAdmin(s, user.id) && !TruthyOpt(Js.Get(body, "system_name")) ==>
              o.handled.reply == Error(BAD_REQUEST, "missing_system_name")
    ensures IsAdmin(s, user.id) && TruthyOpt(Js.Get(body, "system_name"))
            && (!Js.Get(body, "system_name").value.JStr? || StringOrNull(Js.Get(body, "description")).None?) ==>
              o.handled.reply == Error(SERVER_ERROR, "create_failed")
    ensures IsAdmin(s, user.id) && TruthyOpt(Js.Get(body, "system_name")) && Js.Get(body, "system_name").value.JStr?
            && StringOrNull(Js.Get(body, "description")).Some? ==>
              var name := Strings.Trim(Js.Get(body, "system_name").value.s);
              && (SystemNameTaken(s, name) ==> o.handled.reply == Error(CONFLICT, "system_name_conflict"))
              && (!SystemNameTaken(s, name) && env.fault ==> o.handled.reply == Error(SERVER_ERROR, "create_failed"))
              && (!SystemNameTaken(s, name) && !env.fault ==> o.handled.reply == Json(CREATED, env.newId))
    ensures o.handled.reply.Status() == CREATED ==>
              Js.Get(body, "system_name").Some? && Js.Get(body, "system_name").value.JStr?
              && StringOrNull(Js.Get(body, "description")).Some?
    ensures o.handled.reply.Status() == CREATED ==>
              var name := Js.Get(body, "system_name").value.s;
              && IsAdmin(s, user.id)
              && o.handled.reply == Json(CREATED, env.newId)
              && !SystemNameTaken(s, Strings.Trim(name))
              && o.store == s.(keys := s.keys + [SecurityKey(env.newId, Strings.Trim(name),
                                                             StringOrNull(Js.Get(body, "description")).value,
                                                             user.id, env.now)])
  {
    if !IsAdmin(s, user.id) then Refuse(s, FORBIDDEN, "forbidden")
    else
      var nameVal := Js.Get(body, "system_name");
      if !TruthyOpt(nameVal) then Refuse(s, BAD_REQUEST, "missing_system_name")
      else if !nameVal.value.JStr? then Refuse(s, SERVER_ERROR, "create_failed")
      else
        var name := Strings.Trim(nameVal.value.s);
        var description := StringOrNull(Js.Get(body, "description"));
        if description.None? then Refuse(s, SERVER_ERROR, "create_failed")
        else if SystemNameTaken(s, name) then Refuse(s, CONFLICT, "system_name_conflict")
        else if env.fault then Refuse(s, SERVER_ERROR, "create_failed")
        else
          Outcome(Returned(Json(CREATED, env.newId)),
                  s.(keys := s.keys + [SecurityKey(env.newId, name, description.value, user.id, env.now)]))
  }

  /** POST looks at nothing but the token's id: two users with the same id
      get the same answer, whatever their JWT roles or other claims. */
  lemma PostUsesTokenIdOnly(body: Option<JVal>, u1: CurrentUser, u2: CurrentUser, s: Store, env: WriteEnv)
    requires u1.id == u2.id
    ensures Post(body, u1, s, env) == Post(body, u2, s, env)
  {
  }

  /** The inconsistency between the two checks: a user whose token carries
      ADMIN but who has no ADMIN row may list keys and may not create one. */
  lemma GetAndPostDisagree(user: CurrentUser, url: Option<string>, call: MeCall, body: Option<JVal>, s: Store, env: WriteEnv)
    requires AdminByJwt(user) && !IsAdmin(s, user.id)
    ensures Get(user, url, call, s).Status() == OK
    ensures Post(body, user, s, env).handled.reply == Error(FORBIDDEN, "forbidden")
  {
  }

  /** The canonical id can also split them: the database may hold ADMIN for
      the id the identity service confirms but not for the token's id. */
  lemma CanonicalAdminListsButCannotCreate(canonical: string, body: Option<JVal>, s: Store, env: WriteEnv)
    requires canonical != "" && canonical != "token-id"
    requires s.userRoles == map[canonical := ["ADMIN"]]
    ensures var user := CurrentUser("token-id", None, None, None, true, None, None);
            && Get(user, Some("https://id.example/graphql"), MeResponse(canonical), s).Status() == OK
            && Post(body, user, s, env).handled.reply == Error(FORBIDDEN, "forbidden")
  {
    MeResponseConfirms(canonical);
    assert RolesOf(s, canonical) == ["ADMIN"];
    assert RolesOf(s, "token-id") == [];
  }

  /** A name of white space only passes the presence check (the raw value is
      truthy) and is stored trimmed, as the empty string. */
  lemma BlankNameStoredEmpty(user: CurrentUser, s: Store, env: WriteEnv)
    requires IsAdmin(s, user.id) && !SystemNameTaken(s, "") && !env.fault
    ensures var body := Some(JObj(map["system_name" := JStr("   ")]));
            var o := Post(body, user, s, env);
            o.handled.reply == Json(CREATED, env.newId) && o.store.keys[|s.keys|].systemName == ""
  {
    var body := Some(JObj(map["system_name" := JStr("   ")]));
    BlankBodyFields(body);
    BlankTrimsEmpty();
  }

  lemma BlankBodyFields(body: Option<JVal>)
    requires body == Some(JObj(map["system_name" := JStr("   ")]))
    ensures Js.Get(body, "system_name") == Some(JStr("   ")) && Js.Get(body, "description").None?
  {
  }

  lemma BlankTrimsEmpty()
    ensures Strings.Trim("   ") == ""
  {
    assert Strings.IsBlank("   ");
    Strings.TrimEmptyIffBlank("   ");
  }
}

=== FILE: server_auth.dfy ===
/** Server-side authentication primitives (src/lib/auth/serverAuth.ts):
    extracting the auth token from a `Cookie` header, and mapping the claims
    of a verified JWT to the request's `CurrentUser`. Signature, algorithm,
    issuer and audience checks belong to the JWT library and are an oracle
    here: `Verifier` returns the decoded claims, or `None` when it throws. */
module ServerAuth {
  import opened Wrappers
  import Strings
  import Js

  /** Name used when `AUTH_COOKIE_NAME` is unset or empty. */
  const DefaultCookieName := "auth_token"

  /** `process.env.AUTH_COOKIE_NAME || "auth_token"`. */
  function AuthCookieName(env: Option<string>): (name: string)
    ensures name != ""
    ensures Js.Present(env) ==> name == env.value
    ensures !Js.Present(env) ==> name == DefaultCookieName
  {
    if Js.Present(env) then env.value else DefaultCookieName
  }

  /** `cookieHeader.split(/;\s*\/)`: the pieces between semicolons, each
      piece after a semicolon losing its leading white space. */
  function CookieSegments(header: string): (segs: seq<string>)
    ensures |segs| == |Strings.Split(header, ';')|
    ensures segs[0] == Strings.Split(header, ';')[0]
    ensures forall i :: 1 <= i < |segs| ==> segs[i] == Strings.TrimStart(Strings.Split(header, ';')[i])
  {
    var parts := Strings.Split(header, ';');
    seq(|parts|, i requires 0 <= i < |parts| => if i == 0 then parts[0] else Strings.TrimStart(parts[i]))
  }

  /** The name of a cookie piece: `piece.split("=")[0]`. */
  function CookieName(piece: string): string {
    Strings.Split(piece, '=')[0]
  }

  /** The value of a cookie piece: the remaining `=`-separated parts, rejoined. */
  function CookieValue(piece: string): string {
    Strings.Join(Strings.Split(piece, '=')[1..], "=")
  }

  /** The value is everything after the first `=`, so a piece is its name,
      `=`, and its value; a piece without `=` is all name with an empty value. */
  lemma CookiePieceRoundTrip(piece: string)
    ensures '=' in piece ==> piece == CookieName(piece) + "=" + CookieValue(piece)
    ensures '=' !in piece ==> CookieName(piece) == piece && CookieValue(piece) == ""
  {
    if '=' in piece {
      CookieParts(piece);
      var k := Strings.IndexOf(piece, '=');
      assert piece == piece[..k] + "=" + piece[k + 1..];
    } else {
      Strings.SplitRestJoin(piece, '=');
    }
  }

  /** With an `=` present, the name and value are the slices on either side
      of the first one. */
  lemma CookieParts(piece: string)
    requires '=' in piece
    ensures var k := Strings.IndexOf(piece, '=');
            CookieName(piece) == piece[..k] && CookieValue(piece) == piece[k + 1..]
  {
    Strings.SplitRestJoin(piece, '=');
  }

  /** Scans the pieces in order for one named exactly `name` (case-sensitively). */
  function FindCookie(segs: seq<string>, name: string): (r: Option<string>)
    ensures r.None? <==> forall i :: 0 <= i < |segs| ==> CookieName(segs[i]) != name
  {
    if |segs| == 0 then None
    else if CookieName(segs[0]) == name then Some(CookieValue(segs[0]))
    else
      assert forall i :: 1 <= i < |segs| ==> segs[i] == segs[1..][i - 1];
      FindCookie(segs[1..], name)
  }

  /** The value found is that of the FIRST piece with the name; later pieces
      with the same name are ignored. */
  lemma {:induction false} FindCookieFirst(segs: seq<string>, name: string, i: nat)
    requires i < |segs| && CookieName(segs[i]) == name
    requires forall j :: 0 <= j < i ==> CookieName(segs[j]) != name
    ensures FindCookie(segs, name) == Some(CookieValue(segs[i]))
  {
    if i > 0 {
      assert forall j :: 0 <= j < i - 1 ==> segs[1..][j] == segs[j + 1];
      FindCookieFirst(segs[1..], name, i - 1);
    }
  }

  /** `getAuthCookieFromHeaders`: `None` for a missing or empty `Cookie`
      header, otherwise the value of the first cookie named `name`. */
  function GetAuthCookie(cookieHeader: Option<string>, name: string): (r: Option<string>)
    ensures !Js.Present(cookieHeader) ==> r.None?
    ensures Js.Present(cookieHeader) ==> r == FindCookie(CookieSegments(cookieHeader.value), name)
  {
    if !Js.Present(cookieHeader) then None
    else FindCookie(CookieSegments(cookieHeader.value), name)
  }

  /** A header holding the single cookie `name=value` yields `value`, even when
      the value itself contains `=`. */
  lemma SingleCookieExtracted(name: string, value: string)
    requires name != "" && '=' !in name && ';' !in name && ';' !in value
    ensures GetAuthCookie(Some(name + "=" + value), name) == Some(value)
  {
    var h := name + "=" + value;
    assert ';' !in h by {
      assert forall i :: 0 <= i < |h| ==> h[i] != ';' by {
        forall i | 0 <= i < |h| ensures h[i] != ';' {
          if i < |name| { assert h[i] == name[i]; }
          else if i > |name| { assert h[i] == value[i - |name| - 1]; }
        }
      }
    }
    assert CookieSegments(h) == [h];
    assert Strings.IndexOf(h, '=') == |name| by {
      assert h[|name|] == '=' && h[..|name|] == name;
    }
    CookieParts(h);
    assert h[|name| + 1..] == value;
  }

  /** A cookie named `name` with no `=` at all yields the empty string. */
  lemma BareCookieIsEmpty(name: string)
    requires name != "" && '=' !in name && ';' !in name
    ensures GetAuthCookie(Some(name), name) == Some("")
  {
    assert CookieSegments(name) == [name];
    CookiePieceRoundTrip(name);
  }

  /** The claims of a verified token that the mapping reads; a claim that is
      not a string (or string array, for `roles`) is outside the model. */
  datatype Claims = Claims(
    sub: Option<string>,
    userDataEmail: Option<string>,
    email: Option<string>,
    deviceId: Option<string>,
    roles: Option<seq<string>>,
    tenant: Option<string>,
    tenantIdClaim: Option<string>,
    sessionId: Option<string>)

  datatype CurrentUser = CurrentUser(
    id: string,
    email: Option<string>,
    roles: Option<seq<string>>,
    tenantId: Option<string>,
    active: bool,
    sessionId: Option<string>,
    deviceId: Option<string>)

  datatype AuthError = InvalidToken | MissingIdentifier

  /** `jwt.verify` with the configured secret and options: the decoded claims,
      or `None` when it throws. */
  type Verifier = string -> Option<Claims>

  /** Falsy strings become absent, as `x || undefined` does. */
  function Truthy(s: Option<string>): (r: Option<string>)
    ensures r.Some? <==> Js.Present(s)
    ensures r.Some? ==> r == s
  {
    if Js.Present(s) then s else None
  }

  /** The claim-to-user mapping half of `verifyJwtToken`. */
  function MapClaims(c: Claims): (r: Result<CurrentUser, AuthError>)
    ensures r.Failure? <==> !Js.Present(c.sub) && !Js.Present(c.userDataEmail)
                            && !Js.Present(c.email) && !Js.Present(c.deviceId)
    ensures r.Failure? ==> r.error == MissingIdentifier
    ensures Js.Present(c.sub) ==> r.Success? && r.value.id == c.sub.value
    ensures !Js.Present(c.sub) && Js.Present(c.userDataEmail) ==> r.Success? && r.value.id == c.userDataEmail.value
    ensures !Js.Present(c.sub) && !Js.Present(c.userDataEmail) && Js.Present(c.email) ==>
              r.Success? && r.value.id == c.email.value
    ensures !Js.Present(c.sub) && !Js.Present(c.userDataEmail) && !Js.Present(c.email) && Js.Present(c.deviceId) ==>
              r.Success? && r.value.id == c.deviceId.value
    ensures r.Success? ==> r.value.id != "" && r.value.active
    ensures r.Success? ==> r.value.email == Js.Or(c.userDataEmail, c.email)
    ensures r.Success? ==> r.value.tenantId == Js.Or(c.tenant, c.tenantIdClaim)
    ensures r.Success? ==> r.value.roles == c.roles
    ensures r.Success? ==> r.value.sessionId == Truthy(c.sessionId) && r.value.deviceId == Truthy(c.deviceId)
  {
    var email := Js.Or(c.userDataEmail, c.email);
    var deviceId := Truthy(c.deviceId);
    var id := Js.Or(Js.Or(c.sub, email), deviceId);
    if id.None? then Failure(MissingIdentifier)
    else Success(CurrentUser(id.value, email, c.roles, Js.Or(c.tenant, c.tenantIdClaim),
                             true, Truthy(c.sessionId), deviceId))
  }

  /** `verifyJwtToken`: a failed verification is rethrown (`InvalidToken`),
      never turned into a user; verified claims go through `MapClaims`. */
  function VerifyJwtToken(token: string, verify: Verifier): (r: Result<CurrentUser, AuthError>)
    ensures verify(token).None? ==> r == Failure(InvalidToken)
    ensures verify(token).Some? ==> r == MapClaims(verify(token).value)
    ensures r.Success? ==> verify(token).Some? && r.value.id != "" && r.value.active
  {
    match verify(token)
    case None => Failure(InvalidToken)
    case Some(c) => MapClaims(c)
  }
}

=== FILE: strings.dfy ===
/** String primitives with the semantics of the JavaScript built-ins the
    dashboard relies on: `split`, `join`, `trim`, `startsWith`,
    `replace(/\/$/, "")`, ASCII case mapping and decimal rendering. */
module Strings {

  /** The characters JavaScript's `trim()` and the regex class `\s` treat as
      white space: the ECMAScript WhiteSpace and LineTerminator productions. */
  predicate IsWhitespace(c: char) {
    c in {'\t', '\n', '\U{000B}', '\U{000C}', '\r', ' ', '\U{00A0}', '\U{1680}',
          '\U{2000}', '\U{2001}', '\U{2002}', '\U{2003}', '\U{2004}', '\U{2005}',
          '\U{2006}', '\U{2007}', '\U{2008}', '\U{2009}', '\U{200A}', '\U{2028}',
          '\U{2029}', '\U{202F}', '\U{205F}', '\U{3000}', '\U{FEFF}'}
  }

  predicate IsBlank(s: string) {
    forall i :: 0 <= i < |s| ==> IsWhitespace(s[i])
  }

  /** Drops the longest all-white-space prefix. */
  function TrimStart(s: string): (r: string)
    ensures |r| <= |s| && r == s[|s| - |r|..]
    ensures IsBlank(s[..|s| - |r|])
    ensures r == [] || !IsWhitespace(r[0])
  {
    if |s| > 0 && IsWhitespace(s[0]) then
      var r := TrimStart(s[1..]);
      assert IsBlank(s[..|s| - |r|]) by {
        assert s[..|s| - |r|] == [s[0]] + s[1..][..|s[1..]| - |r|];
      }
      r
    else s
  }

  /** Drops the longest all-white-space suffix. */
  function TrimEnd(s: string): (r: string)
    ensures |r| <= |s| && r == s[..|r|]
    ensures IsBlank(s[|r|..])
    ensures r == [] || !IsWhitespace(r[|r| - 1])
  {
    if |s| > 0 && IsWhitespace(s[|s| - 1]) then
      var r := TrimEnd(s[..|s| - 1]);
      assert IsBlank(s[|r|..]) by {
        assert s[|r|..] == s[..|s| - 1][|r|..] + [s[|s| - 1]];
      }
      r
    else s
  }

  /** JavaScript `String.prototype.trim`. */
  function Trim(s: string): (r: string)
    ensures |r| <= |s|
    ensures r == [] || (!IsWhitespace(r[0]) && !IsWhitespace(r[|r| - 1]))
  {
    TrimEnd(TrimStart(s))
  }

  /** Trimming keeps a contiguous slice and removes only white space around it. */
  lemma TrimSlice(s: string)
    ensures exists i, j :: 0 <= i <= j <= |s| && Trim(s) == s[i..j] && IsBlank(s[..i]) && IsBlank(s[j..])
  {
    var t := TrimStart(s);
    var r := TrimEnd(t);
    var i := |s| - |t|;
    var j := i + |r|;
    assert r == s[i..j] by {
      assert t == s[i..];
      assert r == t[..|r|];
    }
    assert IsBlank(s[..i]);
    assert IsBlank(s[j..]) by {
      assert s[j..] == t[|r|..];
    }
  }

  /** A string with no white space at either end is unchanged by trimming. */
  lemma TrimNoOp(s: string)
    requires s != [] && !IsWhitespace(s[0]) && !IsWhitespace(s[|s| - 1])
    ensures Trim(s) == s
  {
    assert TrimStart(s) == s;
  }

  /** A string is empty after trimming exactly when it is all white space. */
  lemma TrimEmptyIffBlank(s: string)
    ensures Trim(s) == [] <==> IsBlank(s)
  {
    var t := TrimStart(s);
    if Trim(s) == [] {
      assert IsBlank(t[0..]) by { assert t[0..] == t; }
      forall k | 0 <= k < |s| ensures IsWhitespace(s[k]) {
        if k >= |s| - |t| {
          assert s[k] == t[k - (|s| - |t|)];
        } else {
          assert s[k] == s[..|s| - |t|][k];
        }
      }
    } else {
      TrimSlice(s);
    }
  }

  /** Position of the first occurrence of `c`. */
  function IndexOf(s: string, c: char): (k: nat)
    requires c in s
    ensures k < |s| && s[k] == c && c !in s[..k]
  {
    if s[0] == c then 0
    else
      var k := 1 + IndexOf(s[1..], c);
      assert s[..k] == [s[0]] + s[1..][..k - 1];
      k
  }

  /** The first `c` after a `c`-free prefix is the one right after it. */
  lemma {:induction false} IndexOfAfterPrefix(a: string, c: char, rest: string)
    requires c !in a
    ensures IndexOf(a + [c] + rest, c) == |a|
  {
    if |a| > 0 {
      assert (a + [c] + rest)[1..] == a[1..] + [c] + rest;
      IndexOfAfterPrefix(a[1..], c, rest);
    }
  }

  /** JavaScript `s.split(sep)` for a one-character separator: the maximal
      separator-free pieces, in order; splitting "" gives [""]. */
  function Split(s: string, sep: char): (parts: seq<string>)
    ensures |parts| >= 1
    ensures forall i :: 0 <= i < |parts| ==> sep !in parts[i]
    ensures |parts| == 1 <==> sep !in s
    ensures sep in s ==> parts[0] == s[..IndexOf(s, sep)]
    decreases |s|
  {
    if sep !in s then [s]
    else
      var k := IndexOf(s, sep);
      [s[..k]] + Split(s[k + 1..], sep)
  }

  /** JavaScript `parts.join(sep)`. */
  function Join(parts: seq<string>, sep: string): string {
    if |parts| == 0 then ""
    else if |parts| == 1 then parts[0]
    else parts[0] + sep + Join(parts[1..], sep)
  }

  /** Splitting and re-joining with the same separator gives back the input. */
  lemma {:induction false} JoinSplit(s: string, sep: char)
    ensures Join(Split(s, sep), [sep]) == s
    decreases |s|, 1
  {
    if sep in s {
      JoinSplitStep(s, sep);
    } else {
      JoinSplitWhole(s, sep);
    }
  }

  lemma JoinSplitWhole(s: string, sep: char)
    requires sep !in s
    ensures Join(Split(s, sep), [sep]) == s
  {
    assert Split(s, sep) == [s];
  }

  lemma {:induction false} JoinSplitStep(s: string, sep: char)
    requires sep in s
    ensures Join(Split(s, sep), [sep]) == s
    decreases |s|, 0
  {
    var k := IndexOf(s, sep);
    JoinSplit(s[k + 1..], sep);
    SplitCons(s, sep);
    JoinCons(s[..k], Split(s[k + 1..], sep), [sep]);
    SliceAround(s, k);
  }

  /** Splitting after a separator-free prefix yields that prefix first. */
  lemma SplitAfter(a: string, sep: char, b: string)
    requires sep !in a
    ensures Split(a + [sep] + b, sep) == [a] + Split(b, sep)
  {
    var s := a + [sep] + b;
    IndexOfAfterPrefix(a, sep, b);
    SplitCons(s, sep);
    assert s[..|a|] == a && s[|a| + 1..] == b;
  }

  /** A string is the part before an index, the character there, and the rest. */
  lemma SliceAround(s: string, k: nat)
    requires k < |s|
    ensures s == s[..k] + [s[k]] + s[k + 1..]
  {
  }

  /** Splitting peels off the piece before the first separator. */
  lemma SplitCons(s: string, sep: char)
    requires sep in s
    ensures Split(s, sep) == [s[..IndexOf(s, sep)]] + Split(s[IndexOf(s, sep) + 1..], sep)
  {
  }

  /** Joining a non-empty tail after a head puts one separator between them. */
  lemma JoinCons(x: string, xs: seq<string>, sep: string)
    requires |xs| > 0
    ensures Join([x] + xs, sep) == x + sep + Join(xs, sep)
  {
    assert ([x] + xs)[1..] == xs;
  }

  lemma SplitRestJoin(s: string, sep: char)
    ensures sep in s ==> Join(Split(s, sep)[1..], [sep]) == s[IndexOf(s, sep) + 1..]
    ensures sep !in s ==> Join(Split(s, sep)[1..], [sep]) == ""
  {
    if sep in s {
      var k := IndexOf(s, sep);
      assert Split(s, sep)[1..] == Split(s[k + 1..], sep);
      JoinSplit(s[k + 1..], sep);
    }
  }

  /** Joining separator-free pieces and splitting again gives the pieces. */
  lemma {:induction false} SplitJoin(parts: seq<string>, sep: char)
    requires |parts| >= 1
    requires forall i :: 0 <= i < |parts| ==> sep !in parts[i]
    ensures Split(Join(parts, [sep]), sep) == parts
    decreases |parts|
  {
    if |parts| > 1 {
      var rest := Join(parts[1..], [sep]);
      var s := parts[0] + [sep] + rest;
      assert Join(parts, [sep]) == s;
      assert s[|parts[0]|] == sep;
      var k := IndexOf(s, sep);
      assert s[..|parts[0]|] == parts[0];
      assert k == |parts[0]|;
      assert s[k + 1..] == rest;
      SplitJoin(parts[1..], sep);
    }
  }

  /** JavaScript `s.startsWith(p)`. */
  predicate StartsWith(s: string, p: string) {
    |p| <= |s| && s[..|p|] == p
  }

  /** `s.replace(/\/$/, "")`: removes exactly one trailing slash, if any. */
  function StripTrailingSlash(s: string): (r: string)
    ensures |s| > 0 && s[|s| - 1] == '/' ==> s == r + "/"
    ensures (|s| == 0 || s[|s| - 1] != '/') ==> r == s
  {
    if |s| > 0 && s[|s| - 1] == '/' then s[..|s| - 1] else s
  }

  predicate IsAsciiUpper(c: char) { 'A' <= c <= 'Z' }
  predicate IsAsciiLower(c: char) { 'a' <= c <= 'z' }

  /** ASCII-only lower-casing; every other character is left alone. */
  function LowerChar(c: char): (r: char)
    ensures !IsAsciiUpper(r)
    ensures IsAsciiUpper(c) ==> r as int == c as int + 32
    ensures !IsAsciiUpper(c) ==> r == c
  {
    if IsAsciiUpper(c) then (c as int + 32) as char else c
  }

  /** ASCII-only upper-casing; every other character is left alone. */
  function UpperChar(c: char): (r: char)
    ensures !IsAsciiLower(r)
    ensures IsAsciiLower(c) ==> r as int == c as int - 32
    ensures !IsAsciiLower(c) ==> r == c
  {
    if IsAsciiLower(c) then (c as int - 32) as char else c
  }

  function ToLower(s: string): (r: string)
    ensures |r| == |s|
    ensures forall i :: 0 <= i < |s| ==> r[i] == LowerChar(s[i])
  {
    seq(|s|, i requires 0 <= i < |s| => LowerChar(s[i]))
  }

  /** Lower-casing leaves a string without ASCII capitals unchanged. */
  lemma ToLowerNoCapitals(s: string)
    requires forall i :: 0 <= i < |s| ==> !IsAsciiUpper(s[i])
    ensures ToLower(s) == s
  {
  }

  function ToUpper(s: string): (r: string)
    ensures |r| == |s|
    ensures forall i :: 0 <= i < |s| ==> r[i] == UpperChar(s[i])
  {
    seq(|s|, i requires 0 <= i < |s| => UpperChar(s[i]))
  }

  predicate IsDigit(c: char) { '0' <= c <= '9' }

  predicate AllDigits(s: string) {
    forall i :: 0 <= i < |s| ==> IsDigit(s[i])
  }

  function DigitChar(d: nat): (c: char)
    requires d < 10
    ensures IsDigit(c) && c as int - '0' as int == d
  {
    ('0' as int + d) as char
  }

  /** Decimal rendering of a natural number, as `String(n)` prints it. */
  function NatToString(n: nat): (r: string)
    ensures |r| >= 1 && AllDigits(r)
    ensures n >= 10 ==> r[0] != '0'
  {
    if n < 10 then [DigitChar(n)] else NatToString(n / 10) + [DigitChar(n % 10)]
  }

  /** Decimal rendering of an integer, with a leading '-' when negative. */
  function IntToString(n: int): (r: string)
    ensures |r| >= 1
    ensures n >= 0 ==> AllDigits(r)
    ensures n < 0 ==> r[0] == '-' && AllDigits(r[1..])
  {
    if n < 0 then "-" + NatToString(-n) else NatToString(n)
  }

  /** Value of a string of decimal digits. */
  function ParseDecimal(s: string): nat
    requires AllDigits(s)
  {
    if |s| == 0 then 0
    else ParseDecimal(s[..|s| - 1]) * 10 + (s[|s| - 1] as int - '0' as int)
  }

  /** Rendering then parsing a natural number gives it back. */
  lemma {:induction false} ParseNatToString(n: nat)
    ensures ParseDecimal(NatToString(n)) == n
  {
    if n >= 10 {
      var r := NatToString(n);
      assert r[..|r| - 1] == NatToString(n / 10);
      ParseNatToString(n / 10);
    }
  }
}

=== FILE: tags_cache.dfy ===
/** The client's tag cache (src/store/tags.ts): fetches `/api/tools/tags`
    at most once every five minutes; any failure, a non-ok status included,
    is recorded as an error message and keeps the previous tags. */
module TagsCache {
  import opened Wrappers
  import opened Http
  import Strings
  import opened TtlCache
  import ToolStore

  const TtlMs: int := 5 * 60 * 1000

  type TagsState = Cache<seq<ToolStore.Tag>>

  /** Everything after `set({ loading: true, error: null })`: a non-ok
      status is thrown as `String(status)`. */
  function Complete(c: TagsState, now: int, f: Fetched<seq<ToolStore.Tag>>): (r: TagsState)
    ensures !r.loading && r.lastFetchedAt == Some(now)
    ensures f.Response? && IsOk(f.status) && f.body.Success? ==> r.data == f.body.value && r.error == c.error
    ensures f.Response? && !IsOk(f.status) ==> r.data == c.data && r.error == Some(Strings.IntToString(f.status))
    ensures f.Rejected? ==> r.data == c.data && r.error == Some(f.message)
    ensures f.Response? && IsOk(f.status) && f.body.Failure? ==> r.data == c.data && r.error == Some(f.body.error)
  {
    match f
    case Rejected(message) => Fail(c, message, now)
    case Response(status, _, body) =>
      if !IsOk(status) then Fail(c, Strings.IntToString(status), now)
      else if body.Failure? then Fail(c, body.error, now)
      else Settle(c, body.value, now)
  }

  /** `fetchIfNeeded`. */
  function FetchIfNeeded(c: TagsState, now: int, f: Fetched<seq<ToolStore.Tag>>): (r: TagsState)
    ensures Begin(c, now, TtlMs).None? ==> r == c
    ensures Begin(c, now, TtlMs).Some? ==> !r.loading && r.lastFetchedAt == Some(now)
    ensures Begin(c, now, TtlMs).Some? ==> (r.error.None? <==> f.Response? && IsOk(f.status) && f.body.Success?)
    ensures Begin(c, now, TtlMs).Some? && r.error.None? ==> r.data == f.body.value
    ensures r.data != c.data ==> r.error.None? && r.lastFetchedAt == Some(now)
  {
    TtlCache.FetchIfNeeded(c, now, TtlMs, b => Complete(b, now, f))
  }

  /** `forceRefresh`: clear the stamp, then fetch if nothing is in flight.
      Every failure, a 401 or 403 included, keeps the tags and records the
      status. */
  function ForceRefresh(c: TagsState, now: int, f: Fetched<seq<ToolStore.Tag>>): (r: TagsState)
    ensures c.loading ==> r == Invalidate(c)
    ensures !c.loading ==> !r.loading && r.lastFetchedAt == Some(now)
    ensures !c.loading && f.Response? && !IsOk(f.status) ==>
              r.data == c.data && r.error == Some(Strings.IntToString(f.status))
  {
    TtlCache.ForceRefresh(c, now, TtlMs, b => Complete(b, now, f))
  }

  /** A forced refresh that succeeds holds exactly the tags delivered, even
      when the cache was fresh. */
  lemma ForceRefreshIgnoresTtl(c: TagsState, now: int, tags: seq<ToolStore.Tag>, text: string)
    requires !c.loading
    ensures ForceRefresh(c, now, Response(OK, text, Success(tags))) == Cache(tags, false, None, Some(now))
  {
    InvalidateForcesFetch(c, now, TtlMs);
  }

  /** A failed fetch keeps the tags shown before and records why. */
  lemma FailureKeepsTags(c: TagsState, now: int, status: int, text: string, body: Result<seq<ToolStore.Tag>, string>)
    requires !c.loading && !IsOk(status)
    ensures var r := ForceRefresh(c, now, Response(status, text, body));
            r.data == c.data && r.error == Some(Strings.IntToString(status))
  {
    InvalidateForcesFetch(c, now, TtlMs);
  }
}

=== FILE: tags_list.dfy ===
/** The tag strip of an agent card (src/components/ui/TagsList.tsx): the
    first few tags, a "+N" badge counting the rest, and highlighting of the
    tags selected in the library filter. */
module TagsList {
  import opened Wrappers

  /** The default of `maxVisibleTags`. */
  const DefaultMax: int := 3

  /** One rendered tag and whether it is drawn as selected. */
  datatype Badge = Badge(tag: string, highlighted: bool)

  /** What the component renders: the visible badges, the number behind the
      "+N" badge and whether that badge is drawn, and the full list that
      appears while the mouse rests on it (empty otherwise). */
  datatype View = View(visible: seq<Badge>, hiddenCount: int, moreBadge: bool, popup: seq<Badge>)

  /** The end index `slice(0, end)` stops at: a negative end counts back
      from the length, and the result is clamped to `0..len`. */
  function SliceEnd(len: nat, end: int): (e: nat)
    ensures e <= len
    ensures 0 <= end <= len ==> e == end
    ensures end > len ==> e == len
    ensures end < 0 ==> e == (if len + end > 0 then len + end else 0)
  {
    if end < 0 then (if len + end > 0 then len + end else 0)
    else if end < len then end
    else len
  }

  /** `selectedTags.includes(tag)` decides the badge's colour. */
  function Badges(tags: seq<string>, selected: seq<string>): (r: seq<Badge>)
    ensures |r| == |tags|
    ensures forall i :: 0 <= i < |r| ==> r[i].tag == tags[i] && (r[i].highlighted <==> tags[i] in selected)
  {
    seq(|tags|, i requires 0 <= i < |tags| => Badge(tags[i], tags[i] in selected))
  }

  /** The component: nothing for an empty list; otherwise the first
      `maxVisibleTags` tags (3 when the prop is omitted), with
      `hiddenCount = tags.length - maxVisibleTags` and the "+N" badge exactly
      when that count is positive. */
  function Render(tags: seq<string>, maxVisible: Option<int>, selected: Option<seq<string>>, showAll: bool): (v: Option<View>)
    ensures v.None? <==> |tags| == 0
    ensures v.Some? ==> |v.value.visible| <= |tags|
    ensures v.Some? ==> forall i :: 0 <= i < |v.value.visible| ==> v.value.visible[i].tag == tags[i]
    ensures v.Some? && maxVisible.GetOr(DefaultMax) >= 0 ==>
              |v.value.visible| == (if maxVisible.GetOr(DefaultMax) < |tags| then maxVisible.GetOr(DefaultMax) else |tags|)
    ensures v.Some? ==> v.value.hiddenCount == |tags| - maxVisible.GetOr(DefaultMax)
    ensures v.Some? ==> (v.value.moreBadge <==> v.value.hiddenCount > 0)
    ensures v.Some? ==> forall b :: b in v.value.visible || b in v.value.popup ==>
              (b.highlighted <==> b.tag in selected.GetOr([]))
    ensures v.Some? ==> (v.value.popup != [] <==> v.value.moreBadge && showAll)
    ensures v.Some? && v.value.popup != [] ==>
              |v.value.popup| == |tags| && forall i :: 0 <= i < |tags| ==> v.value.popup[i].tag == tags[i]
  {
    if |tags| == 0 then None
    else
      var max := maxVisible.GetOr(DefaultMax);
      var sel := selected.GetOr([]);
      var all := Badges(tags, sel);
      var hidden := |tags| - max;
      var visible := all[..SliceEnd(|tags|, max)];
      Some(View(visible, hidden, hidden > 0, if hidden > 0 && showAll then all else []))
  }

  /** With the default, a long list shows its first three tags and counts
      the rest. */
  lemma DefaultShowsThree(tags: seq<string>)
    requires |tags| > DefaultMax
    ensures var v := Render(tags, None, None, false).value;
            && |v.visible| == 3
            && (forall i :: 0 <= i < 3 ==> v.visible[i] == Badge(tags[i], false))
            && v.hiddenCount == |tags| - 3 && v.moreBadge
  {
  }

  /** For a non-negative limit, the visible tags and the "+N" count add up to
      the whole list whenever the badge is drawn, and without the badge every
      tag is visible. */
  lemma VisiblePlusHidden(tags: seq<string>, max: int, selected: Option<seq<string>>, showAll: bool)
    requires |tags| > 0 && max >= 0
    ensures var v := Render(tags, Some(max), selected, showAll).value;
            && (v.moreBadge ==> |v.visible| + v.hiddenCount == |tags|)
            && (!v.moreBadge ==> |v.visible| == |tags|)
  {
  }

  /** A negative limit counts from the end in `slice` but not in the "+N"
      arithmetic: two tags with a limit of -1 show one tag and claim three
      more. */
  lemma NegativeLimitOvercounts()
    ensures var v := Render(["a", "b"], Some(-1), None, false).value;
            |v.visible| == 1 && v.hiddenCount == 3 && |v.visible| + v.hiddenCount != 2
  {
  }
}

=== FILE: tool_store.dfy ===
/** The database as the tool routes see it: an immutable snapshot of user
    roles, tags, the tools registry, the three kinds of tool profile and the
    security keys. A write either yields the next snapshot or fails; the
    failures the routes tell apart (a unique clash, a missing row) are read
    off the snapshot, every other failure is the `fault` flag of `WriteEnv`.
    Transactions are atomic: a failed write leaves the snapshot unchanged. */
module ToolStore {
  import opened Wrappers
  import opened Http

  datatype ToolType = HardCoded | N8n | Dust

  /** The enum's database spelling. */
  function ToolTypeName(t: ToolType): string {
    match t
    case HardCoded => "HARD_CODED"
    case N8n => "N8N"
    case Dust => "DUST"
  }

  /** Reading a type name back; anything else is not a valid enum value. */
  function ParseToolType(s: string): (r: Option<ToolType>)
    ensures r.Some? ==> ToolTypeName(r.value) == s
    ensures (exists t :: ToolTypeName(t) == s) ==> r.Some?
  {
    if s == "HARD_CODED" then Some(HardCoded)
    else if s == "N8N" then Some(N8n)
    else if s == "DUST" then Some(Dust)
    else None
  }

  datatype Tag = Tag(id: string, name: string)

  datatype RegistryRow = RegistryRow(
    id: string,
    explicitCallName: string,
    readableName: string,
    description: Option<string>,
    toolType: ToolType,
    tags: seq<Tag>,
    createdAt: int)

  datatype HardcodedTool = HardcodedTool(id: string, notes: Option<string>)

  datatype N8nTool = N8nTool(
    id: string,
    externalUrl: string,
    securityKeyId: string,
    returnDirect: bool,
    isIsolated: bool,
    streamIfSingleTool: bool,
    flashAnswerNeeded: bool,
    timeoutSeconds: int)

  datatype DustTool = DustTool(
    id: string,
    dustWorkspaceSid: string,
    dustAgentSid: string,
    securityKeyId: string,
    returnDirect: bool,
    isIsolated: bool,
    streamIfSingleTool: bool,
    apiTimeoutSeconds: int,
    messageEventsTimeoutSeconds: int,
    conversationEventsTimeoutSeconds: int)

  /** A tool profile of one of the three kinds; it shares its registry row's id. */
  datatype Profile =
    | HardcodedProfile(hardcoded: HardcodedTool)
    | N8nProfile(n8n: N8nTool)
    | DustProfile(dust: DustTool)
  {
    function Id(): string {
      match this
      case HardcodedProfile(h) => h.id
      case N8nProfile(n) => n.id
      case DustProfile(d) => d.id
    }

    function Kind(): ToolType {
      match this
      case HardcodedProfile(_) => HardCoded
      case N8nProfile(_) => N8n
      case DustProfile(_) => Dust
    }
  }

  datatype SecurityKey = SecurityKey(
    id: string,
    systemName: string,
    description: Option<string>,
    createdByUserId: string,
    createdAt: int)

  datatype Store = Store(
    userRoles: map<string, seq<string>>,
    tags: seq<Tag>,
    registry: seq<RegistryRow>,
    hardcoded: seq<HardcodedTool>,
    n8n: seq<N8nTool>,
    dust: seq<DustTool>,
    keys: seq<SecurityKey>)

  /** What the database supplies to a write besides the data: the generated
      id, the current time, and whether the write fails for a reason the
      snapshot does not show. */
  datatype WriteEnv = WriteEnv(newId: string, now: int, fault: bool)

  /** A route's effect: what the handler did, and the snapshot afterwards. */
  datatype Outcome<+T> = Outcome(handled: Handled<T>, store: Store)

  /** The role names assigned to a user. */
  function RolesOf(s: Store, userId: string): (r: seq<string>)
    ensures userId !in s.userRoles ==> r == []
    ensures userId in s.userRoles ==> r == s.userRoles[userId]
  {
    if userId in s.userRoles then s.userRoles[userId] else []
  }

  /** The route-local `isAdmin`: some role of the user is named ADMIN. */
  function IsAdmin(s: Store, userId: string): (r: bool)
    ensures r ==> userId in s.userRoles
    ensures r <==> exists i :: 0 <= i < |RolesOf(s, userId)| && RolesOf(s, userId)[i] == "ADMIN"
  {
    "ADMIN" in RolesOf(s, userId)
  }

  predicate TagExists(s: Store, id: string) {
    exists i :: 0 <= i < |s.tags| && s.tags[i].id == id
  }

  /** `tagIds.filter(id => !existing.has(id))`. */
  function MissingTagIds(s: Store, ids: seq<string>): (r: seq<string>)
    ensures forall x :: x in r <==> x in ids && !TagExists(s, x)
    ensures |r| == 0 <==> forall i :: 0 <= i < |ids| ==> TagExists(s, ids[i])
  {
    if |ids| == 0 then []
    else if TagExists(s, ids[0]) then MissingTagIds(s, ids[1..])
    else [ids[0]] + MissingTagIds(s, ids[1..])
  }

  /** The tag rows for ids that all exist, in the order given. */
  function TagsFor(s: Store, ids: seq<string>): (r: seq<Tag>)
    requires forall i :: 0 <= i < |ids| ==> TagExists(s, ids[i])
    ensures |r| == |ids|
    ensures forall i :: 0 <= i < |ids| ==> r[i].id == ids[i] && r[i] in s.tags
  {
    if |ids| == 0 then []
    else
      assert TagExists(s, ids[0]);
      [FindFirst(s.tags, (t: Tag) => t.id, ids[0]).value] + TagsFor(s, ids[1..])
  }

  /** The first row whose key is `id`: `find`, or `findUnique` on a key
      column. */
  function FindFirst<T>(rows: seq<T>, key: T -> string, id: string): (r: Option<T>)
    ensures r.Some? ==> r.value in rows && key(r.value) == id
    ensures r.None? <==> forall i :: 0 <= i < |rows| ==> key(rows[i]) != id
  {
    if |rows| == 0 then None
    else if key(rows[0]) == id then Some(rows[0])
    else
      var r := FindFirst(rows[1..], key, id);
      assert forall i :: 1 <= i < |rows| ==> rows[i] == rows[1..][i - 1];
      r
  }

  /** `findUnique({ where: { id } })` on the registry. */
  function FindRegistry(s: Store, id: string): (r: Option<RegistryRow>)
    ensures r.Some? ==> r.value in s.registry && r.value.id == id
    ensures r.None? <==> forall i :: 0 <= i < |s.registry| ==> s.registry[i].id != id
  {
    FindFirst(s.registry, (row: RegistryRow) => row.id, id)
  }

  /** The explicit call name is already taken: the unique constraint fires. */
  predicate NameTaken(s: Store, name: string) {
    exists i :: 0 <= i < |s.registry| && s.registry[i].explicitCallName == name
  }

  /** A security key's system name is already taken. */
  predicate SystemNameTaken(s: Store, name: string) {
    exists i :: 0 <= i < |s.keys| && s.keys[i].systemName == name
  }

  /** A profile of some kind already uses this id (its primary key). */
  predicate HasHardcoded(s: Store, id: string) {
    exists i :: 0 <= i < |s.hardcoded| && s.hardcoded[i].id == id
  }

  predicate HasN8n(s: Store, id: string) {
    exists i :: 0 <= i < |s.n8n| && s.n8n[i].id == id
  }

  predicate HasDust(s: Store, id: string) {
    exists i :: 0 <= i < |s.dust| && s.dust[i].id == id
  }

  /** Total number of profiles of all kinds. */
  function ProfileCount(s: Store): nat {
    |s.hardcoded| + |s.n8n| + |s.dust|
  }

  /** The snapshot with one more profile, in the table of its kind. */
  function AddProfile(s: Store, p: Profile): (r: Store)
    ensures ProfileCount(r) == ProfileCount(s) + 1
    ensures r.userRoles == s.userRoles && r.tags == s.tags && r.registry == s.registry && r.keys == s.keys
    ensures p.HardcodedProfile? ==> r.hardcoded == s.hardcoded + [p.hardcoded] && r.n8n == s.n8n && r.dust == s.dust
    ensures p.N8nProfile? ==> r.n8n == s.n8n + [p.n8n] && r.hardcoded == s.hardcoded && r.dust == s.dust
    ensures p.DustProfile? ==> r.dust == s.dust + [p.dust] && r.hardcoded == s.hardcoded && r.n8n == s.n8n
  {
    match p
    case HardcodedProfile(h) => s.(hardcoded := s.hardcoded + [h])
    case N8nProfile(n) => s.(n8n := s.n8n + [n])
    case DustProfile(d) => s.(dust := s.dust + [d])
  }

  /** An error reply that left the database as it was. */
  function Refuse<T>(s: Store, status: int, code: string): (o: Outcome<T>)
    ensures o.store == s && o.handled == Returned(Error(status, code))
  {
    Outcome(Returned(Error(status, code)), s)
  }
}

=== FILE: tools_route.dfy ===
/** The unified tool-creation endpoint (`POST /api/tools`,
    src/app/api/tools/route.ts): validates the body, forces non-admins to
    HARD_CODED, checks the tag ids, and creates the registry row and the one
    profile of the effective type in a single transaction. */
module ToolsRoute {
  import opened Wrappers
  import opened Http
  import opened Js
  import Strings
  import opened ToolStore

  /** `String(body.key || "").trim()`. */
  function TrimmedField(body: Option<JVal>, key: string): (r: string)
    ensures !TruthyOpt(Get(body, key)) ==> r == ""
    ensures TruthyOpt(Get(body, key)) ==> r == Strings.Trim(ToStr(Get(body, key).value))
    ensures |r| <= |StrOrEmpty(Get(body, key))|
  {
    Strings.Trim(StrOrEmpty(Get(body, key)))
  }

  /** The tool type asked for: `tool_type || "HARD_CODED"`, or a value the
      database enum will reject. */
  datatype TypeChoice = Valid(t: ToolType) | Invalid

  function RequestedType(v: Option<JVal>): (c: TypeChoice)
    ensures !TruthyOpt(v) ==> c == Valid(HardCoded)
    ensures TruthyOpt(v) && c.Valid? ==> v.value == JStr(ToolTypeName(c.t))
    ensures TruthyOpt(v) && c.Invalid? ==> forall t :: v.value != JStr(ToolTypeName(t))
  {
    if !TruthyOpt(v) then Valid(HardCoded)
    else if v.value.JStr? && ParseToolType(v.value.s).Some? then Valid(ParseToolType(v.value.s).value)
    else Invalid
  }

  /** A non-admin's request is always treated as HARD_CODED. */
  function EffectiveType(requested: TypeChoice, admin: bool): (c: TypeChoice)
    ensures !admin ==> c == Valid(HardCoded)
    ensures admin ==> c == requested
  {
    if admin then requested else Valid(HardCoded)
  }

  /** `Array.isArray(tag_ids) ? tag_ids.map(String) : []`. */
  function TagIdsOf(v: Option<JVal>): (ids: seq<string>)
    ensures !(v.Some? && v.value.JList?) ==> ids == []
    ensures v.Some? && v.value.JList? ==>
              |ids| == |v.value.items| && forall i :: 0 <= i < |ids| ==> ids[i] == ToStr(v.value.items[i])
  {
    if v.Some? && v.value.JList? then
      seq(|v.value.items|, i requires 0 <= i < |v.value.items| => ToStr(v.value.items[i]))
    else []
  }

  /** `body.profile || {}`. */
  function ProfileOf(v: Option<JVal>): (p: JVal)
    ensures TruthyOpt(v) ==> p == v.value
    ensures !TruthyOpt(v) ==> p == JObj(map[])
  {
    if TruthyOpt(v) then v.value else JObj(map[])
  }

  /** A profile field, `undefined` when the profile is not an object. */
  function PField(profile: JVal, key: string): Option<JVal> {
    Get(Some(profile), key)
  }

  /** The per-type check on the profile: N8N needs an external URL and a key,
      DUST a workspace, an agent and a key; HARD_CODED needs nothing. */
  predicate ProfileComplete(t: TypeChoice, profile: JVal) {
    match t
    case Valid(N8n) =>
      TruthyOpt(PField(profile, "external_url")) && TruthyOpt(PField(profile, "security_key_id"))
    case Valid(Dust) =>
      TruthyOpt(PField(profile, "dust_workspace_sid")) && TruthyOpt(PField(profile, "dust_agent_sid"))
      && TruthyOpt(PField(profile, "security_key_id"))
    case _ => true
  }

  /** `Number(x ?? d)`; `None` is NaN, which the integer column rejects. */
  function NumberOr(v: Option<JVal>, d: int): (r: Option<int>)
    ensures v.None? || v == Some(JNull) ==> r == Some(d)
    ensures v.Some? && v.value.JNum? ==> r == Some(v.value.n)
  {
    ToNumber(Nullish(v, JNum(d)))
  }

  /** The profile row the transaction writes, or `None` when one of its
      values is rejected by the column type: notes that are neither a string
      nor falsy, or a timeout that is not a number. Strings are stored
      as `String(x)` (the route has already refused a falsy one, so an
      absent field never reaches this point), flags as their truthiness, and
      absent timeouts as 30 (API, conversation, N8N) or 180 (message
      events). */
  function BuildProfile(t: ToolType, profile: JVal, id: string): (r: Option<Profile>)
    ensures r.Some? ==> r.value.Kind() == t && r.value.Id() == id
    ensures t == HardCoded ==> (r.None? <==> StringOrNull(PField(profile, "notes")).None?)
    ensures t == HardCoded && r.Some? ==> r.value.hardcoded.notes == StringOrNull(PField(profile, "notes")).value
    ensures t == N8n ==> (r.None? <==> NumberOr(PField(profile, "timeout_seconds"), 30).None?)
    ensures t == N8n && r.Some? ==>
              var n := r.value.n8n;
              && n.externalUrl == ToStr(Nullish(PField(profile, "external_url"), JNull))
              && n.securityKeyId == ToStr(Nullish(PField(profile, "security_key_id"), JNull))
              && n.returnDirect == TruthyOpt(PField(profile, "return_direct"))
              && n.isIsolated == TruthyOpt(PField(profile, "is_isolated"))
              && n.streamIfSingleTool == TruthyOpt(PField(profile, "stream_if_single_tool"))
              && n.flashAnswerNeeded == TruthyOpt(PField(profile, "flash_answer_needed"))
              && n.timeoutSeconds == NumberOr(PField(profile, "timeout_seconds"), 30).value
    ensures t == Dust ==>
              (r.None? <==> (|| NumberOr(PField(profile, "api_timeout_seconds"), 30).None?
                             || NumberOr(PField(profile, "message_events_timeout_seconds"), 180).None?
                             || NumberOr(PField(profile, "conversation_events_timeout_seconds"), 30).None?))
    ensures t == Dust && r.Some? ==>
              var d := r.value.dust;
              && d.dustWorkspaceSid == ToStr(Nullish(PField(profile, "dust_workspace_sid"), JNull))
              && d.dustAgentSid == ToStr(Nullish(PField(profile, "dust_agent_sid"), JNull))
              && d.securityKeyId == ToStr(Nullish(PField(profile, "security_key_id"), JNull))
              && d.returnDirect == TruthyOpt(PField(profile, "return_direct"))
              && d.isIsolated == TruthyOpt(PField(profile, "is_isolated"))
              && d.streamIfSingleTool == TruthyOpt(PField(profile, "stream_if_single_tool"))
              && d.apiTimeoutSeconds == NumberOr(PField(profile, "api_timeout_seconds"), 30).value
              && d.messageEventsTimeoutSeconds == NumberOr(PField(profile, "message_events_timeout_seconds"), 180).value
              && d.conversationEventsTimeoutSeconds == NumberOr(PField(profile, "conversation_events_timeout_seconds"), 30).value
  {
    match t
    case HardCoded =>
      var notes := StringOrNull(PField(profile, "notes"));
      if notes.None? then None else Some(HardcodedProfile(HardcodedTool(id, notes.value)))
    case N8n =>
      var timeout := NumberOr(PField(profile, "timeout_seconds"), 30);
      if timeout.None? then None
      else Some(N8nProfile(N8nTool(
        id,
        ToStr(Nullish(PField(profile, "external_url"), JNull)),
        ToStr(Nullish(PField(profile, "security_key_id"), JNull)),
        TruthyOpt(PField(profile, "return_direct")),
        TruthyOpt(PField(profile, "is_isolated")),
        TruthyOpt(PField(profile, "stream_if_single_tool")),
        TruthyOpt(PField(profile, "flash_answer_needed")),
        timeout.value)))
    case Dust =>
      var api := NumberOr(PField(profile, "api_timeout_seconds"), 30);
      var message := NumberOr(PField(profile, "message_events_timeout_seconds"), 180);
      var conversation := NumberOr(PField(profile, "conversation_events_timeout_seconds"), 30);
      if api.None? || message.None? || conversation.None? then None
      else Some(DustProfile(DustTool(
        id,
        ToStr(Nullish(PField(profile, "dust_workspace_sid"), JNull)),
        ToStr(Nullish(PField(profile, "dust_agent_sid"), JNull)),
        ToStr(Nullish(PField(profile, "security_key_id"), JNull)),
        TruthyOpt(PField(profile, "return_direct")),
        TruthyOpt(PField(profile, "is_isolated")),
        TruthyOpt(PField(profile, "stream_if_single_tool")),
        api.value, message.value, conversation.value)))
  }

  /** The request after the checks that precede the transaction. */
  datatype Request = Request(
    explicitCallName: string,
    readableName: string,
    toolType: TypeChoice,
    profile: JVal,
    tagIds: seq<string>)

  function ParseRequest(body: Option<JVal>, admin: bool): Request {
    Request(
      TrimmedField(body, "explicit_call_name"),
      TrimmedField(body, "readable_name"),
      EffectiveType(RequestedType(Get(body, "tool_type")), admin),
      ProfileOf(Get(body, "profile")),
      TagIdsOf(Get(body, "tag_ids")))
  }

  /** The registry row a successful transaction writes. */
  function NewRow(req: Request, s: Store, env: WriteEnv): (row: RegistryRow)
    requires |MissingTagIds(s, req.tagIds)| == 0 && req.toolType.Valid?
    ensures row.id == env.newId && row.toolType == req.toolType.t && row.description.None?
    ensures row.explicitCallName == req.explicitCallName && row.readableName == req.readableName
    ensures |row.tags| == |req.tagIds| && forall i :: 0 <= i < |row.tags| ==> row.tags[i].id == req.tagIds[i]
  {
    RegistryRow(env.newId, req.explicitCallName, req.readableName, None,
                req.toolType.t, TagsFor(s, req.tagIds), env.now)
  }

  /** The transaction: tag check, registry row, profile, all or nothing. */
  function Create(req: Request, s: Store, env: WriteEnv): (o: Outcome<string>)
    ensures o.handled.Returned?
    ensures o.handled.reply.Status() in {CREATED, BAD_REQUEST, CONFLICT, SERVER_ERROR}
    ensures o.handled.reply.Status() == CREATED <==>
              |MissingTagIds(s, req.tagIds)| == 0 && req.toolType.Valid? && !NameTaken(s, req.explicitCallName)
              && !env.fault && BuildProfile(req.toolType.t, req.profile, env.newId).Some?
    ensures o.handled.reply.Status() != CREATED ==> o.store == s
    ensures o.handled.reply.Status() == CREATED ==>
              o.handled.reply == Json(CREATED, env.newId)
              && o.store == AddProfile(s.(registry := s.registry + [NewRow(req, s, env)]),
                                       BuildProfile(req.toolType.t, req.profile, env.newId).value)
    ensures |MissingTagIds(s, req.tagIds)| > 0 ==> o.handled.reply == Error(BAD_REQUEST, "invalid_tag_ids")
    ensures |MissingTagIds(s, req.tagIds)| == 0 && req.toolType.Valid? && NameTaken(s, req.explicitCallName) ==>
              o.handled.reply == Error(CONFLICT, "explicit_call_name_conflict")
    ensures |MissingTagIds(s, req.tagIds)| == 0 && req.toolType.Invalid? ==>
              o.handled.reply == Error(SERVER_ERROR, "create_failed")
    ensures |MissingTagIds(s, req.tagIds)| == 0 && req.toolType.Valid? && !NameTaken(s, req.explicitCallName)
            && (env.fault || BuildProfile(req.toolType.t, req.profile, env.newId).None?) ==>
              o.handled.reply == Error(SERVER_ERROR, "create_failed")
  {
    if |MissingTagIds(s, req.tagIds)| > 0 then Refuse(s, BAD_REQUEST, "invalid_tag_ids")
    else if req.toolType.Invalid? then Refuse(s, SERVER_ERROR, "create_failed")
    else if NameTaken(s, req.explicitCallName) then Refuse(s, CONFLICT, "explicit_call_name_conflict")
    else if env.fault then Refuse(s, SERVER_ERROR, "create_failed")
    else
      match BuildProfile(req.toolType.t, req.profile, env.newId)
      case None => Refuse(s, SERVER_ERROR, "create_failed")
      case Some(p) =>
        Outcome(Returned(Json(CREATED, env.newId)), AddProfile(s.(registry := s.registry + [NewRow(req, s, env)]), p))
  }

  /** On success exactly one registry row and exactly one profile are added:
      the row carries the generated id, the names and the effective type,
      and the profile is of that type and shares the id. Nothing else in the
      database changes. */
  lemma CreateAddsOneOfEach(req: Request, s: Store, env: WriteEnv)
    requires Create(req, s, env).handled.reply.Status() == CREATED
    ensures var o := Create(req, s, env);
            && req.toolType.Valid?
            && |o.store.registry| == |s.registry| + 1
            && o.store.registry[..|s.registry|] == s.registry
            && o.store.registry[|s.registry|] == NewRow(req, s, env)
            && ProfileCount(o.store) == ProfileCount(s) + 1
            && (req.toolType.t == HardCoded ==> |o.store.hardcoded| == |s.hardcoded| + 1
                                                && o.store.n8n == s.n8n && o.store.dust == s.dust)
            && (req.toolType.t == N8n ==> |o.store.n8n| == |s.n8n| + 1
                                          && o.store.n8n[|s.n8n|].id == env.newId && o.store.dust == s.dust)
            && (req.toolType.t == Dust ==> |o.store.dust| == |s.dust| + 1
                                           && o.store.dust[|s.dust|].id == env.newId && o.store.n8n == s.n8n)
            && o.store.userRoles == s.userRoles && o.store.tags == s.tags && o.store.keys == s.keys
  {
    var row := NewRow(req, s, env);
    var p := BuildProfile(req.toolType.t, req.profile, env.newId).value;
    assert (s.registry + [row])[..|s.registry|] == s.registry;
    assert p.Kind() == req.toolType.t && p.Id() == env.newId;
  }

  /** `POST /api/tools` for the authenticated user `userId`; `body` is the
      parsed JSON, `None` when it did not parse. */
  function Post(body: Option<JVal>, userId: string, s: Store, env: WriteEnv): (o: Outcome<string>)
    ensures o.handled.Returned?
    ensures o.handled.reply.Status() in {CREATED, BAD_REQUEST, CONFLICT, SERVER_ERROR}
    ensures o.handled.reply.Status() != CREATED ==> o.store == s
    ensures !TruthyOpt(body) ==> o.handled.reply == Error(BAD_REQUEST, "invalid_json")
    ensures TruthyOpt(body) && (TrimmedField(body, "explicit_call_name") == "" || TrimmedField(body, "readable_name") == "")
            ==> o.handled.reply == Error(BAD_REQUEST, "missing_fields")
    ensures !Admissible(body, IsAdmin(s, userId)) ==> o.handled.reply.Error? && o.handled.reply.status == BAD_REQUEST
    ensures Admissible(body, IsAdmin(s, userId)) ==> o == Create(ParseRequest(body, IsAdmin(s, userId)), s, env)
  {
    if !TruthyOpt(body) then Refuse(s, BAD_REQUEST, "invalid_json")
    else
      var req := ParseRequest(body, IsAdmin(s, userId));
      if req.explicitCallName == "" || req.readableName == "" then Refuse(s, BAD_REQUEST, "missing_fields")
      else if !ProfileComplete(req.toolType, req.profile) then Refuse(s, BAD_REQUEST, "missing_profile_fields")
      else Create(req, s, env)
  }

  /** Whether the body passes the checks before the transaction. */
  predicate Admissible(body: Option<JVal>, admin: bool) {
    TruthyOpt(body)
    && ParseRequest(body, admin).explicitCallName != ""
    && ParseRequest(body, admin).readableName != ""
    && ProfileComplete(ParseRequest(body, admin).toolType, ParseRequest(body, admin).profile)
  }

  /** An admin's N8N or DUST request missing a required profile field is
      refused with 400 `missing_profile_fields`. */
  lemma IncompleteProfileRefused(body: Option<JVal>, userId: string, s: Store, env: WriteEnv)
    requires TruthyOpt(body)
    ensures var req := ParseRequest(body, IsAdmin(s, userId));
            req.explicitCallName != "" && req.readableName != "" && !ProfileComplete(req.toolType, req.profile) ==>
              Post(body, userId, s, env) == Outcome(Returned(Error(BAD_REQUEST, "missing_profile_fields")), s)
  {
  }

  /** A non-admin never meets a 403 and never creates anything but a
      HARD_CODED tool, whatever type the body asks for. */
  lemma NonAdminForcedHardcoded(body: Option<JVal>, userId: string, s: Store, env: WriteEnv)
    requires !IsAdmin(s, userId)
    ensures Post(body, userId, s, env).handled.reply.Status() != FORBIDDEN
    ensures var o := Post(body, userId, s, env);
            o.handled.reply.Status() == CREATED ==>
              o.store.registry[|s.registry|].toolType == HardCoded
              && |o.store.hardcoded| == |s.hardcoded| + 1 && o.store.n8n == s.n8n && o.store.dust == s.dust
  {
    var o := Post(body, userId, s, env);
    if o.handled.reply.Status() == CREATED {
      var req := ParseRequest(body, IsAdmin(s, userId));
      assert req.toolType == Valid(HardCoded);
      CreateAddsOneOfEach(req, s, env);
    }
  }

  /** An unknown tag id refuses the request and creates nothing, whatever
      else the body holds. */
  lemma UnknownTagCreatesNothing(body: Option<JVal>, userId: string, s: Store, env: WriteEnv, i: nat)
    ensures var ids := ParseRequest(body, IsAdmin(s, userId)).tagIds;
            Admissible(body, IsAdmin(s, userId)) && i < |ids| && !TagExists(s, ids[i]) ==>
              Post(body, userId, s, env) == Outcome(Returned(Error(BAD_REQUEST, "invalid_tag_ids")), s)
  {
    var ids := ParseRequest(body, IsAdmin(s, userId)).tagIds;
    if i < |ids| && !TagExists(s, ids[i]) {
      assert ids[i] in MissingTagIds(s, ids);
    }
  }

  /** Omitted timeouts take their defaults: 30 seconds for N8N, and
      30/180/30 for the three DUST timeouts. */
  lemma TimeoutDefaults(profile: JVal, id: string)
    requires profile.JObj?
    ensures "timeout_seconds" !in profile.fields ==>
              BuildProfile(N8n, profile, id).Some? && BuildProfile(N8n, profile, id).value.n8n.timeoutSeconds == 30
    ensures "api_timeout_seconds" !in profile.fields && "message_events_timeout_seconds" !in profile.fields
            && "conversation_events_timeout_seconds" !in profile.fields ==>
              && BuildProfile(Dust, profile, id).Some?
              && BuildProfile(Dust, profile, id).value.dust.apiTimeoutSeconds == 30
              && BuildProfile(Dust, profile, id).value.dust.messageEventsTimeoutSeconds == 180
              && BuildProfile(Dust, profile, id).value.dust.conversationEventsTimeoutSeconds == 30
  {
  }

  /** The flags are `!!value`: any truthy value sets them, a missing one
      clears them. */
  lemma FlagsAreTruthiness(profile: JVal, id: string)
    requires BuildProfile(N8n, profile, id).Some?
    ensures var n := BuildProfile(N8n, profile, id).value.n8n;
            && (n.returnDirect <==> TruthyOpt(PField(profile, "return_direct")))
            && (n.isIsolated <==> TruthyOpt(PField(profile, "is_isolated")))
            && (n.streamIfSingleTool <==> TruthyOpt(PField(profile, "stream_if_single_tool")))
            && (n.flashAnswerNeeded <==> TruthyOpt(PField(profile, "flash_answer_needed")))
  {
  }

  /** The name clash answer: a taken explicit call name gives 409 and
      nothing is written, provided the request got that far. */
  lemma NameClashIsConflict(body: Option<JVal>, userId: string, s: Store, env: WriteEnv)
    ensures var req := ParseRequest(body, IsAdmin(s, userId));
            Admissible(body, IsAdmin(s, userId)) && |MissingTagIds(s, req.tagIds)| == 0 && req.toolType.Valid?
            && NameTaken(s, req.explicitCallName) ==>
              Post(body, userId, s, env) == Outcome(Returned(Error(CONFLICT, "explicit_call_name_conflict")), s)
  {
  }
}

=== FILE: ttl_cache.dfy ===
/** The shape shared by the client's in-memory caches (the roles hook, the
    tags store and the security-keys store): some data, a loading flag, an
    error message and the time of the last completed fetch. A fetch is two
    steps, because other callers run while it awaits the network: `Begin`
    (skipped while loading or while the last fetch is fresh), then one of
    `Settle` or `Fail` with the time taken at `Begin`. */
module TtlCache {
  import opened Wrappers

  datatype Cache<+T> = Cache(data: T, loading: bool, error: Option<string>, lastFetchedAt: Option<int>)

  /** What a `fetch` came to: it rejected with an error message, or a
      response arrived with its status, its text and its body, which either
      parsed into the expected shape or failed with a message. */
  datatype Fetched<+T> =
    | Rejected(message: string)
    | Response(status: int, text: string, body: Result<T, string>)

  /** The empty cache every store starts from. */
  function Initial<T>(data: T): (c: Cache<T>)
    ensures !c.loading && c.error.None? && c.lastFetchedAt.None? && c.data == data
  {
    Cache(data, false, None, None)
  }

  /** `lastFetchedAt && now - lastFetchedAt < TTL`: a stamp of 0 is falsy
      and never counts as fresh. */
  predicate Fresh<T>(c: Cache<T>, now: int, ttl: int) {
    c.lastFetchedAt.Some? && c.lastFetchedAt.value != 0 && now - c.lastFetchedAt.value < ttl
  }

  /** The guard and the first `set`: `None` when the call returns at once,
      otherwise the cache marked loading with the error cleared. */
  function Begin<T>(c: Cache<T>, now: int, ttl: int): (r: Option<Cache<T>>)
    ensures r.None? <==> c.loading || Fresh(c, now, ttl)
    ensures r.Some? ==> r.value.loading && r.value.error.None?
                        && r.value.data == c.data && r.value.lastFetchedAt == c.lastFetchedAt
  {
    if c.loading || Fresh(c, now, ttl) then None
    else Some(c.(loading := true, error := None))
  }

  /** A fetch that delivered data: the data replaced, loading over, stamped
      with the time the fetch began. The error stays as `Begin` left it. */
  function Settle<T>(c: Cache<T>, data: T, stamp: int): (r: Cache<T>)
    ensures r.data == data && !r.loading && r.lastFetchedAt == Some(stamp) && r.error == c.error
  {
    c.(data := data, loading := false, lastFetchedAt := Some(stamp))
  }

  /** A fetch that failed: the previous data kept, the message recorded,
      and the failure stamped too, so it is not retried before the TTL. */
  function Fail<T>(c: Cache<T>, message: string, stamp: int): (r: Cache<T>)
    ensures r.data == c.data && !r.loading && r.lastFetchedAt == Some(stamp) && r.error == Some(message)
  {
    c.(error := Some(message), loading := false, lastFetchedAt := Some(stamp))
  }

  /** `set({ lastFetchedAt: null })`: the next fetch is not skipped for
      freshness; nothing else changes. */
  function Invalidate<T>(c: Cache<T>): (r: Cache<T>)
    ensures r.lastFetchedAt.None? && r.data == c.data && r.loading == c.loading && r.error == c.error
    ensures forall now, ttl :: !Fresh(r, now, ttl)
  {
    c.(lastFetchedAt := None)
  }

  /** `fetchIfNeeded`, given the store's own completion step `complete`:
      skipped while a fetch is in flight or the data is fresh, otherwise
      the completion runs on the cache marked loading with the error
      cleared. */
  function FetchIfNeeded<T>(c: Cache<T>, now: int, ttl: int, complete: Cache<T> -> Cache<T>): (r: Cache<T>)
    ensures c.loading || Fresh(c, now, ttl) ==> r == c
    ensures !c.loading && !Fresh(c, now, ttl) ==> r == complete(c.(loading := true, error := None))
  {
    match Begin(c, now, ttl)
    case None => c
    case Some(b) => complete(b)
  }

  /** `forceRefresh`: the stamp is cleared first, so only a fetch in flight
      skips the call; the TTL never does. */
  function ForceRefresh<T>(c: Cache<T>, now: int, ttl: int, complete: Cache<T> -> Cache<T>): (r: Cache<T>)
    ensures c.loading ==> r == Invalidate(c)
    ensures !c.loading ==> r == complete(c.(loading := true, error := None, lastFetchedAt := None))
  {
    FetchIfNeeded(Invalidate(c), now, ttl, complete)
  }

  /** While a fetch is in flight every further call is skipped, whatever
      the time. */
  lemma InFlightDeduplicated<T>(c: Cache<T>, now: int, later: int, ttl: int)
    requires Begin(c, now, ttl).Some?
    ensures Begin(Begin(c, now, ttl).value, later, ttl).None?
  {
  }

  /** A completed fetch stamped at a non-zero time keeps every call within
      the TTL from fetching again. */
  lemma CompletedIsFresh<T>(c: Cache<T>, stamp: int, later: int, ttl: int)
    requires !c.loading && c.lastFetchedAt == Some(stamp) && stamp != 0
    requires stamp <= later < stamp + ttl
    ensures Begin(c, later, ttl).None?
  {
  }

  /** After the TTL has run out the next call fetches again. */
  lemma StaleRefetches<T>(c: Cache<T>, stamp: int, later: int, ttl: int)
    requires !c.loading && c.lastFetchedAt == Some(stamp) && later >= stamp + ttl
    ensures Begin(c, later, ttl).Some?
  {
  }

  /** After an invalidation a call that finds no fetch in flight fetches. */
  lemma InvalidateForcesFetch<T>(c: Cache<T>, now: int, ttl: int)
    requires !c.loading
    ensures Begin(Invalidate(c), now, ttl) == Some(c.(loading := true, error := None, lastFetchedAt := None))
  {
  }
}

=== FILE: user_info.dfy ===
/** The upstream identity service (`MAIN_USERINFO_URL`, a GraphQL endpoint
    answering `query Me { me { id email } }`), as the routes that consult it
    see its answer. The call itself is not modelled: its outcome is a
    parameter. */
module UserInfo {
  import opened Wrappers
  import opened Js
  import Http

  /** What the `me` call came to: `fetch` rejected, or a response arrived
      with its status and its body parsed as JSON (`None` when it does not
      parse). */
  datatype MeCall =
    | NetworkError
    | Responded(status: int, json: Option<JVal>)

  /** `json?.data?.me`. */
  function Me(json: JVal): (me: Option<JVal>)
    ensures me.Some? ==> json.JObj? && "data" in json.fields && json.fields["data"].JObj?
                         && "me" in json.fields["data"].fields && me.value == json.fields["data"].fields["me"]
  {
    Get(Get(Some(json), "data"), "me")
  }

  /** The `me.id` the service confirmed, when the call succeeded with a
      parsable body whose `data.me.id` is truthy. */
  function ConfirmedId(call: MeCall): (id: Option<JVal>)
    ensures id.Some? ==> call.Responded? && Http.IsOk(call.status) && call.json.Some? && Truthy(id.value)
    ensures id.Some? ==> Get(Me(call.json.value), "id") == id
    ensures call.Responded? && Http.IsOk(call.status) && call.json.Some? && TruthyOpt(Get(Me(call.json.value), "id")) ==>
              id == Get(Me(call.json.value), "id")
  {
    if call.Responded? && Http.IsOk(call.status) && call.json.Some? then
      var v := Get(Me(call.json.value), "id");
      if TruthyOpt(v) then v else None
    else None
  }

  /** A response `{"data": {"me": {"id": id}}}` with a 200 status. */
  function MeResponse(id: string): MeCall {
    Responded(200, Some(JObj(map["data" := JObj(map["me" := JObj(map["id" := JStr(id)])])])))
  }

  /** The service confirms a non-empty string id it sends back. */
  lemma MeResponseConfirms(id: string)
    requires id != ""
    ensures ConfirmedId(MeResponse(id)) == Some(JStr(id))
  {
  }
}

=== FILE: user_roles_cache.dfy ===
/** The client's roles cache (src/hooks/useUserRoles.ts): fetches
    `/api/auth/roles` at most once a minute, derives `isAdmin` from the roles,
    and treats a 401 as "no roles" rather than as an error. */
module UserRolesCache {
  import opened Wrappers
  import opened Http
  import Strings
  import opened TtlCache
  import ToolStore
  import UserInfo
  import RolesRoute

  const TtlMs: int := 60_000

  datatype Roles = Roles(roles: seq<string>, isAdmin: bool)

  type RolesCache = Cache<Roles>

  /** The response body as the hook reads it: `json.roles`, `None` when
      the field is absent or null. */
  type RolesBody = Option<seq<string>>

  /** The store's initial state, which `reset` restores. */
  function Reset(): (c: RolesCache)
    ensures c == Initial(Roles([], false))
  {
    Initial(Roles([], false))
  }

  /** `isAdmin` always says whether ADMIN is among the roles. */
  predicate Consistent(c: RolesCache) {
    c.data.isAdmin <==> "ADMIN" in c.data.roles
  }

  /** The message thrown for a non-ok response. */
  function HttpErrorMessage(status: int, text: string): (m: string)
    ensures m != ""
    ensures text != "" ==> m == text
    ensures text == "" ==> m == "Failed to load roles: " + Strings.IntToString(status)
  {
    if text != "" then text else "Failed to load roles: " + Strings.IntToString(status)
  }

  /** The roles a successful response yields: `json.roles || []`. */
  function RolesFrom(body: RolesBody): (r: Roles)
    ensures r.roles == body.GetOr([])
    ensures r.isAdmin <==> "ADMIN" in r.roles
  {
    var roles := body.GetOr([]);
    Roles(roles, "ADMIN" in roles)
  }

  /** Everything after `set({ loading: true, error: null })`. */
  function Complete(c: RolesCache, now: int, f: Fetched<RolesBody>): (r: RolesCache)
    ensures !r.loading && r.lastFetchedAt == Some(now)
    ensures f.Response? && f.status == UNAUTHORIZED ==> r.data == Roles([], false) && r.error == c.error
    ensures f.Response? && f.status != UNAUTHORIZED && !IsOk(f.status) ==>
              r.data == c.data && r.error == Some(HttpErrorMessage(f.status, f.text))
    ensures f.Response? && IsOk(f.status) && f.body.Success? ==> r.data == RolesFrom(f.body.value) && r.error == c.error
    ensures f.Rejected? ==> r.data == c.data && r.error == Some(f.message)
    ensures f.Response? && IsOk(f.status) && f.body.Failure? ==> r.data == c.data && r.error == Some(f.body.error)
  {
    match f
    case Rejected(message) => Fail(c, message, now)
    case Response(status, text, body) =>
      if status == UNAUTHORIZED then Settle(c, Roles([], false), now)
      else if !IsOk(status) then Fail(c, HttpErrorMessage(status, text), now)
      else if body.Failure? then Fail(c, body.error, now)
      else Settle(c, RolesFrom(body.value), now)
  }

  /** `fetchRolesOnce`, with the fetch's outcome as a parameter. */
  function FetchRolesOnce(c: RolesCache, now: int, f: Fetched<RolesBody>): (r: RolesCache)
    ensures Begin(c, now, TtlMs).None? ==> r == c
    ensures Begin(c, now, TtlMs).Some? ==> !r.loading && r.lastFetchedAt == Some(now)
    ensures Begin(c, now, TtlMs).Some? && r.error.Some? ==>
              f.Rejected? || (f.status != UNAUTHORIZED && (!IsOk(f.status) || f.body.Failure?))
    ensures Begin(c, now, TtlMs).Some? ==>
              (r.error.None? <==> f.Response? && (f.status == UNAUTHORIZED || (IsOk(f.status) && f.body.Success?)))
    ensures Begin(c, now, TtlMs).Some? && f.Response? && f.status == UNAUTHORIZED ==> r.data == Roles([], false)
    ensures Begin(c, now, TtlMs).Some? && f.Response? && IsOk(f.status) && f.body.Success? ==>
              r.data == RolesFrom(f.body.value)
    ensures Begin(c, now, TtlMs).Some? && r.error.Some? ==> r.data == c.data
  {
    match Begin(c, now, TtlMs)
    case None => c
    case Some(b) => Complete(b, now, f)
  }

  /** `invalidateUserRoles`. */
  function InvalidateUserRoles(c: RolesCache): (r: RolesCache)
    ensures r.data == c.data && r.lastFetchedAt.None?
  {
    Invalidate(c)
  }

  /** Every operation keeps `isAdmin` in step with the roles. */
  lemma {:induction false} OperationsKeepConsistent(c: RolesCache, now: int, f: Fetched<RolesBody>)
    requires Consistent(c)
    ensures Consistent(FetchRolesOnce(c, now, f))
    ensures Consistent(InvalidateUserRoles(c))
    ensures Consistent(Reset())
  {
    match Begin(c, now, TtlMs)
    case None =>
    case Some(b) =>
      assert Consistent(b);
      var r := Complete(b, now, f);
      assert r.data == b.data || r.data == Roles([], false) || (f.Response? && f.body.Success? && r.data == RolesFrom(f.body.value));
  }

  /** A failed refresh keeps the roles the user had before. */
  lemma FailureKeepsRoles(c: RolesCache, now: int, message: string)
    ensures FetchRolesOnce(c, now, Rejected(message)).data == c.data
  {
  }

  /** Within a minute of a completed fetch (stamped at a non-zero time) the
      next call does nothing, whatever the network would have answered. */
  lemma SecondCallWithinTtlIsNoOp(c: RolesCache, now: int, later: int, f: Fetched<RolesBody>, g: Fetched<RolesBody>)
    requires now != 0 && now <= later < now + TtlMs
    requires Begin(c, now, TtlMs).Some?
    ensures var r := FetchRolesOnce(c, now, f);
            FetchRolesOnce(r, later, g) == r
  {
    var r := FetchRolesOnce(c, now, f);
    CompletedIsFresh(r, now, later, TtlMs);
  }

  /** What the client learns from the roles endpoint: after a successful
      fetch, `isAdmin` holds exactly when the database gives ADMIN to the
      id the endpoint resolved, and the roles are never empty. */
  lemma ClientSeesServerRoles(c: RolesCache, now: int, tokenId: string, url: Option<string>,
                              call: UserInfo.MeCall, s: ToolStore.Store, text: string)
    requires Begin(c, now, TtlMs).Some?
    ensures var reply := RolesRoute.Get(tokenId, url, call, s);
            var r := FetchRolesOnce(c, now, Response(OK, text, Success(Some(reply.payload.roles))));
            && r.error.None?
            && (r.data.isAdmin <==> ToolStore.IsAdmin(s, RolesRoute.CanonicalUserId(url, call, tokenId)))
            && |r.data.roles| > 0
  {
  }
}

=== FILE: user_route.dfy ===
/** The current-user endpoint (`GET /api/auth/user`,
    src/app/api/auth/user/route.ts). It does its own token handling (no
    wrapper): 401 without a token or when anything throws; with the identity
    service configured, every upstream problem that is not a network error
    is a hard 403. */
module UserRoute {
  import opened Wrappers
  import opened Http
  import opened Js
  import opened ServerAuth
  import opened UserInfo
  import WithAuth
  import RolesRoute
  import ToolStore

  /** The response body. `id` and `email` may come from the identity
      service, which can send any JSON value; `email` is omitted when both
      sources lack it. */
  datatype UserPayload = UserPayload(
    id: JVal,
    email: Option<JVal>,
    active: bool,
    roles: seq<string>,
    tenantId: Option<string>)

  /** What the identity service contributed: nothing (URL unset), or the
      `me` object it returned. */
  datatype Upstream = NotConsulted | Confirmed(me: JVal)

  /** The upstream half of the route: `None` is the 403 answer; a network
      error is the thrown case. */
  function Consult(url: Option<string>, call: MeCall): (r: Handled<Upstream>)
    ensures !Present(url) ==> r == Returned(Json(OK, NotConsulted))
    ensures Present(url) && call.NetworkError? ==> r == Threw
    ensures Present(url) && call.Responded? && !IsOk(call.status) ==> r == Returned(Error(FORBIDDEN, "Forbidden"))
    ensures Present(url) && call.Responded? && call.json.None? ==> r == Returned(Error(FORBIDDEN, "Forbidden"))
    ensures r.Returned? && r.reply.Json? && r.reply.payload.Confirmed? ==>
              Present(url) && call.Responded? && IsOk(call.status) && call.json.Some?
              && Me(call.json.value) == Some(r.reply.payload.me) && Js.Truthy(r.reply.payload.me)
  {
    if !Present(url) then Returned(Json(OK, NotConsulted))
    else
      match call
      case NetworkError => Threw
      case Responded(status, json) =>
        if !IsOk(status) then Returned(Error(FORBIDDEN, "Forbidden"))
        else if json.None? then Returned(Error(FORBIDDEN, "Forbidden"))
        else
          var me := Me(json.value);
          if !TruthyOpt(me) then Returned(Error(FORBIDDEN, "Forbidden"))
          else Returned(Json(OK, Confirmed(me.value)))
  }

  /** `meId || user.id`, `meEmail || user.email`, and the token's roles and
      tenant with their defaults. */
  function Compose(user: CurrentUser, up: Upstream): (p: UserPayload)
    ensures p.active
    ensures p.roles == (if user.roles.Some? then user.roles.value else [])
    ensures p.tenantId == user.tenantId
    ensures up.NotConsulted? ==> p.id == JStr(user.id)
    ensures up.Confirmed? && TruthyOpt(Js.Get(Some(up.me), "id")) ==> p.id == Js.Get(Some(up.me), "id").value
    ensures up.Confirmed? && !TruthyOpt(Js.Get(Some(up.me), "id")) ==> p.id == JStr(user.id)
    ensures up.Confirmed? && TruthyOpt(Js.Get(Some(up.me), "email")) ==> p.email == Js.Get(Some(up.me), "email")
    ensures (up.NotConsulted? || !TruthyOpt(Js.Get(Some(up.me), "email"))) ==>
              p.email == (if user.email.Some? then Some(JStr(user.email.value)) else None)
  {
    var meId := if up.Confirmed? then Js.Get(Some(up.me), "id") else None;
    var meEmail := if up.Confirmed? then Js.Get(Some(up.me), "email") else None;
    var tokenEmail := if user.email.Some? then Some(JStr(user.email.value)) else None;
    UserPayload(
      if TruthyOpt(meId) then meId.value else JStr(user.id),
      if TruthyOpt(meEmail) then meEmail else tokenEmail,
      true,
      if user.roles.Some? then user.roles.value else [],
      user.tenantId)
  }

  /** `GET /api/auth/user`. */
  function Get(cookieHeader: Option<string>, cookieName: string, verify: Verifier,
               url: Option<string>, call: MeCall): (r: Reply<UserPayload>)
    ensures WithAuth.ReadToken(cookieHeader, cookieName).None? ==> r == Error(UNAUTHORIZED, "Unauthorized")
    ensures WithAuth.Authenticate(cookieHeader, cookieName, verify).None? ==> r == Error(UNAUTHORIZED, "Unauthorized")
    ensures r.Status() in {OK, UNAUTHORIZED, FORBIDDEN}
    ensures r.Status() == OK ==>
              var user := WithAuth.Authenticate(cookieHeader, cookieName, verify);
              user.Some? && Consult(url, call).Returned? && Consult(url, call).reply.Json?
              && r == Json(OK, Compose(user.value, Consult(url, call).reply.payload))
    ensures WithAuth.Authenticate(cookieHeader, cookieName, verify).Some? && Consult(url, call).Threw? ==>
              r == Error(UNAUTHORIZED, "Unauthorized")
    ensures WithAuth.Authenticate(cookieHeader, cookieName, verify).Some? && Consult(url, call).Returned? ==>
              r == match Consult(url, call).reply
                   case Error(status, code) => Error(status, code)
                   case Json(_, up) => Json(OK, Compose(WithAuth.Authenticate(cookieHeader, cookieName, verify).value, up))
  {
    match WithAuth.Authenticate(cookieHeader, cookieName, verify)
    case None => Error(UNAUTHORIZED, "Unauthorized")
    case Some(user) =>
      match Consult(url, call)
      case Threw => Error(UNAUTHORIZED, "Unauthorized")
      case Returned(Error(status, code)) => Error(status, code)
      case Returned(Json(_, up)) => Json(OK, Compose(user, up))
  }

  /** Without the identity service the answer comes from the token alone,
      whatever the (never made) call would have returned. */
  lemma UnsetUrlUsesToken(cookieHeader: Option<string>, cookieName: string, verify: Verifier, c1: MeCall, c2: MeCall)
    ensures Get(cookieHeader, cookieName, verify, None, c1) == Get(cookieHeader, cookieName, verify, None, c2)
    ensures WithAuth.Authenticate(cookieHeader, cookieName, verify).Some? ==>
              && Get(cookieHeader, cookieName, verify, None, c1).Json?
              && Get(cookieHeader, cookieName, verify, None, c1).payload.id
                 == JStr(WithAuth.Authenticate(cookieHeader, cookieName, verify).value.id)
              && Get(cookieHeader, cookieName, verify, None, c1).payload.active
  {
  }

  /** The inconsistency with the roles endpoint: for the same signed-in user
      and the same failing answer of the identity service (a non-ok status,
      a body that does not parse, or no `data.me`), this route answers 403
      while the roles route answers 200 with the token id's roles. */
  lemma HardFailWhereRolesSoftFail(cookieHeader: Option<string>, cookieName: string, verify: Verifier,
                                   url: string, call: MeCall, s: ToolStore.Store)
    requires url != "" && call.Responded?
    requires !IsOk(call.status) || call.json.None? || !TruthyOpt(Me(call.json.value))
    ensures WithAuth.Authenticate(cookieHeader, cookieName, verify).Some? ==>
              Get(cookieHeader, cookieName, verify, Some(url), call) == Error(FORBIDDEN, "Forbidden")
    ensures WithAuth.Authenticate(cookieHeader, cookieName, verify).Some? ==>
              var tokenId := WithAuth.Authenticate(cookieHeader, cookieName, verify).value.id;
              var roles := RolesRoute.Get(tokenId, Some(url), call, s);
              roles.status == OK && roles.payload.userId == tokenId
  {
    if IsOk(call.status) && call.json.Some? {
      assert Js.Get(Me(call.json.value), "id").None?;
    }
  }

  /** A network error reaching the identity service is a 401, not a 403:
      the throw lands in the route's outer `catch`. */
  lemma NetworkErrorIsUnauthorized(cookieHeader: Option<string>, cookieName: string, verify: Verifier, url: string)
    requires url != ""
    ensures Get(cookieHeader, cookieName, verify, Some(url), NetworkError) == Error(UNAUTHORIZED, "Unauthorized")
  {
  }
}

=== FILE: with_auth.dfy ===
/** The authentication gates built on the server primitives:
    `withAuth` (src/lib/auth/withAuth.ts), which answers 401 or delegates to
    the wrapped handler, and `getCurrentUser`
    (src/lib/auth/getCurrentUser.ts), which yields the user or null. */
module WithAuth {
  import opened Wrappers
  import opened Http
  import opened ServerAuth

  /** The token both gates act on: the cookie value, unless it is missing or
      empty (`if (!token)`). */
  function ReadToken(cookieHeader: Option<string>, name: string): (r: Option<string>)
    ensures r.Some? ==> r == GetAuthCookie(cookieHeader, name) && r.value != ""
    ensures r.None? <==> GetAuthCookie(cookieHeader, name) in {None, Some("")}
  {
    var t := GetAuthCookie(cookieHeader, name);
    if t.Some? && t.value != "" then t else None
  }

  /** The user a request authenticates as, if any: a present token that
      verifies and maps to a user. */
  function Authenticate(cookieHeader: Option<string>, name: string, verify: Verifier): (r: Option<CurrentUser>)
    ensures r.Some? <==> ReadToken(cookieHeader, name).Some?
                         && VerifyJwtToken(ReadToken(cookieHeader, name).value, verify).Success?
    ensures r.Some? ==> r.value == VerifyJwtToken(ReadToken(cookieHeader, name).value, verify).value
    ensures r.Some? ==> r.value.id != "" && r.value.active
  {
    match ReadToken(cookieHeader, name)
    case None => None
    case Some(token) =>
      match VerifyJwtToken(token, verify)
      case Failure(_) => None
      case Success(u) => Some(u)
  }

  /** The body every authentication failure answers with. */
  function Unauthorized<T>(): Reply<T> {
    Error(UNAUTHORIZED, "Unauthorized")
  }

  /** `withAuth(handler)` applied to a request: 401 without a token or when
      verification fails, otherwise the handler's reply unchanged, except that
      a handler that throws is answered with 401 too. */
  function Gate<T>(cookieHeader: Option<string>, name: string, verify: Verifier,
                   handler: CurrentUser -> Handled<T>): (r: Reply<T>)
    ensures ReadToken(cookieHeader, name).None? ==> r == Unauthorized()
    ensures (ReadToken(cookieHeader, name).Some?
             && VerifyJwtToken(ReadToken(cookieHeader, name).value, verify).Failure?) ==> r == Unauthorized()
    ensures forall u :: Authenticate(cookieHeader, name, verify) == Some(u) ==>
              r == (if handler(u).Returned? then handler(u).reply else Unauthorized())
    ensures r == Unauthorized() || exists u :: handler(u) == Returned(r)
  {
    match Authenticate(cookieHeader, name, verify)
    case None => Unauthorized()
    case Some(u) =>
      match handler(u)
      case Threw => Unauthorized()
      case Returned(reply) => reply
  }

  /** Without an authenticated user the handler is never consulted: any two
      handlers give the same reply. */
  lemma HandlerNotInvokedWithoutUser<T>(cookieHeader: Option<string>, name: string, verify: Verifier,
                                        h1: CurrentUser -> Handled<T>, h2: CurrentUser -> Handled<T>)
    requires Authenticate(cookieHeader, name, verify).None?
    ensures Gate(cookieHeader, name, verify, h1) == Gate(cookieHeader, name, verify, h2) == Unauthorized()
  {
  }

  /** `getCurrentUser`: null (None) without a token or when verification
      throws, otherwise exactly the verified user. */
  function GetCurrentUser(cookieHeader: Option<string>, name: string, verify: Verifier): (r: Option<CurrentUser>)
    ensures ReadToken(cookieHeader, name).None? ==> r.None?
    ensures r.Some? <==> ReadToken(cookieHeader, name).Some?
                         && VerifyJwtToken(ReadToken(cookieHeader, name).value, verify).Success?
    ensures r.Some? ==> verify(ReadToken(cookieHeader, name).value).Some?
                        && r.value == VerifyJwtToken(ReadToken(cookieHeader, name).value, verify).value
  {
    Authenticate(cookieHeader, name, verify)
  }

  /** The two gates agree: `withAuth` delegates exactly when `getCurrentUser`
      finds a user, and then passes that user to the handler. */
  lemma GatesAgree<T>(cookieHeader: Option<string>, name: string, verify: Verifier,
                      handler: CurrentUser -> Handled<T>)
    ensures GetCurrentUser(cookieHeader, name, verify).None? ==>
              Gate(cookieHeader, name, verify, handler) == Unauthorized()
    ensures (GetCurrentUser(cookieHeader, name, verify).Some?
             && handler(GetCurrentUser(cookieHeader, name, verify).value).Returned?) ==>
              Gate(cookieHeader, name, verify, handler)
                == handler(GetCurrentUser(cookieHeader, name, verify).value).reply
  {
  }
}

=== FILE: wrappers.dfy ===
/** Option and Result values used throughout the model in place of JavaScript's
    `null`/`undefined` and thrown exceptions. */
module Wrappers {

  datatype Option<+T> = None | Some(value: T) {

    /** Returns the wrapped value, or `default` when there is none. */
    function GetOr(default: T): T {
      match this
      case Some(v) => v
      case None => default
    }
  }

  datatype Result<+R, +E> = Success(value: R) | Failure(error: E)
}
